=== FILE: README.md ===
# blender-render-tool, modelled in Dafny

A desktop tool that keeps a list of Blender projects, each with its render
settings. It stores them in SQLite and renders them by starting Blender in
the background with one of two worker scripts:

- a thumbnail worker that prints the rendered PNG as a base64 `data:` line;
- a full-render worker that reads its settings from argparse options.

This project models the core of that tool as pure functions over immutable
values and proves what the pieces promise each other:

- `Models` (`project.py`): the settings checks and the thread-count rule,
  the dictionary form and its round trip, and the project defaults.
- `Manager` (`blender_manager.py`): the two command lines and the guards
  before them, the scan of the thumbnail worker's output, the outcome of a
  full render, and the settings read from a scene.
- `PreviewScript` (`render_preview_script.py`): the positional arguments,
  the fixed preview profile, the engine branch, and the data-line / error-line
  protocol.
- `RenderScript` (`render_script.py`): the `--` slice, an argparse model
  (flags, required options, `choices`, `type=int`, last value wins, extras
  rejected), the image/animation dispatch, and `setup_render_settings`.
- `Protocol`: cross-file agreement.
  - The thumbnail worker reads back by position what the manager wrote.
  - The full-render worker's argparse reads back every option the manager
    wrote.
  - The worker renders the project's file, with the project's frame or
    range and its engine settings.
  - Base64 output printed among other lines decodes to the rendered bytes.
- `Database` (`db_manager.py`): the three tables. The projects table is kept
  in row order, because `INSERT OR REPLACE` moves a row to the end.
- `MainWindow` (`main_window.py`): move up/down, remove, the render queue,
  the guards of a single render, the offered formats, and the preview's id
  check.
- Helper modules model the Python library behaviour the core relies on:
  - `Results`: Option and Result.
  - `Text`: `str(int)`, `int(str)`, `strip`, `splitlines`.
  - `Paths`: POSIX `pathlib.PurePath` parse/format, `/`, `.parent`,
    `os.path.basename`.
  - `Base64`: section 4 of RFC 4648.

Parameters stand for the host and the outside world:

- `cpuCount: nat` is `psutil.cpu_count` (0 for "unknown").
- `existing: set<string>` is the set of paths `os.path.exists` accepts.
- `freshId` is the id `uuid4()` draws.
- The worker's captured output and exit code come in as a `ProcessResult`.
- What Blender rendered comes in as bytes or an error message.

Behaviour worth knowing:

- The file format is checked against the image and movie lists together,
  whatever the render type (`project.py:46`).
- Both worker commands run Blender with `--background --python <script> --`.
- `render_queue` starts every queued job at once, each on its own thread.
  The model records the order the jobs are handed over in.
- The worker writes to `parent(output)/filename`. Together with the
  manager's `output/filename`, a file name that holds a slash ends up with
  its directory twice (`Protocol.NestedFilenameRepeatsDirectory`). A file
  name of `.` makes the worker write to the output directory's parent.

## Model

| member | source | states |
|---|---|---|
| Models.MaxThreads | src/models/project.py:53 | the machine's thread bound is at least 1 and is the CPU count when that is known |
| Models.FixThreads | src/models/project.py:54-57 | the thread count ends in 1..max; a value out of range becomes max and one in range is kept; the rejecting `elif` is never taken |
| Models.NewSettings | src/models/project.py:34-57 | construction succeeds exactly when the engine, the render type, both sample ranges and the format (against the image and movie lists together, empty lists defaulted) pass; engine is checked before render type; the result is Valid, has threads by the threads rule, empty format lists replaced by the defaults and set paths normalised, and keeps every other field |
| Models.NormalizedPathsAreFixed | src/models/project.py:48-51 | the output and Blender paths, once normalised, are fixed points of normalisation |
| Models.NewSettingsOfValid | src/models/project.py:34-57 | settings that already satisfy the invariant are rebuilt unchanged |
| Models.NewSettingsIdempotent | src/models/project.py:34-57 | building settings a second time changes nothing |
| Models.NewSettingsKeepsMeaning | src/models/project.py:34-57 | normalising keeps a set path's meaning; a non-empty format list and an in-range thread count are kept as given |
| Models.ThreadsNeverRejected | src/models/project.py:54-57 | the thread count never decides whether construction fails |
| Models.DefaultsBuild | src/models/project.py:11-36 | the dataclass defaults build, with threads set to the machine's count and the default image formats |
| Models.ToDict | src/models/project.py:59-84 | the dictionary holds only field keys |
| Models.ToDictAt | src/models/project.py:61-83 | every field is stored under its own name with its own value |
| Models.FromDict | src/models/project.py:86-89 | a dictionary with a key that is not a field is rejected; an accepted one gives Valid settings; a field name can only appear as its field key, so each keyword argument has one encoding |
| Models.FieldsOfToDict | src/models/project.py:59-89 | reading the keyword arguments back from `to_dict` gives every field back |
| Models.FromDictToDict | src/models/project.py:59-89 | `from_dict(to_dict(s)) == s` for valid settings and the same machine |
| Models.FromEmptyDict | src/models/project.py:86-89 | `from_dict({})` is `Settings()` |
| Models.NewProject | src/models/project.py:100-107 | the path is normalised; an empty name becomes the path's basename and an empty id the fresh id, non-empty ones are kept; a dictionary goes through `from_dict` and fails exactly when it does |
| Models.NewProjectWellFormed | src/models/project.py:100-105 | every constructed project has an id, a normalised path, and a name unless its basename is empty |
| Models.NewProjectOfWellFormed | src/models/project.py:100-107 | rebuilding a constructed project from its fields gives it back without drawing an id |
| Models.DefaultNameIsLastPart | src/models/project.py:101-103 | a project added without a name is named after the last part of its path |
| Paths.Parse | src/models/project.py:101 | parsing yields a root of "", "/" or "//" and parts that are non-empty, not ".", and slash-free |
| Paths.ParseFormat | src/models/project.py:101 | formatting a parsed path and parsing it again gives the same path |
| Paths.NormalizeIdempotent | src/models/project.py:49 | `str(Path(str(Path(s)))) == str(Path(s))` |
| Paths.BasenameOfFormat | src/models/project.py:103 | the basename of a normalised path is its last part ("." or "" when it has none) |
| Paths.ParentOfChild | src/blender/render_script.py:34 | for a one-part name, `(p / name).parent == p` and `(p / name).name` is that part |
| Paths.ChildPath | src/blender/render_script.py:34 | formatting `p / name` and parsing it back gives a path whose parent is `p` and whose name is the one part of `name` |
| Paths.ParseOnePart | src/blender/blender_manager.py:121 | a plain part such as `output` parses to a relative path of that one part |
| Paths.ParseEmpty | src/blender/render_script.py:33 | the empty string parses to the current directory, so an empty file name is not one part |
| Text.ParseIntOfIntToString | src/blender/render_script.py:25-28 | `int(str(n)) == n` for every integer |
| Text.BoolFlag | src/blender/blender_manager.py:254 | `str(int(b))` parses back to 1 or 0 |
| Text.Splitlines | src/blender/blender_manager.py:185 | no line returned contains a line break |
| Text.FirstWithPrefix | src/blender/blender_manager.py:184-188 | the scan returns a line of the input with the prefix, and finds none exactly when no line has it |
| Text.FirstWithPrefixSkips | src/blender/blender_manager.py:185-188 | lines without the prefix before the first match do not change what the scan finds |
| Text.SplitlinesOfJoinLines | src/blender/blender_manager.py:185 | splitting joined single lines gives the lines back |
| Text.StripPrinted | src/blender/blender_manager.py:182 | stripping printed output removes only the final newline when the first and last lines are framed by visible characters |
| Base64.Encode | src/blender/render_preview_script.py:69 | the encoding's length is a multiple of four, and it is empty exactly for no bytes |
| Base64.Decode | src/blender/blender_manager.py:191 | decoding succeeds only on a multiple of four characters |
| Base64.DecodeEncode | src/blender/blender_manager.py:191 | decoding an encoding gives the original bytes (section 4 of RFC 4648) |
| Base64.EncodeChars | src/blender/render_preview_script.py:69 | an encoding contains only alphabet characters and "=" |
| Manager.PreviewExecutable | src/blender/blender_manager.py:139 | the project's Blender path, or the manager's executable when that is empty |
| Manager.PreviewArguments | src/blender/blender_manager.py:159-171 | the worker gets exactly six arguments |
| Manager.PreviewCommand | src/blender/blender_manager.py:139-171 | a worker starts exactly when the executable is set and exists and the script exists; the argv is the executable, `--background --python script --`, then the six arguments |
| Manager.AfterFirstComma | src/blender/blender_manager.py:191 | the result is the suffix after the first comma of the line |
| Manager.AfterFirstCommaOfDataLine | src/blender/blender_manager.py:186-191 | for a data line, the text after the first comma is the text after the prefix |
| Manager.DecodePreviewOutput | src/blender/blender_manager.py:182-197 | no prefixed line gives None; otherwise the image is the decoding of the first prefixed line of the stripped output, after its prefix |
| Manager.ThumbnailData | src/blender/blender_manager.py:173-207 | exit 0 gives the decoded output; a non-zero exit or an exception gives None |
| Manager.ThumbnailCallback | src/blender/blender_manager.py:139-207 | a request a guard refused gives the callback None and starts no worker; a launched one gives what the finished worker's result decodes to |
| Manager.RenderOutput | src/blender/blender_manager.py:225-227 | without a file name `--output` is the normalised output path; with one it parses to the output path joined with the name, and for a one-part name its parent is the output path and its name is the file name |
| Manager.Flatten | src/blender/blender_manager.py:236-262 | each option/value pair is written as two consecutive arguments in order |
| Manager.RenderCommand | src/blender/blender_manager.py:211-264 | a render starts exactly when the project's Blender path is set and exists and the script exists; the argv has 36 (image) or 40 (animation) elements: the head, the option pairs, and the project's file last |
| Manager.RenderResult | src/blender/blender_manager.py:266-284 | success exactly for exit 0, with the fixed message; otherwise a message starting "Ошибка: ", followed by the stderr for a non-zero exit; the project id is always reported |
| Manager.EngineOfScene | src/blender/blender_manager.py:111 | "EEVEE" exactly for BLENDER_EEVEE and BLENDER_EEVEE_NEXT, otherwise "CYCLES" |
| Manager.TypeOfFormat | src/blender/blender_manager.py:112 | "Image" exactly for PNG, JPEG and EXR, otherwise "Animation" |
| Manager.SceneSettings | src/blender/blender_manager.py:100-124 | resolution, fps, frame and format fields are the scene's; engine and type follow the scene mapping; absent Cycles or EEVEE blocks give 128, no denoising, "CPU" and 64; threads are at most both counts and equal one of them, the machine's when absent; the format lists are the defaults; the output path is the scene's when set and otherwise `output` beside the file; the output file name is the file's stem; the Blender path is the manager's |
| Manager.SceneSettingsLoad | src/blender/blender_manager.py:100-124 | the scene's dictionary builds into settings exactly when its sample counts and format are in range, keeping the scene's values, the threads brought within the machine's count and the file's stem as output name |
| Manager.SettingsFromProject | src/blender/blender_manager.py:93-129 | a missing file or unreadable scene gives None; otherwise the dictionary of the scene's settings |
| Manager.EeveeSceneWithManyCyclesSamplesRejected | src/blender/blender_manager.py:111-113 | an EEVEE scene whose Cycles sample count exceeds 256 gives a dictionary `from_dict` rejects |
| PreviewScript.ParseInt | src/blender/render_preview_script.py:27 | `int()` succeeds exactly on a decimal literal and gives its value |
| PreviewScript.ParseArgs | src/blender/render_preview_script.py:24-29 | fewer than nine arguments is an IndexError; on success the six values are argv[5..10], the two numbers parsed |
| PreviewScript.Configure | src/blender/render_preview_script.py:39-55 | PNG, 512x288 at 100% and the argv's threads always; CYCLES gets 16 samples and the argv's denoise and device, EEVEE becomes BLENDER_EEVEE with 16 samples; any other engine is an error |
| PreviewScript.Prepare | src/blender/render_preview_script.py:24-55 | the checks pass only for a full argv whose file exists |
| PreviewScript.RunScript | src/blender/render_preview_script.py:22-87 | exactly one line is printed; exit 0 exactly when the checks and the render succeed, with the data line of the rendered bytes; otherwise exit 1 and a line starting "Error: " |
| PreviewScript.DataLine | src/blender/render_preview_script.py:71 | the line starts with the data prefix |
| PreviewScript.ErrorLineIsNotData | src/blender/render_preview_script.py:84-87 | a failed run never prints a line the manager would read as an image |
| RenderScript.FlagOf | src/blender/render_script.py:69-86 | a token names an option only if it is that option's exact name |
| RenderScript.FlagOfName | src/blender/render_script.py:69-86 | every declared option is recognised by its own name |
| RenderScript.Classify | src/blender/render_script.py:88 | an exact option name is an option; a token that is empty or does not start with a dash is an argument |
| RenderScript.IntIsValue | src/blender/render_script.py:88 | the text of any integer, negative ones included, is read as a value, never as an option |
| RenderScript.CheckValue | src/blender/render_script.py:69-73 | `--type` accepts exactly "image" and "animation" (else an invalid choice), the four frame options exactly integer literals (else an invalid int), every other option any value; an accepted value is stored as written |
| RenderScript.Finish | src/blender/render_script.py:69-87 | parsing succeeds only with every required option, exactly one positional and no extras; the positional is the project path |
| RenderScript.ParseArgs | src/blender/render_script.py:68-88 | an argv without "--" fails (ValueError from `index`); a parsed namespace has `--type` image or animation |
| RenderScript.ParseTail | src/blender/render_script.py:68-88 | parsing the tokens after the separator fails when reading them fails or leaves unknown options or extra positionals; a parsed namespace has `--type` image or animation |
| RenderScript.ParseArgsOfTail | src/blender/render_script.py:88 | with a "--" in argv, parsing is parsing of the tokens after the first one |
| RenderScript.ParseTailRejectsUnknown | src/blender/render_script.py:88 | an unknown option after the separator, with no "--" before it, makes parsing fail (unrecognized arguments) |
| RenderScript.ParseTailRejectsTrailingOption | src/blender/render_script.py:88 | an option name as the last argument, with no "--" before it, makes parsing fail (expected one argument) |
| RenderScript.ScanKeepsUnknown | src/blender/render_script.py:88 | an unknown option not behind a "--" is never taken as a value and ends up among the extras |
| RenderScript.ScanRejectsTrailingOption | src/blender/render_script.py:88 | reading tokens that end with an option name fails |
| RenderScript.Int | src/blender/render_script.py:25-28 | `int()` succeeds exactly on a decimal literal and gives its value |
| RenderScript.OutputFilepath | src/blender/render_script.py:32-36 | without a file name the output is the normalised `--output`; with one it parses to the parent of `--output` joined with the name, and for a one-part name it sits beside `--output` under that name |
| RenderScript.SetupEngine | src/blender/render_script.py:38-46 | CYCLES gets the Cycles block with the parsed samples and threads, the device as given and denoising on exactly when the parsed flag is not 0; any other engine gets the EEVEE block with the parsed samples; it fails exactly when one of the numbers it reads is not an integer |
| RenderScript.Setup | src/blender/render_script.py:21-46 | the file path is the composed output path; the format and fps base are passed through |
| RenderScript.Plan | src/blender/render_script.py:49-64 | the project file is opened; image renders `--frame`, animation sets start, end and step; an image render without `--frame` is an error |
| RenderScript.Run | src/blender/render_script.py:67-111 | an argv without "--" fails before anything is rendered |
| Protocol.PreviewArgumentsRoundTrip | src/blender/render_preview_script.py:24-29 | the thumbnail worker reads back, by position, the file, id, engine, denoise flag, device and threads the manager wrote |
| Protocol.PreviewPrepareSucceeds | src/blender/render_preview_script.py:24-55 | a thumbnail command the manager launched passes the worker's checks exactly when the engine is CYCLES or EEVEE and the file exists |
| Protocol.DataLineIsOneLine | src/blender/render_preview_script.py:71 | the data line is one non-empty line with visible first and last characters |
| Protocol.LinesOfPrinted | src/blender/blender_manager.py:182-185 | stripping and splitting printed lines gives the lines back |
| Protocol.FirstDataLine | src/blender/blender_manager.py:184-188 | the manager picks the worker's data line out of the other output |
| Protocol.ThumbnailRoundTrip | src/blender/blender_manager.py:182-194 | the bytes the worker printed among other lines, blank ones included, are the bytes the manager decodes, when the output starts and ends with a visible character |
| Protocol.BlankLinesAroundDataLine | src/blender/blender_manager.py:182-194 | a banner, blank lines and a closing line around the data line still give the image back |
| Protocol.NoThumbnailWithoutDataLine | src/blender/blender_manager.py:195-197 | output without a data line gives no image |
| Protocol.FitsAccepted | src/blender/render_script.py:69-73 | a number, or a text not starting with a dash, is read as a value and passes the option's `choices` or `int` check |
| Protocol.ScanNamed | src/blender/render_script.py:88 | scanning option/value pairs records each value under its option and goes on with the rest |
| Protocol.ApplyAt | src/blender/render_script.py:88 | the last occurrence of an option decides its value |
| Protocol.ApplyAbsent | src/blender/render_script.py:88 | an option the pairs do not name keeps its earlier value or stays unset |
| Protocol.NamedPairs | src/blender/blender_manager.py:235-262 | the manager's option names are exactly the options the script declares |
| Protocol.TypeOptionValues | src/blender/render_script.py:69-75 | after the command line, `--type`, `--output` and `--format` hold the manager's values |
| Protocol.FrameOptionValues | src/blender/render_script.py:70-73 | image sets `--frame` and leaves start/end/step unset; animation sets start/end/step and leaves `--frame` unset |
| Protocol.EngineOptionValues | src/blender/render_script.py:76-80 | engine, samples, denoising, device and threads hold the manager's values |
| Protocol.PictureOptionValues | src/blender/render_script.py:81-86 | the resolution, fps, fps base and file name options hold the manager's values |
| Protocol.FinishOfCommand | src/blender/render_script.py:69-87 | with every option read and the project path as the positional, parsing yields the expected namespace |
| Protocol.ParseArgsOfCommand | src/blender/render_script.py:88 | a command laid out as the manager lays it out parses to the expected namespace |
| Protocol.RenderArgumentsRoundTrip | src/blender/blender_manager.py:229-264 | the script's argparse reads back, option by option, every value of a launched render command, and the project file as the positional |
| Protocol.PlanOfProject | src/blender/render_script.py:21-64 | the namespace of a project's command plans the project's frame or range and its engine and scene settings |
| Protocol.RenderJobOfProject | src/blender/render_script.py:67-111 | a full render the manager launched renders the project's file with its frame or range, engine block, resolution, fps and output path |
| Protocol.OutputPathAgrees | src/blender/render_script.py:32-36 | with no file name or a one-part file name, the worker writes to the path the manager sent: the project's output path, or the file name inside the project's output folder |
| Protocol.NestedFilenameRepeatsDirectory | src/blender/render_script.py:32-34 | for a file name `x/y` the manager sends `output/x/y` and the worker writes `output/x/x/y` |
| Database.Lookup | src/database/db_manager.py:51-56 | a found row is in the table with that id; none is found exactly when no row has the id |
| Database.Remove | src/database/db_manager.py:72-76 | the rows kept are exactly those with another id |
| Database.Replace | src/database/db_manager.py:48-57 | rows with the project's id are rewritten in place, the others kept |
| Database.SaveProject | src/database/db_manager.py:38-46 | the project's row is written last; the other tables are untouched |
| Database.UpdateProject | src/database/db_manager.py:48-57 | for an id not in the table nothing changes; the other tables are untouched |
| Database.DeleteProject | src/database/db_manager.py:72-76 | afterwards no row has the id; the thumbnails and Blender paths are untouched |
| Database.LoadRow | src/database/db_manager.py:64-69 | a row loads exactly when `from_dict` accepts its settings, with those settings, the normalised path, the id (or the fresh one), the stored name (or the path's basename) and no preview path |
| Database.Collect | src/database/db_manager.py:63-69 | the loop succeeds exactly when every row loads, with one project per row in order; a failure is the first failing row's error |
| Database.SaveThenLookup | src/database/db_manager.py:38-46 | after saving, the project's id finds the new row and every other id finds what it found before |
| Database.UpdateThenLookup | src/database/db_manager.py:48-57 | after updating, the project's id finds the new row only if it found one before; other ids are unaffected |
| Database.SaveAgreesWithUpdate | src/database/db_manager.py:38-57 | for a stored project, saving and updating leave the same row under every id |
| Database.DeleteThenLookup | src/database/db_manager.py:72-76 | after deleting, only the deleted id stops finding a row |
| Database.StatementsKeepUniqueIds | src/database/db_manager.py:17-22 | save, update and delete keep the primary key unique |
| Database.LoadRowOfSaved | src/database/db_manager.py:38-69 | a saved well-formed project loads back equal, with no preview path |
| Database.CollectAppend | src/database/db_manager.py:63-69 | a row appended to a table that loads is loaded last |
| Database.SaveThenLoad | src/database/db_manager.py:38-70 | after saving, loading returns the other rows' projects in order and then the saved project |
| Database.SaveThumbnail | src/database/db_manager.py:78-85 | `get_thumbnail` then returns the saved bytes for that id and what it returned before for every other id |
| Database.DeleteThumbnail | src/database/db_manager.py:94-98 | `get_thumbnail` then returns None for that id and what it returned before for every other id |
| Database.AddBlenderPath | src/database/db_manager.py:100-107 | `get_blender_paths` then maps the path to the new version and keeps the other paths |
| MainWindow.Swap | src/ui/main_window.py:621-623 | the two elements change places, the rest stay, and the list is a permutation of the original |
| MainWindow.MoveUp | src/ui/main_window.py:618-626 | for a selected row above 0, that project and the one above change places and the selection follows; otherwise nothing changes; always a permutation, with the database untouched |
| MainWindow.MoveDown | src/ui/main_window.py:628-636 | for a selected row that is not the last, that project and the one below change places and the selection follows; otherwise nothing changes; always a permutation |
| MainWindow.MoveDownUndoesMoveUp | src/ui/main_window.py:618-636 | moving a project down after moving it up restores the window |
| MainWindow.MoveUpUndoesMoveDown | src/ui/main_window.py:618-636 | moving a project up after moving it down restores the window |
| MainWindow.DropAt | src/ui/main_window.py:609 | `pop(i)` keeps the elements before `i`, shifts those after, and removes exactly one occurrence |
| MainWindow.RemoveProject | src/ui/main_window.py:606-616 | with no selection nothing changes; otherwise the selected project leaves the list and the current project is cleared exactly when it was the removed one |
| MainWindow.RemoveProjectForgets | src/ui/main_window.py:610-611 | the removed project's row and thumbnail are gone, everyone else's stay |
| MainWindow.FormSettings | src/ui/main_window.py:543-566 | the settings are the form's values with the default format lists, and the output file name is the form's when set and otherwise the project's name |
| MainWindow.Settle | src/ui/main_window.py:542-566 | the form validates for a project exactly when `Settings(...)` accepts it, and the settings kept are exactly the ones `Settings(...)` builds from the form and the project's name |
| MainWindow.SettleTakesForm | src/ui/main_window.py:542-566 | the settings a project keeps are the widgets' values, changed only by the fixed format lists, the file-name fallback to the project's name, the threads rule and path normalisation |
| MainWindow.Adopt | src/ui/main_window.py:567 | a project keeps its identity and takes the validated settings, or stays as it was |
| MainWindow.SaveSettings | src/ui/main_window.py:538-571 | with no current project, or a form that does not validate, nothing changes; otherwise the current project and its list entry take the form's settings and its row is updated |
| MainWindow.SaveSettingsStores | src/ui/main_window.py:567-568 | saving rewrites the current project's row, if any, and no other |
| MainWindow.RenderProject | src/ui/main_window.py:506-518 | a render starts exactly when a current project has both paths set; the guards stop with no project, no Blender path, then no output path; the manager gets the project after `save_settings` |
| MainWindow.Visit | src/ui/main_window.py:530-534 | a visited project becomes current with the form's settings, its row is updated if they validate, and no other entry changes |
| MainWindow.VisitIsSaveSettings | src/ui/main_window.py:532-533 | with distinct ids, visiting a queued project is `save_settings` with that project made current |
| MainWindow.RenderQueue | src/ui/main_window.py:520-536 | an empty list changes nothing and starts nothing |
| MainWindow.ReadyOnes | src/ui/main_window.py:526-532 | exactly the projects with a Blender path and an output path are kept |
| MainWindow.QueueLaunches | src/ui/main_window.py:526-535 | the queue hands over exactly the projects with both paths, in list order, each with the form's settings |
| MainWindow.QueueProjects | src/ui/main_window.py:526-535 | afterwards the handed-over projects carry the form's settings and the others are unchanged |
| MainWindow.QueueCurrent | src/ui/main_window.py:532 | afterwards the current project is the last one handed over, or unchanged when none was |
| MainWindow.QueueStores | src/ui/main_window.py:533 | the database gets one update per handed-over project the form validated for, in order |
| MainWindow.RenderQueueEffect | src/ui/main_window.py:520-536 | the queue's launches, list, current project and database, all at once |
| MainWindow.FormatsFor | src/ui/main_window.py:438-449 | "Image" offers exactly PNG, JPEG, EXR and any other type AVI_JPEG, AVI_RAW, FFMPEG; the manager maps each back to the chosen render type, and each passes the settings' format check |
| MainWindow.UpdatePreview | src/ui/main_window.py:492-504 | a thumbnail is shown exactly when it is non-empty and belongs to the current project |
| MainWindow.OnThumbnailReady | src/ui/main_window.py:407-420 | non-empty bytes are stored for the id; empty ones change nothing |
| MainWindow.PreviewShowsRenderedImage | src/ui/main_window.py:492-504 | a thumbnail request whose worker printed an image shows it exactly when the executable and the script exist, the image is non-empty and its project is still current; a refused request shows nothing |

## Left out

- Qt widgets, layout, pixmaps and signal wiring. The form is a `Settings`
  value, and the list widget is the project list plus a selected row.
- `add_project`, `select_project`, `update_settings_ui` and the
  Blender-path handlers of the window. They are dialogs and widget updates
  outside the modelled core.
- `threading.Thread` and `subprocess.run`. Each worker body is a function of
  the process's exit code and output, and nothing about completion order is
  modelled.
- `bpy`: opening the file, the render itself, `tempfile` and
  `os.makedirs`. A render is a parameter; the scene settings are a value.
- `find_blender_executable` and `get_blender_version`. They are a platform
  path search and a subprocess probe with a timeout.
- The `not project` guard of `render_project_thumbnail`. It dereferences
  None.
- Logging, `logger_config.py` and `main.py`.
- SQLite and JSON. The tables are values, and JSON is taken to round-trip
  exactly. Load order is taken to be row order, as a scan without
  `ORDER BY` gives it.
- Windows paths: only POSIX `PurePath` is modelled.
- Floating point: `fps_base` is carried as its decimal text. The
  `float(...)` at render_script.py:29 is not modelled.
- Text.ParseInt: accepts an optional sign and ASCII decimal digits only.
  Python's `int()` also accepts surrounding white space, underscores and
  any Unicode decimal digit (`int("٣") == 3`), and argparse's negative-number
  test `\d` matches those digits too (RenderScript.IsNegativeNumber).
- PreviewScript.ParseInt: built on Text.ParseInt, so the same narrowing
  applies to the worker's integer arguments.
- RenderScript.Int: built on Text.ParseInt, so the same narrowing applies
  to the render worker's integer options.
- Base64.Decode: accepts only canonical, padded input. Python's
  `b64decode` silently discards characters outside the alphabet.
- RenderScript.ParseArgs: models exact option names and `option value`
  pairs. Prefix abbreviations and `--option=value` are left out. Every
  argparse failure is one error value rather than the usage message and
  exit status 2.
- RenderScript.Classify: argparse's implicit `-h`/`--help`, which prints
  the usage and exits with status 0, is not modelled; it is classified like
  any other unknown dashed token.
- Protocol.ThumbnailRoundTrip: the lines around the data line may be blank,
  but the first printed line must start, and the last end, with a visible
  character. Python also finds the data line when the output is wrapped in
  white space; Blender's banner and closing line are visible.
- Protocol.NoThumbnailWithoutDataLine: carries the same framing condition.
- Protocol.RenderArgumentsRoundTrip: proved for projects whose text values
  (file path, output path, format, device, fps base, file name) do not start
  with a dash, and whose Blender and script paths are not `--`. argparse
  would take a dashed value for an option. The engine is taken to be CYCLES
  or EEVEE, as every constructed Settings has it.
- Protocol.RenderJobOfProject: carries the same preconditions as
  Protocol.RenderArgumentsRoundTrip.
- Models.FromDict: a value of the wrong JSON kind is rejected. Python would
  store it and possibly fail later with a TypeError.
- Database.LoadRow: one fresh id serves the whole load. The primary key
  lets at most one row have an empty id.
- MainWindow.SaveSettings: the current project's list entry is the one with
  the same id. Python updates the very object; ids are fresh uuids.
- MainWindow.RemoveProject: the selection after the list is rebuilt is
  taken to be none (-1).

=== FILE: base64.dfy ===
/** Base 64 encoding with the standard alphabet and "=" padding, as section 4
    of RFC 4648 defines it: the preview script writes `base64.b64encode` of the
    rendered PNG and the manager reads it back with `base64.b64decode`. */
module Base64 {
  import opened Results

  type byte = x: int | 0 <= x < 256

  /** The character for a 6-bit value: A-Z, a-z, 0-9, '+', '/'. */
  function CharOf(i: int): char
    requires 0 <= i < 64
  {
    if i < 26 then (('A' as int) + i) as char
    else if i < 52 then (('a' as int) + (i - 26)) as char
    else if i < 62 then (('0' as int) + (i - 52)) as char
    else if i == 62 then '+'
    else '/'
  }

  /** The 6-bit value of an alphabet character; None for anything else, "=" included. */
  function ValueOf(c: char): (r: Option<int>)
    ensures r.Some? ==> 0 <= r.value < 64
  {
    if 'A' <= c <= 'Z' then Some((c as int) - ('A' as int))
    else if 'a' <= c <= 'z' then Some((c as int) - ('a' as int) + 26)
    else if '0' <= c <= '9' then Some((c as int) - ('0' as int) + 52)
    else if c == '+' then Some(62)
    else if c == '/' then Some(63)
    else None
  }

  lemma ValueOfCharOf(i: int)
    requires 0 <= i < 64
    ensures ValueOf(CharOf(i)) == Some(i)
  {
  }

  /** Characters an encoding may contain: the alphabet and the pad. */
  predicate IsEncodingChar(c: char) {
    ValueOf(c).Some? || c == '='
  }

  function EncodeBlock(a: byte, b: byte, c: byte): (r: string)
    ensures |r| == 4
  {
    [CharOf(a / 4), CharOf((a % 4) * 16 + b / 16), CharOf((b % 16) * 4 + c / 64), CharOf(c % 64)]
  }

  function EncodeTail2(a: byte, b: byte): (r: string)
    ensures |r| == 4
  {
    [CharOf(a / 4), CharOf((a % 4) * 16 + b / 16), CharOf((b % 16) * 4), '=']
  }

  function EncodeTail1(a: byte): (r: string)
    ensures |r| == 4
  {
    [CharOf(a / 4), CharOf((a % 4) * 16), '=', '=']
  }

  /** The last group: one, two or three bytes. */
  function EncodeFinal(bs: seq<byte>): (r: string)
    requires 1 <= |bs| <= 3
    ensures |r| == 4
  {
    if |bs| == 1 then EncodeTail1(bs[0])
    else if |bs| == 2 then EncodeTail2(bs[0], bs[1])
    else EncodeBlock(bs[0], bs[1], bs[2])
  }

  /** `base64.b64encode`: every three bytes become four characters; a final one
      or two bytes are padded with "==" or "=". */
  function Encode(bs: seq<byte>): (s: string)
    ensures |s| % 4 == 0
    ensures |s| == 0 <==> |bs| == 0
  {
    if |bs| == 0 then ""
    else if |bs| <= 3 then EncodeFinal(bs)
    else EncodeBlock(bs[0], bs[1], bs[2]) + Encode(bs[3..])
  }

  /** A group of four alphabet characters: three bytes. */
  function DecodeQuad(q: string): Option<seq<byte>>
    requires |q| == 4
  {
    var v0 :- ValueOf(q[0]);
    var v1 :- ValueOf(q[1]);
    var v2 :- ValueOf(q[2]);
    var v3 :- ValueOf(q[3]);
    Some([v0 * 4 + v1 / 16, (v1 % 16) * 16 + v2 / 4, (v2 % 4) * 64 + v3])
  }

  /** The last group, which may end in "==" (one byte) or "=" (two bytes). */
  function DecodeFinal(q: string): Option<seq<byte>>
    requires |q| == 4
  {
    if q[2] == '=' && q[3] == '=' then
      var v0 :- ValueOf(q[0]);
      var v1 :- ValueOf(q[1]);
      Some([v0 * 4 + v1 / 16])
    else if q[3] == '=' then
      var v0 :- ValueOf(q[0]);
      var v1 :- ValueOf(q[1]);
      var v2 :- ValueOf(q[2]);
      Some([v0 * 4 + v1 / 16, (v1 % 16) * 16 + v2 / 4])
    else DecodeQuad(q)
  }

  /** `base64.b64decode` on well-formed input: groups of four alphabet
      characters, the last group possibly ending in "==" or "=". A length that
      is not a multiple of four, a character outside the alphabet, or a pad
      before the last group is an error (None). */
  function Decode(s: string): (r: Option<seq<byte>>)
    ensures r.Some? ==> |s| % 4 == 0
  {
    if |s| == 0 then Some([])
    else if |s| % 4 != 0 then None
    else if |s| == 4 then DecodeFinal(s)
    else
      var group :- DecodeQuad(s[..4]);
      var rest :- Decode(s[4..]);
      Some(group + rest)
  }

  lemma DecodeEncodeBlock(a: byte, b: byte, c: byte)
    ensures DecodeQuad(EncodeBlock(a, b, c)) == Some([a, b, c])
  {
    var v0, v1, v2, v3 := a / 4, (a % 4) * 16 + b / 16, (b % 16) * 4 + c / 64, c % 64;
    ValueOfCharOf(v0);
    ValueOfCharOf(v1);
    ValueOfCharOf(v2);
    ValueOfCharOf(v3);
    assert v1 / 16 == a % 4 && v1 % 16 == b / 16;
    assert v2 / 4 == b % 16 && v2 % 4 == c / 64;
  }

  lemma DecodeEncodeTail1(a: byte)
    ensures DecodeFinal(EncodeTail1(a)) == Some([a])
  {
    var v0, v1 := a / 4, (a % 4) * 16;
    ValueOfCharOf(v0);
    ValueOfCharOf(v1);
    assert v1 / 16 == a % 4;
  }

  lemma DecodeEncodeTail2(a: byte, b: byte)
    ensures DecodeFinal(EncodeTail2(a, b)) == Some([a, b])
  {
    var v0, v1, v2 := a / 4, (a % 4) * 16 + b / 16, (b % 16) * 4;
    ValueOfCharOf(v0);
    ValueOfCharOf(v1);
    ValueOfCharOf(v2);
    assert v1 / 16 == a % 4 && v1 % 16 == b / 16;
    assert v2 / 4 == b % 16;
  }

  lemma DecodeEncodeBlockFinal(a: byte, b: byte, c: byte)
    ensures DecodeFinal(EncodeBlock(a, b, c)) == Some([a, b, c])
  {
    DecodeEncodeBlock(a, b, c);
    ValueOfCharOf(c % 64);
    ValueOfCharOf((b % 16) * 4 + c / 64);
  }

  lemma DecodeEncodeFinal(bs: seq<byte>)
    requires 1 <= |bs| <= 3
    ensures DecodeFinal(EncodeFinal(bs)) == Some(bs)
  {
    if |bs| == 1 {
      DecodeEncodeTail1(bs[0]);
      assert [bs[0]] == bs;
    } else if |bs| == 2 {
      DecodeEncodeTail2(bs[0], bs[1]);
      assert [bs[0], bs[1]] == bs;
    } else {
      DecodeEncodeBlockFinal(bs[0], bs[1], bs[2]);
      assert [bs[0], bs[1], bs[2]] == bs;
    }
  }

  lemma DecodeGroupThenRest(s: string, x: seq<byte>, y: seq<byte>)
    requires |s| > 4 && |s| % 4 == 0
    requires DecodeQuad(s[..4]) == Some(x) && Decode(s[4..]) == Some(y)
    ensures Decode(s) == Some(x + y)
  {
  }

  lemma SplitAfterThree(bs: seq<byte>)
    requires |bs| >= 3
    ensures [bs[0], bs[1], bs[2]] + bs[3..] == bs
  {
  }

  /** The first group of an encoding of more than three bytes, and what it decodes to. */
  lemma FirstGroup(bs: seq<byte>) returns (g: string)
    requires |bs| > 3
    ensures |g| == 4 && DecodeQuad(g) == Some([bs[0], bs[1], bs[2]])
    ensures Encode(bs)[..4] == g && Encode(bs)[4..] == Encode(bs[3..])
  {
    g := EncodeBlock(bs[0], bs[1], bs[2]);
    DecodeEncodeBlock(bs[0], bs[1], bs[2]);
    assert Encode(bs) == g + Encode(bs[3..]);
  }

  lemma DecodeEncodeStep(bs: seq<byte>)
    requires |bs| > 3
    requires Decode(Encode(bs[3..])) == Some(bs[3..])
    ensures Decode(Encode(bs)) == Some(bs)
  {
    var g := FirstGroup(bs);
    var x := [bs[0], bs[1], bs[2]];
    SplitAfterThree(bs);
    DecodeGroupThenRest(Encode(bs), x, bs[3..]);
  }

  /** Decoding an encoding gives the original bytes. */
  lemma {:induction false} DecodeEncode(bs: seq<byte>)
    ensures Decode(Encode(bs)) == Some(bs)
    decreases |bs|
  {
    if 1 <= |bs| <= 3 {
      DecodeEncodeFinal(bs);
    } else if |bs| > 3 {
      DecodeEncode(bs[3..]);
      DecodeEncodeStep(bs);
    }
  }

  /** The encoding contains only alphabet characters and the pad, so it holds
      no whitespace, no line break and no comma. */
  lemma {:induction false} EncodeChars(bs: seq<byte>)
    ensures forall k :: 0 <= k < |Encode(bs)| ==> IsEncodingChar(Encode(bs)[k])
    decreases |bs|
  {
    if |bs| > 3 {
      EncodeChars(bs[3..]);
      var g := EncodeBlock(bs[0], bs[1], bs[2]);
      forall k | 0 <= k < 4 ensures IsEncodingChar(g[k]) {
        ValueOfCharOf(bs[0] / 4);
        ValueOfCharOf((bs[0] % 4) * 16 + bs[1] / 16);
        ValueOfCharOf((bs[1] % 16) * 4 + bs[2] / 64);
        ValueOfCharOf(bs[2] % 64);
      }
    } else if |bs| >= 1 {
      ValueOfCharOf(bs[0] / 4);
      if |bs| == 1 {
        ValueOfCharOf((bs[0] % 4) * 16);
      } else {
        ValueOfCharOf((bs[0] % 4) * 16 + bs[1] / 16);
        if |bs| == 2 {
          ValueOfCharOf((bs[1] % 16) * 4);
        } else {
          ValueOfCharOf((bs[1] % 16) * 4 + bs[2] / 64);
          ValueOfCharOf(bs[2] % 64);
        }
      }
    }
  }
}

=== FILE: database.dfy ===
/** `src/database/db_manager.py`: the three SQLite tables the tool keeps
    (projects, thumbnails, Blender installations) and the statements it runs
    on them.

    A table is modelled by its contents. The projects table is a sequence in
    row order, because `load_projects` reads it without `ORDER BY` and the
    list of projects on screen follows that order; an `INSERT OR REPLACE`
    deletes the conflicting row and inserts a new one, which lands at the
    end. The settings column holds the JSON text of `to_dict`; JSON encoding
    is taken as exact, so the column holds the dictionary itself. */
module Database {
  import opened Results
  import opened Models
  import Paths
  import Base64

  /** One row of `projects`: `unique_id` (the primary key), `name`,
      `file_path`, `settings`. */
  datatype ProjectRow = ProjectRow(uniqueId: string, name: string, filePath: string, settings: Dict)

  /** The three tables. `thumbnails` is keyed by project id and
      `blender_paths` maps an executable's path to its version text. */
  datatype Store = Store(
    projects: seq<ProjectRow>,
    thumbnails: map<string, seq<Base64.byte>>,
    blenderPaths: map<string, string>)

  /** `init_db` on a fresh file: three empty tables. */
  const EmptyStore := Store([], map[], map[])

  /** The primary key of `projects`: no two rows share an id. */
  predicate UniqueIds(rows: seq<ProjectRow>) {
    forall i, j :: 0 <= i < j < |rows| ==> rows[i].uniqueId != rows[j].uniqueId
  }

  /** The first row with the given id, as `WHERE unique_id = ?` finds it. */
  function Lookup(rows: seq<ProjectRow>, id: string): (r: Option<ProjectRow>)
    ensures r.Some? ==> r.value in rows && r.value.uniqueId == id
    ensures r.None? <==> forall k :: 0 <= k < |rows| ==> rows[k].uniqueId != id
  {
    if rows == [] then None
    else if rows[0].uniqueId == id then Some(rows[0])
    else Lookup(rows[1..], id)
  }

  /** The row `save_project` and `update_project` write for a project. */
  function RowOf(p: Project): ProjectRow {
    ProjectRow(p.uniqueId, p.name, p.filePath, ToDict(p.settings))
  }

  // ---------------------------------------------------------------------
  // Statements on `projects`
  // ---------------------------------------------------------------------

  /** `DELETE FROM projects WHERE unique_id = ?`: every row with that id
      goes, the others keep their order. */
  function Remove(rows: seq<ProjectRow>, id: string): (r: seq<ProjectRow>)
    ensures |r| <= |rows|
    ensures forall x :: x in r <==> x in rows && x.uniqueId != id
  {
    if rows == [] then []
    else if rows[0].uniqueId == id then Remove(rows[1..], id)
    else [rows[0]] + Remove(rows[1..], id)
  }

  /** `UPDATE projects SET name, file_path, settings WHERE unique_id = ?`:
      every row with the project's id is rewritten in place. */
  function Replace(rows: seq<ProjectRow>, row: ProjectRow): (r: seq<ProjectRow>)
    ensures |r| == |rows|
    ensures forall k :: 0 <= k < |rows| ==>
      r[k] == (if rows[k].uniqueId == row.uniqueId then row else rows[k])
  {
    if rows == [] then []
    else [if rows[0].uniqueId == row.uniqueId then row else rows[0]] + Replace(rows[1..], row)
  }

  /** `save_project` (lines 38-46): INSERT OR REPLACE. */
  function SaveProject(db: Store, p: Project): (r: Store)
    ensures r.thumbnails == db.thumbnails && r.blenderPaths == db.blenderPaths
    ensures |r.projects| >= 1 && r.projects[|r.projects| - 1] == RowOf(p)
  {
    db.(projects := Remove(db.projects, p.uniqueId) + [RowOf(p)])
  }

  /** `update_project` (lines 48-57): UPDATE, which touches nothing when no
      row has the project's id. */
  function UpdateProject(db: Store, p: Project): (r: Store)
    ensures r.thumbnails == db.thumbnails && r.blenderPaths == db.blenderPaths
    ensures Lookup(db.projects, p.uniqueId).None? ==> r == db
  {
    var rows := Replace(db.projects, RowOf(p));
    assert Lookup(db.projects, p.uniqueId).None? ==> rows == db.projects;
    db.(projects := rows)
  }

  /** `delete_project` (lines 72-76). */
  function DeleteProject(db: Store, id: string): (r: Store)
    ensures r.thumbnails == db.thumbnails && r.blenderPaths == db.blenderPaths
    ensures Lookup(r.projects, id).None?
  {
    db.(projects := Remove(db.projects, id))
  }

  // ---------------------------------------------------------------------
  // Reading projects back
  // ---------------------------------------------------------------------

  /** One iteration of `load_projects` (lines 64-69): `Settings.from_dict`
      on the stored dictionary, then `Project(...)` with no preview path.
      `freshId` is the `uuid4()` the constructor draws for an empty id. */
  function LoadRow(row: ProjectRow, freshId: string, cpuCount: nat): (r: Result<Project, SettingsError>)
    requires freshId != ""
    ensures r.Ok? <==> FromDict(row.settings, cpuCount).Ok?
    ensures r.Err? ==> r.error == FromDict(row.settings, cpuCount).error
    ensures r.Ok? ==>
      && r.value.settings == FromDict(row.settings, cpuCount).value
      && r.value.filePath == Paths.Normalize(row.filePath)
      && r.value.uniqueId == (if row.uniqueId != "" then row.uniqueId else freshId)
      && r.value.previewPath == ""
      && r.value.name == (if row.name != "" then row.name else Paths.Basename(r.value.filePath))
  {
    var s :- FromDict(row.settings, cpuCount);
    NewProject(row.uniqueId, row.name, row.filePath, Instance(s), "", freshId, cpuCount)
  }

  /** A loop that applies `f` to each element in order and stops at the
      first error. */
  function Collect<A, B, E>(f: A -> Result<B, E>, xs: seq<A>): (r: Result<seq<B>, E>)
    ensures r.Ok? <==> forall k :: 0 <= k < |xs| ==> f(xs[k]).Ok?
    ensures r.Ok? ==> |r.value| == |xs|
    ensures r.Ok? ==> forall k :: 0 <= k < |xs| ==> f(xs[k]) == Ok(r.value[k])
    ensures r.Err? ==> exists k :: 0 <= k < |xs| && f(xs[k]) == Err(r.error)
                                   && forall j :: 0 <= j < k ==> f(xs[j]).Ok?
  {
    if xs == [] then Ok([])
    else
      var y :- f(xs[0]);
      var rest :- Collect(f, xs[1..]);
      Ok([y] + rest)
  }

  /** `load_projects` (lines 59-70): the rows in table order; the first
      row whose settings `from_dict` rejects makes the whole call fail.
      The primary key admits at most one row with an empty id, so one drawn
      id is enough. */
  function LoadProjects(rows: seq<ProjectRow>, freshId: string, cpuCount: nat)
    : (r: Result<seq<Project>, SettingsError>)
    requires freshId != ""
  {
    Collect((row: ProjectRow) => LoadRow(row, freshId, cpuCount), rows)
  }

  // ---------------------------------------------------------------------
  // Thumbnails and Blender installations
  // ---------------------------------------------------------------------

  /** `save_thumbnail` (lines 78-85): INSERT OR REPLACE. */
  function SaveThumbnail(db: Store, id: string, data: seq<Base64.byte>): (r: Store)
    ensures r.projects == db.projects && r.blenderPaths == db.blenderPaths
    ensures GetThumbnail(r, id) == Some(data)
    ensures forall other :: other != id ==> GetThumbnail(r, other) == GetThumbnail(db, other)
  {
    db.(thumbnails := db.thumbnails[id := data])
  }

  /** `get_thumbnail` (lines 87-92): the stored bytes, or `None`. */
  function GetThumbnail(db: Store, id: string): Option<seq<Base64.byte>> {
    if id in db.thumbnails then Some(db.thumbnails[id]) else None
  }

  /** `delete_thumbnail` (lines 94-98). */
  function DeleteThumbnail(db: Store, id: string): (r: Store)
    ensures r.projects == db.projects && r.blenderPaths == db.blenderPaths
    ensures GetThumbnail(r, id) == None
    ensures forall other :: other != id ==> GetThumbnail(r, other) == GetThumbnail(db, other)
  {
    db.(thumbnails := db.thumbnails - {id})
  }

  /** `add_blender_path` (lines 100-107): INSERT OR REPLACE keyed by path. */
  function AddBlenderPath(db: Store, path: string, version: string): (r: Store)
    ensures r.projects == db.projects && r.thumbnails == db.thumbnails
    ensures GetBlenderPaths(r) == GetBlenderPaths(db)[path := version]
    ensures path in GetBlenderPaths(r) && GetBlenderPaths(r)[path] == version
  {
    db.(blenderPaths := db.blenderPaths[path := version])
  }

  /** `get_blender_paths` (lines 109-116): every path with its version. */
  function GetBlenderPaths(db: Store): map<string, string> {
    db.blenderPaths
  }

  // ---------------------------------------------------------------------
  // Properties
  // ---------------------------------------------------------------------

  lemma {:induction false} LookupRemove(rows: seq<ProjectRow>, gone: string, id: string)
    ensures Lookup(Remove(rows, gone), id) == if id == gone then None else Lookup(rows, id)
  {
    if rows != [] {
      LookupRemove(rows[1..], gone, id);
      if rows[0].uniqueId != gone {
        assert ([rows[0]] + Remove(rows[1..], gone))[1..] == Remove(rows[1..], gone);
      }
    }
  }

  lemma {:induction false} LookupAppend(rows: seq<ProjectRow>, row: ProjectRow, id: string)
    ensures Lookup(rows + [row], id) ==
      if Lookup(rows, id).Some? then Lookup(rows, id)
      else if row.uniqueId == id then Some(row) else None
  {
    if rows != [] {
      assert (rows + [row])[1..] == rows[1..] + [row];
      LookupAppend(rows[1..], row, id);
    }
  }

  lemma {:induction false} LookupReplace(rows: seq<ProjectRow>, row: ProjectRow, id: string)
    ensures Lookup(Replace(rows, row), id) ==
      if id == row.uniqueId && Lookup(rows, id).Some? then Some(row) else Lookup(rows, id)
  {
    if rows != [] {
      assert Replace(rows, row)[1..] == Replace(rows[1..], row);
      LookupReplace(rows[1..], row, id);
    }
  }

  /** After `save_project`, the project's id finds the new row and every
      other id finds what it found before. */
  lemma SaveThenLookup(db: Store, p: Project, id: string)
    ensures Lookup(SaveProject(db, p).projects, id) ==
      if id == p.uniqueId then Some(RowOf(p)) else Lookup(db.projects, id)
  {
    LookupRemove(db.projects, p.uniqueId, id);
    LookupAppend(Remove(db.projects, p.uniqueId), RowOf(p), id);
  }

  /** After `update_project`, the project's id finds the new row if it found
      one before; every other id finds what it found before. */
  lemma UpdateThenLookup(db: Store, p: Project, id: string)
    ensures Lookup(UpdateProject(db, p).projects, id) ==
      if id == p.uniqueId && Lookup(db.projects, id).Some? then Some(RowOf(p))
      else Lookup(db.projects, id)
  {
    LookupReplace(db.projects, RowOf(p), id);
  }

  /** For a project already stored, saving and updating store the same
      rows; they differ only in where the row ends up. */
  lemma SaveAgreesWithUpdate(db: Store, p: Project, id: string)
    requires Lookup(db.projects, p.uniqueId).Some?
    ensures Lookup(SaveProject(db, p).projects, id) == Lookup(UpdateProject(db, p).projects, id)
  {
    SaveThenLookup(db, p, id);
    UpdateThenLookup(db, p, id);
  }

  /** After `delete_project`, only the deleted id stops finding a row. */
  lemma DeleteThenLookup(db: Store, gone: string, id: string)
    ensures Lookup(DeleteProject(db, gone).projects, id) ==
      if id == gone then None else Lookup(db.projects, id)
  {
    LookupRemove(db.projects, gone, id);
  }

  lemma {:induction false} RemoveKeepsUniqueIds(rows: seq<ProjectRow>, id: string)
    requires UniqueIds(rows)
    ensures UniqueIds(Remove(rows, id))
  {
    if rows != [] {
      assert UniqueIds(rows[1..]) by {
        forall i, j | 0 <= i < j < |rows[1..]|
          ensures rows[1..][i].uniqueId != rows[1..][j].uniqueId
        {
          assert rows[1..][i] == rows[i + 1] && rows[1..][j] == rows[j + 1];
        }
      }
      RemoveKeepsUniqueIds(rows[1..], id);
      if rows[0].uniqueId != id {
        var rest := Remove(rows[1..], id);
        forall k | 0 <= k < |rest| ensures rest[k].uniqueId != rows[0].uniqueId {
          assert rest[k] in rows[1..];
          var j :| 0 <= j < |rows[1..]| && rows[1..][j] == rest[k];
          assert rows[j + 1] == rest[k];
        }
      }
    }
  }

  /** Every statement on `projects` keeps the primary key. */
  lemma StatementsKeepUniqueIds(db: Store, p: Project, id: string)
    requires UniqueIds(db.projects)
    ensures UniqueIds(SaveProject(db, p).projects)
    ensures UniqueIds(UpdateProject(db, p).projects)
    ensures UniqueIds(DeleteProject(db, id).projects)
  {
    RemoveKeepsUniqueIds(db.projects, p.uniqueId);
    RemoveKeepsUniqueIds(db.projects, id);
    var kept := Remove(db.projects, p.uniqueId);
    assert SaveProject(db, p).projects == kept + [RowOf(p)];
    forall k | 0 <= k < |kept| ensures kept[k].uniqueId != p.uniqueId {
      assert kept[k] in kept;
    }
  }

  /** A project the tool built itself, with settings `from_dict` accepts,
      comes back from its row unchanged, except that the preview path is
      not stored. */
  lemma LoadRowOfSaved(p: Project, freshId: string, cpuCount: nat)
    requires freshId != ""
    requires WellFormedProject(p) && Valid(p.settings, MaxThreads(cpuCount))
    ensures LoadRow(RowOf(p), freshId, cpuCount) == Ok(p.(previewPath := ""))
  {
    FromDictToDict(p.settings, cpuCount);
    NewProjectOfWellFormed(p.(previewPath := ""), freshId, cpuCount);
  }

  /** Dropping elements before a loop that succeeds leaves a loop that
      succeeds. */
  lemma CollectSubset<A, B, E>(f: A -> Result<B, E>, xs: seq<A>, ys: seq<A>)
    requires Collect(f, xs).Ok?
    requires forall y :: y in ys ==> y in xs
    ensures Collect(f, ys).Ok?
  {
    forall k | 0 <= k < |ys| ensures f(ys[k]).Ok? {
      assert ys[k] in xs;
      var j :| 0 <= j < |xs| && xs[j] == ys[k];
    }
  }

  /** An element appended to a loop that succeeds comes out last. */
  lemma CollectAppend<A, B, E>(f: A -> Result<B, E>, xs: seq<A>, x: A)
    requires Collect(f, xs).Ok? && f(x).Ok?
    ensures Collect(f, xs + [x]) == Ok(Collect(f, xs).value + [f(x).value])
  {
    var all := xs + [x];
    forall k | 0 <= k < |all| ensures f(all[k]).Ok? {
      if k < |xs| {
        assert all[k] == xs[k];
      }
    }
    var r := Collect(f, all).value;
    var expected := Collect(f, xs).value + [f(x).value];
    forall k | 0 <= k < |all| ensures r[k] == expected[k] {
      if k < |xs| {
        assert all[k] == xs[k];
      }
    }
    assert r == expected;
  }

  /** Saving a well-formed project into a table that loads makes it the last
      project `load_projects` returns, after the other rows in their order. */
  lemma SaveThenLoad(db: Store, p: Project, freshId: string, cpuCount: nat)
    requires freshId != ""
    requires WellFormedProject(p) && Valid(p.settings, MaxThreads(cpuCount))
    requires LoadProjects(db.projects, freshId, cpuCount).Ok?
    ensures LoadProjects(SaveProject(db, p).projects, freshId, cpuCount)
         == Ok(LoadProjects(Remove(db.projects, p.uniqueId), freshId, cpuCount).value + [p.(previewPath := "")])
  {
    var f := (row: ProjectRow) => LoadRow(row, freshId, cpuCount);
    var kept := Remove(db.projects, p.uniqueId);
    LoadRowOfSaved(p, freshId, cpuCount);
    CollectSubset(f, db.projects, kept);
    CollectAppend(f, kept, RowOf(p));
  }
}

=== FILE: main_window.dfy ===
/** The project-list logic of `src/ui/main_window.py`: reordering and removing
    projects, the render queue, the guards of a single render, the formats
    offered for a render type, and which thumbnails reach the preview.

    The window is reduced to the state these handlers read and write: the
    project list, the selected row (-1 when nothing is selected), the
    current project, and the database. The settings form is a `Settings`
    value holding what its widgets show. */
module MainWindow {
  import opened Results
  import opened Models
  import opened Database
  import Manager
  import Protocol
  import PreviewScript
  import Text
  import Base64

  datatype Window = Window(
    projects: seq<Project>,
    selected: int,
    current: Option<Project>,
    db: Store)

  /** The list widget shows exactly `projects`, so its current row is -1 or
      one of their indices. */
  predicate Selection(w: Window) {
    -1 <= w.selected < |w.projects|
  }

  // ---------------------------------------------------------------------
  // Reordering and removing
  // ---------------------------------------------------------------------

  /** The list with the elements at `i` and `j` exchanged. */
  function Swap(ps: seq<Project>, i: nat, j: nat): (r: seq<Project>)
    requires i < |ps| && j < |ps|
    ensures |r| == |ps| && r[i] == ps[j] && r[j] == ps[i]
    ensures forall k :: 0 <= k < |ps| && k != i && k != j ==> r[k] == ps[k]
    ensures multiset(r) == multiset(ps)
  {
    ps[i := ps[j]][j := ps[i]]
  }

  /** `move_up` (lines 618-626): the selected project changes place with the
      one above it and stays selected. The order is not written to the
      database. */
  function MoveUp(w: Window): (r: Window)
    requires Selection(w)
    ensures Selection(r) && |r.projects| == |w.projects|
    ensures r.current == w.current && r.db == w.db
    ensures multiset(r.projects) == multiset(w.projects)
    ensures w.selected <= 0 ==> r == w
    ensures w.selected > 0 ==>
      && r.selected == w.selected - 1
      && r.projects[r.selected] == w.projects[w.selected]
      && r.projects[w.selected] == w.projects[r.selected]
      && forall k :: 0 <= k < |w.projects| && k != w.selected && k != r.selected ==>
           r.projects[k] == w.projects[k]
  {
    if w.selected > 0 then
      w.(projects := Swap(w.projects, w.selected, w.selected - 1), selected := w.selected - 1)
    else w
  }

  /** `move_down` (lines 628-636): the selected project changes place with
      the one below it and stays selected; the last row does not move. */
  function MoveDown(w: Window): (r: Window)
    requires Selection(w)
    ensures Selection(r) && |r.projects| == |w.projects|
    ensures r.current == w.current && r.db == w.db
    ensures multiset(r.projects) == multiset(w.projects)
    ensures !(0 <= w.selected < |w.projects| - 1) ==> r == w
    ensures 0 <= w.selected < |w.projects| - 1 ==>
      && r.selected == w.selected + 1
      && r.projects[r.selected] == w.projects[w.selected]
      && r.projects[w.selected] == w.projects[r.selected]
      && forall k :: 0 <= k < |w.projects| && k != w.selected && k != r.selected ==>
           r.projects[k] == w.projects[k]
  {
    if w.selected < |w.projects| - 1 && w.selected >= 0 then
      w.(projects := Swap(w.projects, w.selected, w.selected + 1), selected := w.selected + 1)
    else w
  }

  /** Moving a project down undoes moving it up. */
  lemma MoveDownUndoesMoveUp(w: Window)
    requires Selection(w) && w.selected > 0
    ensures MoveDown(MoveUp(w)) == w
  {
    var r := MoveDown(MoveUp(w));
    assert r.projects == w.projects by {
      forall k | 0 <= k < |w.projects| ensures r.projects[k] == w.projects[k] {
        if k != w.selected && k != w.selected - 1 {
          assert MoveUp(w).projects[k] == w.projects[k];
        }
      }
    }
  }

  /** Moving a project up undoes moving it down. */
  lemma MoveUpUndoesMoveDown(w: Window)
    requires Selection(w) && 0 <= w.selected < |w.projects| - 1
    ensures MoveUp(MoveDown(w)) == w
  {
    var r := MoveUp(MoveDown(w));
    assert r.projects == w.projects by {
      forall k | 0 <= k < |w.projects| ensures r.projects[k] == w.projects[k] {
        if k != w.selected && k != w.selected + 1 {
          assert MoveDown(w).projects[k] == w.projects[k];
        }
      }
    }
  }

  /** The list without the element at `i`, as `list.pop(i)` leaves it. */
  function DropAt(ps: seq<Project>, i: nat): (r: seq<Project>)
    requires i < |ps|
    ensures |r| == |ps| - 1
    ensures forall k :: 0 <= k < i ==> r[k] == ps[k]
    ensures forall k :: i <= k < |r| ==> r[k] == ps[k + 1]
    ensures multiset(r) + multiset{ps[i]} == multiset(ps)
  {
    assert ps == ps[..i] + [ps[i]] + ps[i + 1..];
    ps[..i] + ps[i + 1..]
  }

  /** `remove_project` (lines 606-616): the selected project leaves the list,
      its row and thumbnail leave the database, and it stops being the
      current project. Rebuilding the list leaves no row selected. */
  function RemoveProject(w: Window): (r: Window)
    requires Selection(w)
    ensures Selection(r)
    ensures w.selected < 0 ==> r == w
    ensures w.selected >= 0 ==> r.projects == DropAt(w.projects, w.selected) && r.selected == -1
    ensures w.selected >= 0 ==>
      (r.current.None? <==> w.current.None? || w.current == Some(w.projects[w.selected]))
    ensures r.current.Some? ==> r.current == w.current
  {
    if w.selected >= 0 then
      var p := w.projects[w.selected];
      Window(DropAt(w.projects, w.selected), -1,
             if w.current == Some(p) then None else w.current,
             DeleteThumbnail(DeleteProject(w.db, p.uniqueId), p.uniqueId))
    else w
  }

  /** After a removal the database knows nothing more of the removed
      project, and every other project keeps its row and thumbnail. */
  lemma RemoveProjectForgets(w: Window, id: string)
    requires Selection(w) && w.selected >= 0
    ensures var gone := w.projects[w.selected].uniqueId;
      && Lookup(RemoveProject(w).db.projects, id) == (if id == gone then None else Lookup(w.db.projects, id))
      && GetThumbnail(RemoveProject(w).db, id) == (if id == gone then None else GetThumbnail(w.db, id))
  {
    DeleteThenLookup(w.db, w.projects[w.selected].uniqueId, id);
  }

  // ---------------------------------------------------------------------
  // Saving the form and rendering
  // ---------------------------------------------------------------------

  /** The settings `save_settings` builds from the form (lines 543-566): the
      format lists are the fixed defaults and an empty file name falls back
      to the project's name. */
  function FormSettings(form: Settings, projectName: string): (s: Settings)
    ensures s.fileFormatsImage == DefaultImageFormats && s.fileFormatsMovie == DefaultMovieFormats
    ensures s.outputFilename != "" || projectName == ""
    ensures s.outputFilename == (if form.outputFilename != "" then form.outputFilename else projectName)
    ensures s.(fileFormatsImage := form.fileFormatsImage, fileFormatsMovie := form.fileFormatsMovie,
               outputFilename := form.outputFilename) == form
  {
    form.(fileFormatsImage := DefaultImageFormats,
          fileFormatsMovie := DefaultMovieFormats,
          outputFilename := if form.outputFilename != "" then form.outputFilename else projectName)
  }

  /** What `Settings(...)` in `save_settings` makes of the form for a
      project: the validated settings, or None when it raised ValueError. */
  function Settle(form: Settings, cpuCount: nat): (f: Project -> Option<Settings>)
    ensures forall p :: f(p).Some? <==> NewSettings(FormSettings(form, p.name), cpuCount).Ok?
    ensures forall p :: f(p).Some? ==> Ok(f(p).value) == NewSettings(FormSettings(form, p.name), cpuCount)
    ensures forall p :: f(p).Some? ==>
      && Valid(f(p).value, MaxThreads(cpuCount))
      && SameUntouchedFields(f(p).value, FormSettings(form, p.name))
  {
    (p: Project) =>
      match NewSettings(FormSettings(form, p.name), cpuCount)
      case Ok(s) => Some(s)
      case Err(_) => None
  }

  /** `save_settings` keeps what the widgets show: settings the form
      validates to are the form's own values, with the fixed format lists,
      the file name falling back to the project's name, the threads rule and
      normalised paths as the only changes. */
  lemma SettleTakesForm(form: Settings, cpuCount: nat, p: Project)
    requires Settle(form, cpuCount)(p).Some?
    ensures var s := Settle(form, cpuCount)(p).value;
      && s.(fileFormatsImage := form.fileFormatsImage, fileFormatsMovie := form.fileFormatsMovie,
            outputFilename := form.outputFilename, threads := form.threads,
            outputPath := form.outputPath, blenderPath := form.blenderPath) == form
      && s.fileFormatsImage == DefaultImageFormats && s.fileFormatsMovie == DefaultMovieFormats
      && s.outputFilename == (if form.outputFilename != "" then form.outputFilename else p.name)
      && s.threads == FixThreads(form.threads, MaxThreads(cpuCount)).value
      && s.outputPath == NormalizeIfSet(form.outputPath)
      && s.blenderPath == NormalizeIfSet(form.blenderPath)
  {
  }

  /** A project after `save_settings`: it carries the settings the form
      gave, or is unchanged when the form did not validate. */
  function Adopt(p: Project, s: Option<Settings>): (r: Project)
    ensures r.uniqueId == p.uniqueId && r.name == p.name && r.filePath == p.filePath
    ensures r.previewPath == p.previewPath
    ensures s.None? ==> r == p
    ensures s.Some? ==> r.settings == s.value
  {
    if s.Some? then p.(settings := s.value) else p
  }

  /** `save_settings` (lines 538-571) on the current project. The list holds
      the current project itself; ids are fresh uuids, so the list entry is
      the one with the current project's id. */
  function SaveSettings(w: Window, settle: Project -> Option<Settings>): (r: Window)
    ensures |r.projects| == |w.projects| && r.selected == w.selected
    ensures w.current.None? || settle(w.current.value).None? ==> r == w
    ensures w.current.Some? ==> r.current == Some(Adopt(w.current.value, settle(w.current.value)))
    ensures w.current.Some? && settle(w.current.value).Some? ==>
      && r.db == UpdateProject(w.db, r.current.value)
      && forall k :: 0 <= k < |w.projects| ==>
           r.projects[k] == (if w.projects[k].uniqueId == w.current.value.uniqueId
                             then Adopt(w.projects[k], settle(w.current.value)) else w.projects[k])
  {
    match w.current
    case None => w
    case Some(p) =>
      match settle(p)
      case None => w
      case Some(s) =>
        var q := p.(settings := s);
        w.(projects := seq(|w.projects|, k requires 0 <= k < |w.projects| =>
                             if w.projects[k].uniqueId == p.uniqueId then w.projects[k].(settings := s)
                             else w.projects[k]),
           current := Some(q),
           db := UpdateProject(w.db, q))
  }

  /** Saving the form rewrites the current project's row, if the table has
      one, and no other row. */
  lemma SaveSettingsStores(w: Window, settle: Project -> Option<Settings>, id: string)
    requires w.current.Some? && settle(w.current.value).Some?
    ensures var q := Adopt(w.current.value, settle(w.current.value));
      Lookup(SaveSettings(w, settle).db.projects, id)
        == if id == q.uniqueId && Lookup(w.db.projects, id).Some? then Some(RowOf(q))
           else Lookup(w.db.projects, id)
  {
    UpdateThenLookup(w.db, Adopt(w.current.value, settle(w.current.value)), id);
  }

  /** Why `render_project` stopped before starting anything (lines 507-517). */
  datatype Guard = NoProject | NoBlenderPath | NoOutputPath

  /** What `render_project` leaves behind: the window after `save_settings`,
      and what the manager did with the saved project. */
  datatype Started = Started(window: Window, launch: Manager.Launch)

  /** A project the queue and the single render will hand to the manager. */
  predicate Ready(p: Project) {
    p.settings.blenderPath != "" && p.settings.outputPath != ""
  }

  /** `render_project` (lines 506-518): the three guards, in order, then
      `save_settings` and the manager's render of the saved project. The
      guards read the settings from before the save. */
  function RenderProject(w: Window, settle: Project -> Option<Settings>,
                         scriptPath: string, existing: set<string>): (r: Result<Started, Guard>)
    ensures r.Ok? <==> w.current.Some? && Ready(w.current.value)
    ensures w.current.None? ==> r == Err(NoProject)
    ensures w.current.Some? && w.current.value.settings.blenderPath == "" ==> r == Err(NoBlenderPath)
    ensures w.current.Some? ==>
      (w.current.value.settings.blenderPath != "" && w.current.value.settings.outputPath == ""
       ==> r == Err(NoOutputPath))
    ensures r.Ok? ==>
      && r.value.window == SaveSettings(w, settle)
      && r.value.launch == Manager.RenderCommand(Adopt(w.current.value, settle(w.current.value)),
                                                 scriptPath, existing)
  {
    match w.current
    case None => Err(NoProject)
    case Some(p) =>
      if p.settings.blenderPath == "" then Err(NoBlenderPath)
      else if p.settings.outputPath == "" then Err(NoOutputPath)
      else
        var saved := SaveSettings(w, settle);
        Ok(Started(saved, Manager.RenderCommand(saved.current.value, scriptPath, existing)))
  }

  // ---------------------------------------------------------------------
  // The render queue
  // ---------------------------------------------------------------------

  /** The queue's result: the window afterwards and the projects handed to
      the manager, in the order they were handed over. */
  datatype QueueRun = QueueRun(window: Window, launched: seq<Project>)

  /** One pass of the loop in `render_queue` (lines 530-534) for a project
      that passed both checks: it becomes current, `save_settings` gives it
      the form's settings and stores them. */
  function Visit(w: Window, i: nat, settle: Project -> Option<Settings>): (r: Window)
    requires i < |w.projects|
    ensures |r.projects| == |w.projects| && r.selected == w.selected
    ensures r.projects[i] == Adopt(w.projects[i], settle(w.projects[i]))
    ensures forall k :: 0 <= k < |w.projects| && k != i ==> r.projects[k] == w.projects[k]
    ensures r.current == Some(r.projects[i])
    ensures r.db == if settle(w.projects[i]).Some? then UpdateProject(w.db, r.projects[i]) else w.db
  {
    var q := Adopt(w.projects[i], settle(w.projects[i]));
    w.(projects := w.projects[i := q],
       current := Some(q),
       db := if settle(w.projects[i]).Some? then UpdateProject(w.db, q) else w.db)
  }

  /** No two projects in the list share an id; ids are fresh uuids. */
  predicate DistinctIds(ps: seq<Project>) {
    forall a, b :: 0 <= a < b < |ps| ==> ps[a].uniqueId != ps[b].uniqueId
  }

  /** A visit is the window's own `save_settings` once the visited project
      is current (lines 532-533): with distinct ids the entry with the
      current project's id is the visited one. */
  lemma VisitIsSaveSettings(w: Window, i: nat, settle: Project -> Option<Settings>)
    requires i < |w.projects| && DistinctIds(w.projects)
    ensures Visit(w, i, settle) == SaveSettings(w.(current := Some(w.projects[i])), settle)
  {
  }

  /** The loop in `render_queue` (lines 526-535), from the project at index
      `i` on: a project missing a Blender path or an output path is skipped,
      any other is visited and handed to the manager. */
  function QueueFrom(w: Window, i: nat, settle: Project -> Option<Settings>): (r: QueueRun)
    requires i <= |w.projects|
    decreases |w.projects| - i
    ensures |r.window.projects| == |w.projects| && r.window.selected == w.selected
    ensures forall k :: 0 <= k < i ==> r.window.projects[k] == w.projects[k]
  {
    if i == |w.projects| then QueueRun(w, [])
    else if !Ready(w.projects[i]) then QueueFrom(w, i + 1, settle)
    else
      var next := Visit(w, i, settle);
      var rest := QueueFrom(next, i + 1, settle);
      QueueRun(rest.window, [next.projects[i]] + rest.launched)
  }

  /** `render_queue` (lines 520-536). An empty list only logs. */
  function RenderQueue(w: Window, form: Settings, cpuCount: nat): (r: QueueRun)
    ensures |w.projects| == 0 ==> r == QueueRun(w, [])
    ensures |r.window.projects| == |w.projects|
  {
    if |w.projects| == 0 then QueueRun(w, [])
    else QueueFrom(w, 0, Settle(form, cpuCount))
  }

  /** The projects that pass both checks, in list order. */
  function ReadyOnes(ps: seq<Project>): (r: seq<Project>)
    ensures |r| <= |ps|
    ensures forall p :: p in r <==> p in ps && Ready(p)
  {
    if ps == [] then []
    else (if Ready(ps[0]) then [ps[0]] else []) + ReadyOnes(ps[1..])
  }

  /** Each of a list of projects after `save_settings`. */
  function AllAdopt(ps: seq<Project>, settle: Project -> Option<Settings>): (r: seq<Project>)
    ensures |r| == |ps|
    ensures forall k :: 0 <= k < |ps| ==> r[k] == Adopt(ps[k], settle(ps[k]))
  {
    seq(|ps|, k requires 0 <= k < |ps| => Adopt(ps[k], settle(ps[k])))
  }

  /** The database after `update_project`, in order, for each project the
      form validated for. */
  function UpdateAll(db: Store, ps: seq<Project>, settle: Project -> Option<Settings>): (r: Store)
    ensures r.thumbnails == db.thumbnails && r.blenderPaths == db.blenderPaths
    decreases |ps|
  {
    if ps == [] then db
    else
      var next := if settle(ps[0]).Some? then UpdateProject(db, Adopt(ps[0], settle(ps[0]))) else db;
      UpdateAll(next, ps[1..], settle)
  }

  lemma ReadyOnesStep(ps: seq<Project>, i: nat)
    requires i < |ps|
    ensures ReadyOnes(ps[i..]) == (if Ready(ps[i]) then [ps[i]] else []) + ReadyOnes(ps[i + 1..])
  {
    assert ps[i..][1..] == ps[i + 1..];
  }

  /** The queue hands over exactly the projects that pass both checks, in
      list order, each carrying what `save_settings` gave it. */
  lemma {:induction false} QueueLaunches(w: Window, i: nat, settle: Project -> Option<Settings>)
    requires i <= |w.projects|
    ensures QueueFrom(w, i, settle).launched == AllAdopt(ReadyOnes(w.projects[i..]), settle)
    decreases |w.projects| - i
  {
    if i < |w.projects| {
      ReadyOnesStep(w.projects, i);
      var p := w.projects[i];
      if Ready(p) {
        var w' := Visit(w, i, settle);
        assert w'.projects[i + 1..] == w.projects[i + 1..];
        QueueLaunches(w', i + 1, settle);
      } else {
        QueueLaunches(w, i + 1, settle);
      }
    } else {
      assert w.projects[i..] == [];
    }
  }

  /** After the queue, every project that passed the checks carries what
      `save_settings` gave it and every other project is unchanged. */
  lemma {:induction false} QueueProjects(w: Window, i: nat, settle: Project -> Option<Settings>)
    requires i <= |w.projects|
    ensures forall k :: i <= k < |w.projects| ==>
      QueueFrom(w, i, settle).window.projects[k]
        == (if Ready(w.projects[k]) then Adopt(w.projects[k], settle(w.projects[k])) else w.projects[k])
    decreases |w.projects| - i
  {
    if i < |w.projects| {
      var p := w.projects[i];
      if Ready(p) {
        var w' := Visit(w, i, settle);
        QueueProjects(w', i + 1, settle);
      } else {
        QueueProjects(w, i + 1, settle);
      }
    }
  }

  /** The current project after visiting `ready` in order, starting from
      `current`. */
  function LastVisited(ready: seq<Project>, settle: Project -> Option<Settings>,
                       current: Option<Project>): Option<Project> {
    if ready == [] then current
    else Some(Adopt(ready[|ready| - 1], settle(ready[|ready| - 1])))
  }

  lemma LastVisitedCons(p: Project, rest: seq<Project>, settle: Project -> Option<Settings>,
                        current: Option<Project>)
    ensures LastVisited([p] + rest, settle, current)
         == LastVisited(rest, settle, Some(Adopt(p, settle(p))))
  {
    if rest != [] {
      assert ([p] + rest)[|rest|] == rest[|rest| - 1];
    }
  }

  /** After the queue the current project is the last one handed over, or
      what it was when none was. */
  lemma {:induction false} QueueCurrent(w: Window, i: nat, settle: Project -> Option<Settings>)
    requires i <= |w.projects|
    ensures QueueFrom(w, i, settle).window.current
         == LastVisited(ReadyOnes(w.projects[i..]), settle, w.current)
    decreases |w.projects| - i
  {
    if i < |w.projects| {
      ReadyOnesStep(w.projects, i);
      var p := w.projects[i];
      if Ready(p) {
        var w' := Visit(w, i, settle);
        assert w'.projects[i + 1..] == w.projects[i + 1..];
        QueueCurrent(w', i + 1, settle);
        LastVisitedCons(p, ReadyOnes(w.projects[i + 1..]), settle, w.current);
      } else {
        QueueCurrent(w, i + 1, settle);
        assert ReadyOnes(w.projects[i..]) == ReadyOnes(w.projects[i + 1..]);
      }
    } else {
      assert w.projects[i..] == [];
    }
  }

  /** The queue writes to the database once per handed-over project the
      form validated for, in list order. */
  lemma {:induction false} QueueStores(w: Window, i: nat, settle: Project -> Option<Settings>)
    requires i <= |w.projects|
    ensures QueueFrom(w, i, settle).window.db == UpdateAll(w.db, ReadyOnes(w.projects[i..]), settle)
    decreases |w.projects| - i
  {
    if i < |w.projects| {
      ReadyOnesStep(w.projects, i);
      var p := w.projects[i];
      if Ready(p) {
        var w' := Visit(w, i, settle);
        assert w'.projects[i + 1..] == w.projects[i + 1..];
        QueueStores(w', i + 1, settle);
        var ready := ReadyOnes(w.projects[i..]);
        assert ready[1..] == ReadyOnes(w.projects[i + 1..]);
      } else {
        QueueStores(w, i + 1, settle);
        assert ReadyOnes(w.projects[i..]) == ReadyOnes(w.projects[i + 1..]);
      }
    } else {
      assert w.projects[i..] == [];
    }
  }

  /** The whole of `render_queue`: it hands over, in list order, exactly the
      projects that had both paths set, each with the settings the form gave
      it; the list keeps the others unchanged; the last one handed over is
      current; the database got one update per project the form validated
      for. */
  lemma RenderQueueEffect(w: Window, form: Settings, cpuCount: nat)
    ensures var r := RenderQueue(w, form, cpuCount);
      var settle := Settle(form, cpuCount);
      && r.launched == AllAdopt(ReadyOnes(w.projects), settle)
      && (forall k :: 0 <= k < |w.projects| ==>
            r.window.projects[k]
              == (if Ready(w.projects[k]) then Adopt(w.projects[k], settle(w.projects[k])) else w.projects[k]))
      && r.window.current == LastVisited(ReadyOnes(w.projects), settle, w.current)
      && r.window.db == UpdateAll(w.db, ReadyOnes(w.projects), settle)
  {
    var settle := Settle(form, cpuCount);
    assert w.projects[0..] == w.projects;
    QueueLaunches(w, 0, settle);
    QueueProjects(w, 0, settle);
    QueueCurrent(w, 0, settle);
    QueueStores(w, 0, settle);
  }

  // ---------------------------------------------------------------------
  // Formats and thumbnails
  // ---------------------------------------------------------------------

  /** `update_render_type` (lines 438-449): the formats the format box
      offers. They are the formats the manager reads back as this render
      type, and all of them pass the settings' format check. */
  function FormatsFor(renderType: string): (r: seq<string>)
    ensures |r| == 3
    ensures forall f :: f in r ==>
      Manager.TypeOfFormat(f) == (if renderType == "Image" then "Image" else "Animation")
    ensures forall f :: f in r ==> f in DefaultImageFormats + DefaultMovieFormats
    ensures renderType == "Image" ==> r == ["PNG", "JPEG", "EXR"]
    ensures renderType != "Image" ==> r == ["AVI_JPEG", "AVI_RAW", "FFMPEG"]
  {
    if renderType == "Image" then DefaultImageFormats else DefaultMovieFormats
  }

  /** `update_preview` (lines 492-504): the image the preview shows, if any.
      Empty or missing data, no current project, or a thumbnail of another
      project shows nothing. */
  function UpdatePreview(current: Option<Project>, id: string,
                         data: Option<seq<Base64.byte>>): (shown: Option<seq<Base64.byte>>)
    ensures shown.Some? ==> data == shown && |shown.value| > 0
    ensures shown.Some? <==> data.Some? && |data.value| > 0 && current.Some? && current.value.uniqueId == id
  {
    if data.Some? && |data.value| > 0 && current.Some? then
      if current.value.uniqueId == id then data else None
    else None
  }

  /** `save_thumbnail` (lines 407-420), the handler of the manager's
      thumbnail signal: only non-empty data is stored. */
  function OnThumbnailReady(db: Store, id: string, data: seq<Base64.byte>): (r: Store)
    ensures r.projects == db.projects
    ensures GetThumbnail(r, id) == (if |data| > 0 then Some(data) else GetThumbnail(db, id))
    ensures forall other :: other != id ==> GetThumbnail(r, other) == GetThumbnail(db, other)
  {
    if |data| > 0 then SaveThumbnail(db, id, data) else db
  }

  /** A thumbnail request whose worker printed its image line among other
      output shows that image exactly when the worker was launched (the
      executable and the script exist) and the image was rendered for the
      project still current; a refused request, or a thumbnail that arrives
      after another project was selected, shows nothing. */
  lemma PreviewShowsRenderedImage(current: Option<Project>, p: Project,
                                  managerExe: string, scriptPath: string, existing: set<string>,
                                  before: seq<string>, png: seq<Base64.byte>, after: seq<string>,
                                  stderr: string)
    requires Protocol.Noise(before) && Protocol.Noise(after)
    requires Protocol.StartsVisible(before) && Protocol.EndsVisible(after)
    ensures var stdout := Text.Printed(before + [PreviewScript.DataLine(png)] + after);
      var launch := Manager.PreviewCommand(p, managerExe, scriptPath, existing);
      var exe := Manager.PreviewExecutable(p, managerExe);
      UpdatePreview(current, p.uniqueId, Manager.ThumbnailCallback(launch, Manager.Exited(0, stdout, stderr)))
        == (if && exe != "" && exe in existing && scriptPath in existing
               && |png| > 0 && current.Some? && current.value.uniqueId == p.uniqueId
            then Some(png) else None)
  {
    Protocol.ThumbnailRoundTrip(before, png, after);
  }
}

=== FILE: manager.dfy ===
/** `src/blender/blender_manager.py`: the command lines the manager builds for
    the two worker scripts, the reading of the preview worker's output, the
    outcome of a full render, and the settings read from a scene.

    The file system is a set of existing paths; a finished worker process is
    its exit code and captured output, or the exception `subprocess.run`
    raised. */
module Manager {
  import opened Results
  import Text
  import Paths
  import Base64
  import opened Models

  /** How a worker process ended: it exited with a code and captured output,
      or starting it raised an exception other than CalledProcessError. */
  datatype ProcessResult =
    | Exited(code: int, stdout: string, stderr: string)
    | Raised(message: string)

  /** Either a guard stopped the render before any process started (with the
      message it logs), or a worker is started with this argument vector. */
  datatype Launch = Refused(log: string) | Launched(argv: seq<string>)

  // ---------------------------------------------------------------------
  // Thumbnail
  // ---------------------------------------------------------------------

  /** The first line of the preview worker's output that carries the image. */
  const DataPrefix := "data:image/png;base64,"

  const BlenderNotFoundForProject := "Error: Blender not found for project"
  const PreviewScriptNotFound := "Render script not found"

  /** The executable for a thumbnail: the project's own, else the one the
      manager found ("" stands for none). */
  function PreviewExecutable(p: Project, managerExe: string): (exe: string)
    ensures p.settings.blenderPath != "" ==> exe == p.settings.blenderPath
    ensures p.settings.blenderPath == "" ==> exe == managerExe
  {
    if p.settings.blenderPath != "" then p.settings.blenderPath else managerExe
  }

  /** The worker's own arguments after "--": file, id, engine, denoise flag,
      device and thread count, all as text. */
  function PreviewArguments(p: Project): (args: seq<string>)
    ensures |args| == 6
  {
    [p.filePath, p.uniqueId, p.settings.renderEngine,
     Text.BoolFlag(p.settings.cyclesDenoising), p.settings.cyclesDevice,
     Text.IntToString(p.settings.threads)]
  }

  /** `render_project_thumbnail` up to the start of the worker: the guards on
      the executable and the script, then the command line. */
  function PreviewCommand(p: Project, managerExe: string, scriptPath: string,
                          existing: set<string>): (r: Launch)
    ensures r.Launched? <==>
      PreviewExecutable(p, managerExe) != "" && PreviewExecutable(p, managerExe) in existing
      && scriptPath in existing
    ensures r.Launched? ==>
      && |r.argv| == 11
      && r.argv[..5] == [PreviewExecutable(p, managerExe), "--background", "--python", scriptPath, "--"]
      && r.argv[5..] == PreviewArguments(p)
    ensures r.Refused? && (PreviewExecutable(p, managerExe) == "" || PreviewExecutable(p, managerExe) !in existing)
      ==> r.log == BlenderNotFoundForProject
  {
    var exe := PreviewExecutable(p, managerExe);
    if exe == "" || exe !in existing then Refused(BlenderNotFoundForProject)
    else if scriptPath !in existing then Refused(PreviewScriptNotFound)
    else Launched([exe, "--background", "--python", scriptPath, "--"] + PreviewArguments(p))
  }

  /** `s.split(",", 1)[1]`: the text after the first comma. */
  function AfterFirstComma(s: string): (r: string)
    requires ',' in s
    ensures |r| < |s| && r == s[|s| - |r|..]
    ensures s[|s| - |r| - 1] == ','
    ensures ',' !in s[..|s| - |r| - 1]
  {
    if s[0] == ',' then s[1..] else AfterFirstComma(s[1..])
  }

  /** For a line that starts with the data prefix, the text after the first
      comma is the text after the prefix: the prefix holds exactly one comma,
      at its end. */
  lemma AfterFirstCommaOfDataLine(line: string)
    requires Text.StartsWith(line, DataPrefix)
    ensures ',' in line
    ensures AfterFirstComma(line) == line[|DataPrefix|..]
  {
    assert line[|DataPrefix| - 1] == DataPrefix[|DataPrefix| - 1] == ',';
    var r := AfterFirstComma(line);
    var i := |line| - |r| - 1;
    if i < |DataPrefix| - 1 {
      assert false;
    } else if i > |DataPrefix| - 1 {
      assert false;
    }
  }

  /** The worker body's reading of stdout: strip it, take the first line that
      starts with the data prefix, and base64-decode the text after its
      comma. No such line, or text that is not base64, gives None. */
  function DecodePreviewOutput(stdout: string): (r: Option<seq<Base64.byte>>)
    ensures Text.FirstWithPrefix(Text.Splitlines(Text.Strip(stdout)), DataPrefix).None? ==> r.None?
    ensures r.Some? ==> ImageLine(Text.Splitlines(Text.Strip(stdout)), r.value)
    ensures var first := Text.FirstWithPrefix(Text.Splitlines(Text.Strip(stdout)), DataPrefix);
      first.Some? ==> r == Base64.Decode(first.value[|DataPrefix|..])
  {
    var lines := Text.Splitlines(Text.Strip(stdout));
    var line :- Text.FirstWithPrefix(lines, DataPrefix);
    AfterFirstCommaOfDataLine(line);
    var r := Base64.Decode(AfterFirstComma(line));
    ImageLineOf(lines, line, r);
    r
  }

  /** Some line carries the data prefix followed by the base64 text of `data`. */
  predicate ImageLine(lines: seq<string>, data: seq<Base64.byte>) {
    exists k :: 0 <= k < |lines| && Text.StartsWith(lines[k], DataPrefix)
                && Base64.Decode(lines[k][|DataPrefix|..]) == Some(data)
  }

  lemma ImageLineOf(lines: seq<string>, line: string, r: Option<seq<Base64.byte>>)
    requires line in lines && Text.StartsWith(line, DataPrefix)
    requires r == Base64.Decode(line[|DataPrefix|..])
    ensures r.Some? ==> ImageLine(lines, r.value)
  {
    if r.Some? {
      var k :| 0 <= k < |lines| && lines[k] == line;
    }
  }

  /** What `callback` receives once the worker has finished: the decoded
      image after a zero exit, None after a non-zero exit (CalledProcessError)
      or any other exception. */
  function ThumbnailData(result: ProcessResult): (r: Option<seq<Base64.byte>>)
    ensures result.Exited? && result.code == 0 ==> r == DecodePreviewOutput(result.stdout)
    ensures result.Exited? && result.code != 0 ==> r.None?
    ensures result.Raised? ==> r.None?
  {
    match result
    case Exited(code, stdout, _) => if code == 0 then DecodePreviewOutput(stdout) else None
    case Raised(_) => None
  }

  /** What `callback` receives for one thumbnail request: None, once, when a
      guard refused the launch and no worker started; otherwise what the
      finished worker's result gives. */
  function ThumbnailCallback(l: Launch, result: ProcessResult): (r: Option<seq<Base64.byte>>)
    ensures l.Refused? ==> r.None?
    ensures l.Launched? ==> r == ThumbnailData(result)
  {
    if l.Refused? then None else ThumbnailData(result)
  }

  // ---------------------------------------------------------------------
  // Full render
  // ---------------------------------------------------------------------

  const BlenderPathMissing := "Путь к исполняемому файлу Blender не указан или недоступен"
  const RenderScriptMissing := "Скрипт рендеринга не найден: "
  const RenderSucceeded := "Рендеринг успешно завершен"
  const ErrorPrefix := "Ошибка: "

  /** The `--output` argument: the output directory joined with the file
      name when there is one. */
  function RenderOutput(s: Settings): (out: string)
    ensures s.outputFilename == "" ==> out == Paths.Normalize(s.outputPath)
    ensures s.outputFilename != "" ==>
      Paths.Parse(out) == Paths.Join(Paths.Parse(s.outputPath), s.outputFilename)
    ensures Paths.IsSinglePart(s.outputFilename) ==>
      && Paths.Parent(Paths.Parse(out)) == Paths.Parse(s.outputPath)
      && Paths.Name(Paths.Parse(out)) == Paths.Parse(s.outputFilename).parts[0]
  {
    var base := Paths.Parse(s.outputPath);
    Paths.ChildPath(base, s.outputFilename);
    Paths.ParseEmpty();
    Paths.ParseFormat(Paths.Join(base, s.outputFilename));
    if s.outputFilename != "" then Paths.Format(Paths.Join(base, s.outputFilename))
    else Paths.Format(base)
  }

  /** The `--samples` argument: the sample count of the chosen engine. */
  function Samples(s: Settings): int {
    if s.renderEngine == "CYCLES" then s.cyclesSamples else s.eeveeSamples
  }

  /** Option/value pairs written out as `option value option value ...`. */
  function Flatten(ps: seq<(string, string)>): (r: seq<string>)
    ensures |r| == 2 * |ps|
    ensures forall k :: 0 <= k < |ps| ==> r[2 * k] == ps[k].0 && r[2 * k + 1] == ps[k].1
  {
    if ps == [] then [] else [ps[0].0, ps[0].1] + Flatten(ps[1..])
  }

  /** The options that depend on the render type. */
  function TypeFlags(s: Settings): seq<(string, string)> {
    if s.renderType == "Image" then
      [("--type", "image"),
       ("--frame", Text.IntToString(s.frameCurrent)),
       ("--output", RenderOutput(s)),
       ("--format", s.fileFormat)]
    else
      [("--type", "animation"),
       ("--start", Text.IntToString(s.frameStart)),
       ("--end", Text.IntToString(s.frameEnd)),
       ("--step", Text.IntToString(s.frameStep)),
       ("--output", RenderOutput(s)),
       ("--format", s.fileFormat)]
  }

  /** The options every full render passes: the engine options, then the
      picture options. */
  function CommonFlags(s: Settings): seq<(string, string)> {
    EngineFlags(s) + PictureFlags(s)
  }

  function EngineFlags(s: Settings): seq<(string, string)> {
    [("--engine", s.renderEngine),
     ("--samples", Text.IntToString(Samples(s))),
     ("--denoising", Text.BoolFlag(s.cyclesDenoising)),
     ("--device", s.cyclesDevice),
     ("--threads", Text.IntToString(s.threads))]
  }

  function PictureFlags(s: Settings): seq<(string, string)> {
    [("--resolution_x", Text.IntToString(s.resolutionX)),
     ("--resolution_y", Text.IntToString(s.resolutionY)),
     ("--resolution_scale", Text.IntToString(s.resolutionScale)),
     ("--fps", Text.IntToString(s.fps)),
     ("--fps_base", s.fpsBase),
     ("--filename", s.outputFilename)]
  }

  /** `render_project` up to the start of the worker. Only the project's own
      Blender path is used; the manager's executable is not a fallback here. */
  function RenderCommand(p: Project, scriptPath: string, existing: set<string>): (r: Launch)
    ensures r.Launched? <==>
      p.settings.blenderPath != "" && p.settings.blenderPath in existing && scriptPath in existing
    ensures r.Refused? && scriptPath in existing ==> r.log == BlenderPathMissing
    ensures r.Launched? ==>
      && |r.argv| == (if p.settings.renderType == "Image" then 36 else 40)
      && r.argv[..5] == [p.settings.blenderPath, "--background", "--python", scriptPath, "--"]
      && r.argv[5..|r.argv| - 1] == Flatten(TypeFlags(p.settings) + CommonFlags(p.settings))
      && r.argv[|r.argv| - 1] == p.filePath
  {
    var s := p.settings;
    if s.blenderPath == "" || s.blenderPath !in existing then Refused(BlenderPathMissing)
    else if scriptPath !in existing then Refused(RenderScriptMissing + scriptPath)
    else Launched([s.blenderPath, "--background", "--python", scriptPath, "--"]
                  + Flatten(TypeFlags(s) + CommonFlags(s)) + [p.filePath])
  }

  /** `render_complete(unique_id, success, message)` */
  datatype Completion = Completion(uniqueId: string, success: bool, message: string)

  /** What the full-render worker logs and emits when its process ends. */
  datatype RenderOutcome = RenderOutcome(log: string, completion: Completion)

  function RenderResult(p: Project, result: ProcessResult): (r: RenderOutcome)
    ensures r.completion.uniqueId == p.uniqueId
    ensures r.completion.success <==> result.Exited? && result.code == 0
    ensures r.completion.success ==> r.completion.message == RenderSucceeded
    ensures !r.completion.success ==> Text.StartsWith(r.completion.message, ErrorPrefix)
    ensures result.Exited? && result.code != 0 ==> r.completion.message == ErrorPrefix + result.stderr
  {
    match result
    case Exited(code, _, stderr) =>
      if code == 0 then
        RenderOutcome("Рендеринг завершен для проекта: " + p.name,
                      Completion(p.uniqueId, true, RenderSucceeded))
      else
        RenderOutcome("Ошибка рендеринга проекта " + p.name + ": " + stderr,
                      Completion(p.uniqueId, false, ErrorPrefix + stderr))
    case Raised(message) =>
      RenderOutcome("Ошибка рендеринга проекта " + p.name + ": " + message,
                    Completion(p.uniqueId, false, ErrorPrefix + message))
  }

  // ---------------------------------------------------------------------
  // Settings from a scene
  // ---------------------------------------------------------------------

  datatype CyclesScene = CyclesScene(samples: int, useDenoising: bool, device: string)

  /** The scene properties the manager reads; an absent Cycles or EEVEE
      block, or an absent threads property, is None. */
  datatype Scene = Scene(
    resolutionX: int,
    resolutionY: int,
    resolutionPercentage: int,
    fps: int,
    fpsBase: string,
    frameStart: int,
    frameEnd: int,
    frameStep: int,
    frameCurrent: int,
    engine: string,
    fileFormat: string,
    cycles: Option<CyclesScene>,
    threads: Option<int>,
    eeveeSamples: Option<int>,
    filepath: string)

  function Min(a: int, b: int): int {
    if a <= b then a else b
  }

  /** The engine name the settings use for a scene's engine. */
  function EngineOfScene(engine: string): (r: string)
    ensures r == "EEVEE" <==> engine == "BLENDER_EEVEE" || engine == "BLENDER_EEVEE_NEXT"
    ensures r == "EEVEE" || r == "CYCLES"
  {
    if engine in ["BLENDER_EEVEE", "BLENDER_EEVEE_NEXT"] then "EEVEE" else "CYCLES"
  }

  /** The render type guessed from the scene's output format. */
  function TypeOfFormat(format: string): (r: string)
    ensures r == "Image" <==> format in DefaultImageFormats
    ensures r == "Image" || r == "Animation"
  {
    if format in DefaultImageFormats then "Image" else "Animation"
  }

  /** The dictionary fields read from a scene, before any validation. */
  function SceneSettings(filePath: string, sc: Scene, cpuCount: nat, managerExe: string): (s: Settings)
    ensures s.renderEngine == EngineOfScene(sc.engine)
    ensures s.renderType == TypeOfFormat(sc.fileFormat)
    ensures sc.threads.Some? ==> s.threads <= MaxThreads(cpuCount) && s.threads <= sc.threads.value
    ensures sc.threads.None? ==> s.threads == MaxThreads(cpuCount)
    ensures sc.threads.Some? ==> s.threads == sc.threads.value || s.threads == MaxThreads(cpuCount)
    ensures && s.resolutionX == sc.resolutionX && s.resolutionY == sc.resolutionY
            && s.resolutionScale == sc.resolutionPercentage
            && s.fps == sc.fps && s.fpsBase == sc.fpsBase
            && s.frameStart == sc.frameStart && s.frameEnd == sc.frameEnd
            && s.frameStep == sc.frameStep && s.frameCurrent == sc.frameCurrent
            && s.fileFormat == sc.fileFormat
    ensures sc.cycles.None? ==> s.cyclesSamples == 128 && !s.cyclesDenoising && s.cyclesDevice == "CPU"
    ensures sc.cycles.Some? ==>
      && s.cyclesSamples == sc.cycles.value.samples
      && s.cyclesDenoising == sc.cycles.value.useDenoising
      && s.cyclesDevice == sc.cycles.value.device
    ensures s.eeveeSamples == (if sc.eeveeSamples.Some? then sc.eeveeSamples.value else 64)
    ensures s.fileFormatsImage == DefaultImageFormats && s.fileFormatsMovie == DefaultMovieFormats
    ensures s.blenderPath == managerExe
    ensures s.outputFilename == Paths.Stem(Paths.Parse(filePath))
    ensures sc.filepath != "" ==> s.outputPath == sc.filepath
    ensures sc.filepath == "" ==>
      && Paths.Parent(Paths.Parse(s.outputPath)) == Paths.Parent(Paths.Parse(filePath))
      && Paths.Name(Paths.Parse(s.outputPath)) == "output"
  {
    var path := Paths.Parse(filePath);
    var maxThreads := MaxThreads(cpuCount);
    Paths.ParseOnePart("output");
    Paths.ChildPath(Paths.Parent(path), "output");
    Settings(
      sc.resolutionX, sc.resolutionY, sc.resolutionPercentage, sc.fps, sc.fpsBase,
      sc.frameStart, sc.frameEnd, sc.frameStep, sc.frameCurrent,
      EngineOfScene(sc.engine),
      TypeOfFormat(sc.fileFormat),
      if sc.cycles.Some? then sc.cycles.value.samples else 128,
      if sc.cycles.Some? then sc.cycles.value.useDenoising else false,
      if sc.cycles.Some? then sc.cycles.value.device else "CPU",
      if sc.threads.Some? then Min(sc.threads.value, maxThreads) else maxThreads,
      if sc.eeveeSamples.Some? then sc.eeveeSamples.value else 64,
      sc.fileFormat,
      DefaultImageFormats,
      DefaultMovieFormats,
      if sc.filepath != "" then sc.filepath
      else Paths.Format(Paths.Join(Paths.Parent(path), "output")),
      Paths.Stem(path),
      managerExe)
  }

  /** `get_settings_from_project`: None when the file does not exist or the
      scene could not be read (`scene` is None), else the settings
      dictionary. */
  function SettingsFromProject(filePath: string, existing: set<string>, scene: Option<Scene>,
                               cpuCount: nat, managerExe: string): (r: Option<Dict>)
    ensures filePath !in existing ==> r.None?
    ensures r.Some? ==> scene.Some? && r.value == ToDict(SceneSettings(filePath, scene.value, cpuCount, managerExe))
  {
    if filePath !in existing then None
    else match scene
      case None => None
      case Some(sc) => Some(ToDict(SceneSettings(filePath, sc, cpuCount, managerExe)))
  }

  /** The scene mapping does not check what the settings check: an EEVEE scene
      whose (unused) Cycles sample count is above 256 gives a dictionary that
      `Settings(**settings)` rejects. */
  lemma EeveeSceneWithManyCyclesSamplesRejected(filePath: string, sc: Scene, cpuCount: nat, managerExe: string)
    requires sc.engine == "BLENDER_EEVEE"
    requires sc.cycles.Some? && sc.cycles.value.samples > 256
    ensures FromDict(ToDict(SceneSettings(filePath, sc, cpuCount, managerExe)), cpuCount)
            == Err(CyclesSamplesOutOfRange(256))
  {
    var s := SceneSettings(filePath, sc, cpuCount, managerExe);
    FieldsOfToDict(s);
  }

  /** Reading a scene's dictionary back into settings succeeds exactly when
      the scene's sample counts and output format are in range; the built
      settings keep the scene's values, bring the threads within the machine's
      count, normalise the output folder and name the output after the file. */
  lemma SceneSettingsLoad(filePath: string, sc: Scene, cpuCount: nat, managerExe: string)
    ensures var r := FromDict(ToDict(SceneSettings(filePath, sc, cpuCount, managerExe)), cpuCount);
      r.Ok? <==>
        && (sc.cycles.Some? ==> 1 <= sc.cycles.value.samples <= MaxCyclesSamples(EngineOfScene(sc.engine)))
        && (sc.eeveeSamples.Some? ==> 1 <= sc.eeveeSamples.value <= 256)
        && sc.fileFormat in DefaultImageFormats + DefaultMovieFormats
    ensures var r := FromDict(ToDict(SceneSettings(filePath, sc, cpuCount, managerExe)), cpuCount);
      r.Ok? ==>
        && SameUntouchedFields(r.value, SceneSettings(filePath, sc, cpuCount, managerExe))
        && r.value.outputFilename == Paths.Stem(Paths.Parse(filePath))
        && r.value.blenderPath == NormalizeIfSet(managerExe)
        && (sc.filepath != "" ==> r.value.outputPath == Paths.Normalize(sc.filepath))
        && (sc.threads.Some? && 1 <= sc.threads.value <= MaxThreads(cpuCount) ==> r.value.threads == sc.threads.value)
        && (sc.threads.None? || sc.threads.value < 1 || sc.threads.value > MaxThreads(cpuCount) ==>
              r.value.threads == MaxThreads(cpuCount))
  {
    var s := SceneSettings(filePath, sc, cpuCount, managerExe);
    FieldsOfToDict(s);
  }
}

=== FILE: paths.dfy ===
/** POSIX `pathlib.PurePath` as the tool uses it: `str(Path(s))` normalises
    a path string, `/` appends a segment, `.parent` drops the last part,
    `.stem` strips the last suffix, and `os.path.basename` takes the text
    after the last slash.

    A path is parsed into a root ("", "/" or "//" — POSIX keeps exactly two
    leading slashes and folds three or more into one) and the list of its
    parts, with empty parts and "." dropped; formatting writes the root and the
    parts joined by "/", or "." when there is neither. */
module Paths {

  datatype PurePath = PurePath(root: string, parts: seq<string>)

  /** A part as parsing leaves it: not empty, not ".", no slash. */
  predicate IsPart(x: string) {
    x != "" && x != "." && '/' !in x
  }

  predicate WellFormed(p: PurePath) {
    && (p.root == "" || p.root == "/" || p.root == "//")
    && forall k :: 0 <= k < |p.parts| ==> IsPart(p.parts[k])
  }

  /** `s.split("/")` */
  function SplitSlash(s: string): (r: seq<string>)
    ensures |r| >= 1
    ensures forall k :: 0 <= k < |r| ==> '/' !in r[k]
  {
    if |s| == 0 then [""]
    else
      var rest := SplitSlash(s[1..]);
      if s[0] == '/' then [""] + rest else [[s[0]] + rest[0]] + rest[1..]
  }

  /** `"/".join(xs)` */
  function JoinSlash(xs: seq<string>): string {
    if |xs| == 0 then "" else if |xs| == 1 then xs[0] else xs[0] + "/" + JoinSlash(xs[1..])
  }

  /** Keeps the parts that are neither empty nor ".". */
  function DropEmptyAndDot(xs: seq<string>): (r: seq<string>)
    requires forall k :: 0 <= k < |xs| ==> '/' !in xs[k]
    ensures forall k :: 0 <= k < |r| ==> IsPart(r[k])
  {
    if |xs| == 0 then []
    else if xs[0] == "" || xs[0] == "." then DropEmptyAndDot(xs[1..])
    else [xs[0]] + DropEmptyAndDot(xs[1..])
  }

  function RootOf(s: string): (root: string)
    ensures root == "" || root == "/" || root == "//"
    ensures |root| <= |s| && s[..|root|] == root
  {
    if |s| >= 1 && s[0] == '/' then
      if |s| >= 2 && s[1] == '/' && !(|s| >= 3 && s[2] == '/') then "//" else "/"
    else ""
  }

  function Parse(s: string): (p: PurePath)
    ensures WellFormed(p)
  {
    var root := RootOf(s);
    PurePath(root, DropEmptyAndDot(SplitSlash(s[|root|..])))
  }

  function Format(p: PurePath): string {
    if p.root != "" then p.root + JoinSlash(p.parts)
    else if |p.parts| == 0 then "."
    else JoinSlash(p.parts)
  }

  /** `str(Path(s))` */
  function Normalize(s: string): string {
    Format(Parse(s))
  }

  /** `p / other`: an absolute `other` replaces `p`, a relative one appends its parts. */
  function Join(p: PurePath, other: string): (r: PurePath)
    requires WellFormed(p)
    ensures WellFormed(r)
  {
    var q := Parse(other);
    if q.root != "" then q else PurePath(p.root, p.parts + q.parts)
  }

  /** `p.parent`: a path without parts is its own parent. */
  function Parent(p: PurePath): (r: PurePath)
    requires WellFormed(p)
    ensures WellFormed(r)
  {
    if |p.parts| == 0 then p else PurePath(p.root, p.parts[..|p.parts| - 1])
  }

  /** `p.name` */
  function Name(p: PurePath): string {
    if |p.parts| == 0 then "" else p.parts[|p.parts| - 1]
  }

  /** Index of the last '.' in `s`, or -1. */
  function LastDot(s: string): (i: int)
    ensures -1 <= i < |s|
    ensures i >= 0 ==> s[i] == '.'
    ensures forall k :: i < k < |s| ==> s[k] != '.'
  {
    if |s| == 0 then -1
    else if s[|s| - 1] == '.' then |s| - 1
    else LastDot(s[..|s| - 1])
  }

  /** `p.stem`: the name without its last suffix; a leading or trailing dot is not a suffix. */
  function Stem(p: PurePath): string {
    var name := Name(p);
    var i := LastDot(name);
    if 0 < i < |name| - 1 then name[..i] else name
  }

  /** `os.path.basename(s)`: the text after the last slash. */
  function Basename(s: string): (b: string)
    ensures '/' !in b
  {
    if |s| == 0 then ""
    else if s[|s| - 1] == '/' then ""
    else Basename(s[..|s| - 1]) + [s[|s| - 1]]
  }

  // ---------------------------------------------------------------------
  // Lemmas
  // ---------------------------------------------------------------------

  lemma {:induction false} SplitSlashOfPart(x: string)
    requires '/' !in x
    ensures SplitSlash(x) == [x]
    decreases |x|
  {
    if |x| > 0 {
      SplitSlashOfPart(x[1..]);
      assert [x[0]] + x[1..] == x;
    }
  }

  lemma {:induction false} SplitSlashAfterPart(x: string, y: string)
    requires '/' !in x
    ensures SplitSlash(x + "/" + y) == [x] + SplitSlash(y)
    decreases |x|
  {
    if |x| == 0 {
      assert x + "/" + y == "/" + y;
      assert ("/" + y)[1..] == y;
    } else {
      var s := x + "/" + y;
      assert s[1..] == x[1..] + "/" + y;
      SplitSlashAfterPart(x[1..], y);
      assert [x[0]] + x[1..] == x;
    }
  }

  lemma {:induction false} SplitSlashOfJoinSlash(xs: seq<string>)
    requires |xs| >= 1
    requires forall k :: 0 <= k < |xs| ==> '/' !in xs[k]
    ensures SplitSlash(JoinSlash(xs)) == xs
    decreases |xs|
  {
    if |xs| == 1 {
      SplitSlashOfPart(xs[0]);
    } else {
      SplitSlashAfterPart(xs[0], JoinSlash(xs[1..]));
      SplitSlashOfJoinSlash(xs[1..]);
    }
  }

  lemma {:induction false} DropKeepsParts(xs: seq<string>)
    requires forall k :: 0 <= k < |xs| ==> '/' !in xs[k]
    requires forall k :: 0 <= k < |xs| ==> IsPart(xs[k])
    ensures DropEmptyAndDot(xs) == xs
    decreases |xs|
  {
    if |xs| > 0 {
      DropKeepsParts(xs[1..]);
    }
  }

  lemma {:induction false} JoinSlashStartsWithPart(xs: seq<string>)
    requires |xs| >= 1 && IsPart(xs[0])
    ensures JoinSlash(xs) != "" && JoinSlash(xs)[0] == xs[0][0]
  {
  }

  /** The parts of a well-formed path, written out and read back, are the same parts. */
  lemma PartsOfJoinSlash(p: PurePath)
    requires WellFormed(p)
    ensures DropEmptyAndDot(SplitSlash(JoinSlash(p.parts))) == p.parts
  {
    if |p.parts| == 0 {
      assert SplitSlash("") == [""];
    } else {
      SplitSlashOfJoinSlash(p.parts);
      DropKeepsParts(p.parts);
    }
  }

  /** Formatting a well-formed path and parsing the text gives the path back. */
  lemma ParseFormat(p: PurePath)
    requires WellFormed(p)
    ensures Parse(Format(p)) == p
  {
    var s := Format(p);
    PartsOfJoinSlash(p);
    if |p.parts| > 0 {
      JoinSlashStartsWithPart(p.parts);
    }
    if p.root == "" {
      if |p.parts| == 0 {
        assert s == ".";
        SplitSlashOfPart(".");
      } else {
        assert RootOf(s) == "";
        assert s[0..] == JoinSlash(p.parts);
      }
    } else {
      assert s == p.root + JoinSlash(p.parts);
      assert RootOf(s) == p.root;
      assert s[|p.root|..] == JoinSlash(p.parts);
    }
  }

  /** `str(Path(str(Path(s)))) == str(Path(s))`: normalising twice changes nothing more. */
  lemma NormalizeIdempotent(s: string)
    ensures Normalize(Normalize(s)) == Normalize(s)
  {
    ParseFormat(Parse(s));
  }

  lemma {:induction false} JoinSlashSnoc(xs: seq<string>, x: string)
    requires |xs| >= 1
    ensures JoinSlash(xs + [x]) == JoinSlash(xs) + "/" + x
    decreases |xs|
  {
    if |xs| == 1 {
      assert xs + [x] == [xs[0], x];
    } else {
      assert (xs + [x])[1..] == xs[1..] + [x];
      JoinSlashSnoc(xs[1..], x);
    }
  }

  lemma {:induction false} BasenameAfterSlash(y: string, x: string)
    requires '/' !in x
    requires y == "" || y[|y| - 1] == '/'
    ensures Basename(y + x) == x
    decreases |x|
  {
    if |x| == 0 {
      assert y + x == y;
    } else {
      var s := y + x;
      assert s[..|s| - 1] == y + x[..|x| - 1];
      BasenameAfterSlash(y, x[..|x| - 1]);
      assert x[..|x| - 1] + [x[|x| - 1]] == x;
    }
  }

  /** `os.path.basename(str(p))` is the last part of `p`; a path without parts
      has basename "." when relative and "" when rooted. */
  lemma BasenameOfFormat(p: PurePath)
    requires WellFormed(p)
    ensures Basename(Format(p)) == if |p.parts| >= 1 then Name(p) else if p.root == "" then "." else ""
  {
    if |p.parts| == 0 {
      if p.root == "" {
        assert Format(p) == ".";
        assert Basename(".") == Basename("") + ".";
      }
    } else if |p.parts| == 1 {
      BasenameOfOnePart(p);
    } else {
      BasenameOfManyParts(p);
    }
  }

  lemma BasenameOfOnePart(p: PurePath)
    requires WellFormed(p) && |p.parts| == 1
    ensures Basename(Format(p)) == p.parts[0]
  {
    assert JoinSlash(p.parts) == p.parts[0];
    if p.root == "" {
      BasenameAfterSlash("", p.parts[0]);
      assert "" + p.parts[0] == p.parts[0];
    } else {
      BasenameAfterSlash(p.root, p.parts[0]);
    }
  }

  lemma BasenameOfManyParts(p: PurePath)
    requires WellFormed(p) && |p.parts| >= 2
    ensures Basename(Format(p)) == p.parts[|p.parts| - 1]
  {
    var n := |p.parts|;
    var last := p.parts[n - 1];
    var init := p.parts[..n - 1];
    assert init + [last] == p.parts;
    JoinSlashSnoc(init, last);
    var y := p.root + JoinSlash(init) + "/";
    assert Format(p) == y + last;
    BasenameAfterSlash(y, last);
  }

  /** A file name that is exactly one relative part. */
  predicate IsSinglePart(name: string) {
    var q := Parse(name);
    q.root == "" && |q.parts| == 1
  }

  /** `(p / name).parent == p` for a single-part name. */
  lemma ParentOfChild(p: PurePath, name: string)
    requires WellFormed(p) && IsSinglePart(name)
    ensures Parent(Join(p, name)) == p
    ensures Name(Join(p, name)) == Parse(name).parts[0]
  {
    var q := Parse(name);
    assert (p.parts + q.parts)[..|p.parts|] == p.parts;
  }

  /** `str(p / name)` read back as a path: its parent is `p` and its name is
      the name's one part. */
  lemma ChildPath(p: PurePath, name: string)
    requires WellFormed(p)
    ensures IsSinglePart(name) ==>
      && Parent(Parse(Format(Join(p, name)))) == p
      && Name(Parse(Format(Join(p, name)))) == Parse(name).parts[0]
  {
    if IsSinglePart(name) {
      ParseFormat(Join(p, name));
      ParentOfChild(p, name);
    }
  }

  /** A single part parses to itself, with no root. */
  lemma ParseOnePart(x: string)
    requires IsPart(x)
    ensures Parse(x) == PurePath("", [x])
    ensures IsSinglePart(x)
  {
    SplitSlashOfPart(x);
    DropKeepsParts([x]);
    assert x[0] != '/' by {
      assert x[0] in x;
    }
    assert RootOf(x) == "";
    assert x[0..] == x;
  }

  /** The empty string is the current directory: no root and no parts. */
  lemma ParseEmpty()
    ensures Parse("") == PurePath("", [])
    ensures !IsSinglePart("")
  {
    assert RootOf("") == "";
    assert ""[0..] == "";
    assert SplitSlash("") == [""];
    assert DropEmptyAndDot([""]) == [];
  }
}

=== FILE: preview_script.dfy ===
/** `src/blender/render_preview_script.py`, the worker Blender runs to make a
    thumbnail: it reads its six arguments by position, forces a small PNG
    render profile, and prints either the image as a base64 data line or an
    error line.

    Rendering itself is a parameter: the bytes of the written PNG, or the
    message of the exception Blender raised. */
module PreviewScript {
  import opened Results
  import Text
  import Base64

  /** The arguments at positions 5 to 10 of Blender's argv. */
  datatype PreviewArgs = PreviewArgs(
    filePath: string,
    uniqueId: string,
    engine: string,
    denoising: int,
    device: string,
    threads: int)

  /** The exceptions the script turns into its error line. */
  datatype PreviewError =
    | MissingArgument                 // IndexError on sys.argv
    | NotAnInteger(text: string)      // ValueError from int()
    | FileMissing(path: string)       // FileNotFoundError
    | UnsupportedEngine(engine: string)
    | RenderFailed(message: string)   // anything the render itself raised

  /** `str(e)` for each exception. */
  function Message(e: PreviewError): string {
    match e
    case MissingArgument => "list index out of range"
    case NotAnInteger(text) => "invalid literal for int() with base 10: '" + text + "'"
    case FileMissing(path) => "File '" + path + "' not found"
    case UnsupportedEngine(engine) => "Unsupported render engine: " + engine
    case RenderFailed(message) => message
  }

  function ParseInt(s: string): (r: Result<int, PreviewError>)
    ensures r.Ok? <==> Text.ParseInt(s).Some?
    ensures r.Ok? ==> r.value == Text.ParseInt(s).value
  {
    match Text.ParseInt(s)
    case Some(n) => Ok(n)
    case None => Err(NotAnInteger(s))
  }

  /** Lines 24-29: the positional reads, in order; the first that fails
      decides the error. */
  function ParseArgs(argv: seq<string>): (r: Result<PreviewArgs, PreviewError>)
    ensures |argv| < 9 ==> r == Err(MissingArgument)
    ensures r.Ok? ==> |argv| >= 11
    ensures r.Ok? ==>
      && r.value.filePath == argv[5] && r.value.uniqueId == argv[6] && r.value.engine == argv[7]
      && Text.ParseInt(argv[8]) == Some(r.value.denoising)
      && r.value.device == argv[9]
      && Text.ParseInt(argv[10]) == Some(r.value.threads)
  {
    if |argv| < 9 then Err(MissingArgument)
    else
      var denoising :- ParseInt(argv[8]);
      if |argv| < 11 then Err(MissingArgument)
      else
        var threads :- ParseInt(argv[10]);
        Ok(PreviewArgs(argv[5], argv[6], argv[7], denoising, argv[9], threads))
  }

  /** The engine block of the preview profile. */
  datatype EngineSetup =
    | CyclesPreview(samples: int, useDenoising: bool, device: string)
    | EeveePreview(taaSamples: int)

  /** What the script writes into the scene before rendering. */
  datatype PreviewProfile = PreviewProfile(
    fileFormat: string,
    resolutionX: int,
    resolutionY: int,
    percentage: int,
    threads: int,
    engineName: string,
    engine: EngineSetup)

  const PreviewSamples := 16

  /** Lines 39-55: the fixed profile, the threads from the command line, and
      the engine branch. */
  function Configure(a: PreviewArgs): (r: Result<PreviewProfile, PreviewError>)
    ensures r.Ok? <==> a.engine == "CYCLES" || a.engine == "EEVEE"
    ensures r.Err? ==> r.error == UnsupportedEngine(a.engine)
    ensures r.Ok? ==>
      && r.value.fileFormat == "PNG"
      && r.value.resolutionX == 512 && r.value.resolutionY == 288 && r.value.percentage == 100
      && r.value.threads == a.threads
    ensures r.Ok? && a.engine == "CYCLES" ==>
      r.value.engineName == "CYCLES"
      && r.value.engine == CyclesPreview(PreviewSamples, a.denoising != 0, a.device)
    ensures r.Ok? && a.engine == "EEVEE" ==>
      r.value.engineName == "BLENDER_EEVEE" && r.value.engine == EeveePreview(PreviewSamples)
  {
    if a.engine == "CYCLES" then
      Ok(PreviewProfile("PNG", 512, 288, 100, a.threads, "CYCLES",
                        CyclesPreview(PreviewSamples, a.denoising != 0, a.device)))
    else if a.engine == "EEVEE" then
      Ok(PreviewProfile("PNG", 512, 288, 100, a.threads, "BLENDER_EEVEE", EeveePreview(PreviewSamples)))
    else Err(UnsupportedEngine(a.engine))
  }

  /** What the script prints and the status it exits with. */
  datatype Run = Run(printed: seq<string>, exitCode: int)

  /** The script's argument and engine checks, up to the point where Blender
      renders. */
  function Prepare(argv: seq<string>, existing: set<string>): (r: Result<PreviewProfile, PreviewError>)
    ensures r.Ok? ==> |argv| >= 11 && argv[5] in existing
  {
    var a :- ParseArgs(argv);
    if a.filePath !in existing then Err(FileMissing(a.filePath))
    else Configure(a)
  }

  /** The whole script. `rendered` is the outcome of the render: the bytes of
      the PNG it wrote, or the message of what went wrong. */
  function RunScript(argv: seq<string>, existing: set<string>,
                     rendered: Result<seq<Base64.byte>, string>): (r: Run)
    ensures r.exitCode == 0 || r.exitCode == 1
    ensures |r.printed| == 1
    ensures r.exitCode == 0 <==> Prepare(argv, existing).Ok? && rendered.Ok?
    ensures r.exitCode == 0 ==> r.printed[0] == DataLine(rendered.value)
    ensures r.exitCode == 1 ==> Text.StartsWith(r.printed[0], "Error: ")
  {
    match Prepare(argv, existing)
    case Err(e) => Run(["Error: " + Message(e)], 1)
    case Ok(_) =>
      match rendered
      case Ok(png) => Run([DataLine(png)], 0)
      case Err(message) => Run(["Error: " + Message(RenderFailed(message))], 1)
  }

  /** The line the script prints for a rendered image. */
  function DataLine(png: seq<Base64.byte>): (line: string)
    ensures |line| >= 22 && line[..22] == "data:image/png;base64,"
  {
    "data:image/png;base64," + Base64.Encode(png)
  }

  /** An error line never looks like an image line, so a failed run cannot
      hand the manager an image. */
  lemma ErrorLineIsNotData(argv: seq<string>, existing: set<string>,
                           rendered: Result<seq<Base64.byte>, string>)
    requires RunScript(argv, existing, rendered).exitCode == 1
    ensures !Text.StartsWith(RunScript(argv, existing, rendered).printed[0], "data:image/png;base64,")
  {
    ErrorPrefixIsNotData(RunScript(argv, existing, rendered).printed[0]);
  }

  lemma ErrorPrefixIsNotData(line: string)
    requires Text.StartsWith(line, "Error: ")
    ensures !Text.StartsWith(line, "data:image/png;base64,")
  {
    assert line[0] == "Error: "[0];
  }
}

=== FILE: project.dfy ===
/** The data model of `src/models/project.py`: the render settings of one
    Blender project, checked and normalised when they are built, their
    dictionary form for JSON storage, and the project record itself. */
module Models {
  import opened Results
  import Paths

  // ---------------------------------------------------------------------
  // Settings
  // ---------------------------------------------------------------------

  /** The render settings. `fpsBase` is kept as the decimal text of the float
      (the model does no floating point); an empty format list stands for the
      `None` default. */
  datatype Settings = Settings(
    resolutionX: int,
    resolutionY: int,
    resolutionScale: int,
    fps: int,
    fpsBase: string,
    frameStart: int,
    frameEnd: int,
    frameStep: int,
    frameCurrent: int,
    renderEngine: string,
    renderType: string,
    cyclesSamples: int,
    cyclesDenoising: bool,
    cyclesDevice: string,
    threads: int,
    eeveeSamples: int,
    fileFormat: string,
    fileFormatsImage: seq<string>,
    fileFormatsMovie: seq<string>,
    outputPath: string,
    outputFilename: string,
    blenderPath: string)

  const DefaultImageFormats: seq<string> := ["PNG", "JPEG", "EXR"]
  const DefaultMovieFormats: seq<string> := ["AVI_JPEG", "AVI_RAW", "FFMPEG"]

  /** The field defaults of the dataclass, before `__post_init__` runs. */
  const Defaults := Settings(
    1920, 1080, 100, 24, "1.0", 1, 250, 1, 1,
    "CYCLES", "Image", 128, false, "CPU", 0, 64,
    "PNG", [], [], "", "", "")

  /** Why building settings fails: the ValueError messages of `__post_init__`,
      and, for the dictionary form, a key that is not a field (`cls(**data)`
      raises TypeError) or a value of the wrong kind. */
  datatype SettingsError =
    | UnsupportedEngine(engine: string)
    | UnsupportedRenderType(renderType: string)
    | CyclesSamplesOutOfRange(maxSamples: int)
    | EeveeSamplesOutOfRange
    | InvalidFileFormat(format: string)
    | ThreadsOutOfRange(maxThreads: int)
    | UnexpectedField
    | WrongKind(field: string)

  predicate IsEngine(e: string) { e == "CYCLES" || e == "EEVEE" }

  predicate IsRenderType(t: string) { t == "Image" || t == "Animation" }

  /** The upper bound on Cycles samples depends on the engine. */
  function MaxCyclesSamples(engine: string): int {
    if engine == "CYCLES" then 4096 else 256
  }

  /** `psutil.cpu_count(logical=True) or 1`: a count of 0 stands for "unknown". */
  function MaxThreads(cpuCount: nat): (m: int)
    ensures m >= 1
    ensures cpuCount >= 1 ==> m == cpuCount
  {
    if cpuCount == 0 then 1 else cpuCount
  }

  /** A stored path: empty, or already in the form `str(Path(..))` writes. */
  predicate NormalizedOrEmpty(p: string) {
    p == "" || Paths.Normalize(p) == p
  }

  /** What every constructed Settings satisfies, stated without reference to
      how construction goes. */
  predicate Valid(s: Settings, maxThreads: int) {
    && IsEngine(s.renderEngine)
    && IsRenderType(s.renderType)
    && 1 <= s.cyclesSamples <= MaxCyclesSamples(s.renderEngine)
    && 1 <= s.eeveeSamples <= 256
    && |s.fileFormatsImage| > 0
    && |s.fileFormatsMovie| > 0
    && s.fileFormat in s.fileFormatsImage + s.fileFormatsMovie
    && NormalizedOrEmpty(s.outputPath)
    && NormalizedOrEmpty(s.blenderPath)
    && 1 <= s.threads <= maxThreads
  }

  /** The fields `__post_init__` neither checks nor rewrites. */
  predicate SameUntouchedFields(a: Settings, b: Settings) {
    && a.resolutionX == b.resolutionX && a.resolutionY == b.resolutionY
    && a.resolutionScale == b.resolutionScale && a.fps == b.fps && a.fpsBase == b.fpsBase
    && a.frameStart == b.frameStart && a.frameEnd == b.frameEnd
    && a.frameStep == b.frameStep && a.frameCurrent == b.frameCurrent
    && a.renderEngine == b.renderEngine && a.renderType == b.renderType
    && a.cyclesSamples == b.cyclesSamples && a.cyclesDenoising == b.cyclesDenoising
    && a.cyclesDevice == b.cyclesDevice && a.eeveeSamples == b.eeveeSamples
    && a.fileFormat == b.fileFormat && a.outputFilename == b.outputFilename
  }

  /** `xs or default`: an empty list is replaced. */
  function OrDefault(xs: seq<string>, default: seq<string>): seq<string> {
    if |xs| == 0 then default else xs
  }

  /** `str(Path(p))` when `p` is set; an empty path stays empty. */
  function NormalizeIfSet(p: string): string {
    if p != "" then Paths.Normalize(p) else p
  }

  /** The threads rule: 0, a negative count or one above the machine's count
      becomes the machine's count. The `elif` that would reject too many
      threads is kept and can never be reached. */
  function FixThreads(threads: int, maxThreads: int): (r: Result<int, SettingsError>)
    requires maxThreads >= 1
    ensures r.Ok?
    ensures 1 <= r.value <= maxThreads
    ensures 1 <= threads <= maxThreads ==> r.value == threads
    ensures !(1 <= threads <= maxThreads) ==> r.value == maxThreads
  {
    if threads <= 0 || threads > maxThreads then Ok(maxThreads)
    else if threads > maxThreads then Err(ThreadsOutOfRange(maxThreads))
    else Ok(threads)
  }

  /** `Settings(...)` with its `__post_init__`: defaults for the format lists,
      the checks in order (engine, render type, Cycles samples, EEVEE samples,
      file format), normalised paths, and the threads rule. */
  function NewSettings(s: Settings, cpuCount: nat): (r: Result<Settings, SettingsError>)
    ensures r.Ok? ==> Valid(r.value, MaxThreads(cpuCount))
    ensures r.Ok? ==> SameUntouchedFields(r.value, s)
    ensures r.Ok? ==> r.value.threads == FixThreads(s.threads, MaxThreads(cpuCount)).value
    ensures r.Ok? ==> r.value.fileFormatsImage == OrDefault(s.fileFormatsImage, DefaultImageFormats)
    ensures r.Ok? ==> r.value.fileFormatsMovie == OrDefault(s.fileFormatsMovie, DefaultMovieFormats)
    ensures r.Ok? ==> r.value.outputPath == NormalizeIfSet(s.outputPath)
    ensures r.Ok? ==> r.value.blenderPath == NormalizeIfSet(s.blenderPath)
    ensures r.Ok? <==>
      && IsEngine(s.renderEngine)
      && IsRenderType(s.renderType)
      && 1 <= s.cyclesSamples <= MaxCyclesSamples(s.renderEngine)
      && 1 <= s.eeveeSamples <= 256
      && s.fileFormat in OrDefault(s.fileFormatsImage, DefaultImageFormats)
                         + OrDefault(s.fileFormatsMovie, DefaultMovieFormats)
    ensures !IsEngine(s.renderEngine) ==> r == Err(UnsupportedEngine(s.renderEngine))
    ensures IsEngine(s.renderEngine) && !IsRenderType(s.renderType) ==>
      r == Err(UnsupportedRenderType(s.renderType))
  {
    var image := OrDefault(s.fileFormatsImage, DefaultImageFormats);
    var movie := OrDefault(s.fileFormatsMovie, DefaultMovieFormats);
    var maxSamples := MaxCyclesSamples(s.renderEngine);
    if !IsEngine(s.renderEngine) then Err(UnsupportedEngine(s.renderEngine))
    else if !IsRenderType(s.renderType) then Err(UnsupportedRenderType(s.renderType))
    else if !(1 <= s.cyclesSamples <= maxSamples) then Err(CyclesSamplesOutOfRange(maxSamples))
    else if !(1 <= s.eeveeSamples <= 256) then Err(EeveeSamplesOutOfRange)
    else if s.fileFormat !in image + movie then Err(InvalidFileFormat(s.fileFormat))
    else
      match FixThreads(s.threads, MaxThreads(cpuCount))
      case Err(e) => Err(e)
      case Ok(threads) =>
        var outputPath := NormalizeIfSet(s.outputPath);
        var blenderPath := NormalizeIfSet(s.blenderPath);
        NormalizedPathsAreFixed(s.outputPath, s.blenderPath);
        Ok(s.(fileFormatsImage := image, fileFormatsMovie := movie,
              outputPath := outputPath, blenderPath := blenderPath, threads := threads))
  }

  lemma NormalizedPathsAreFixed(a: string, b: string)
    ensures NormalizedOrEmpty(NormalizeIfSet(a)) && NormalizedOrEmpty(NormalizeIfSet(b))
  {
    Paths.NormalizeIdempotent(a);
    Paths.NormalizeIdempotent(b);
  }

  /** Settings that already satisfy the invariant come back unchanged: building
      is idempotent, so a stored project reloads as it was saved. */
  lemma NewSettingsOfValid(s: Settings, cpuCount: nat)
    requires Valid(s, MaxThreads(cpuCount))
    ensures NewSettings(s, cpuCount) == Ok(s)
  {
  }

  /** Building twice is building once. */
  lemma NewSettingsIdempotent(s: Settings, cpuCount: nat)
    requires NewSettings(s, cpuCount).Ok?
    ensures NewSettings(NewSettings(s, cpuCount).value, cpuCount) == NewSettings(s, cpuCount)
  {
    NewSettingsOfValid(NewSettings(s, cpuCount).value, cpuCount);
  }

  /** What building rewrites it rewrites without changing meaning: a set path
      names the same path after normalisation, a non-empty format list and a
      thread count within the machine's stay as given. */
  lemma NewSettingsKeepsMeaning(s: Settings, cpuCount: nat)
    requires NewSettings(s, cpuCount).Ok?
    ensures s.outputPath != "" ==>
      Paths.Parse(NewSettings(s, cpuCount).value.outputPath) == Paths.Parse(s.outputPath)
    ensures s.blenderPath != "" ==>
      Paths.Parse(NewSettings(s, cpuCount).value.blenderPath) == Paths.Parse(s.blenderPath)
    ensures |s.fileFormatsImage| > 0 ==> NewSettings(s, cpuCount).value.fileFormatsImage == s.fileFormatsImage
    ensures |s.fileFormatsMovie| > 0 ==> NewSettings(s, cpuCount).value.fileFormatsMovie == s.fileFormatsMovie
    ensures 1 <= s.threads <= MaxThreads(cpuCount) ==> NewSettings(s, cpuCount).value.threads == s.threads
  {
    Paths.ParseFormat(Paths.Parse(s.outputPath));
    Paths.ParseFormat(Paths.Parse(s.blenderPath));
  }

  /** The threads value never makes construction fail: the rejecting branch
      is unreachable, so any two thread counts give the same verdict. */
  lemma ThreadsNeverRejected(s: Settings, t: int, cpuCount: nat)
    ensures NewSettings(s.(threads := t), cpuCount).Ok? == NewSettings(s, cpuCount).Ok?
  {
  }

  /** The default settings build, with threads set to the machine's count. */
  lemma DefaultsBuild(cpuCount: nat)
    ensures NewSettings(Defaults, cpuCount).Ok?
    ensures NewSettings(Defaults, cpuCount).value.threads == MaxThreads(cpuCount)
    ensures NewSettings(Defaults, cpuCount).value.fileFormatsImage == DefaultImageFormats
  {
    assert "PNG" in DefaultImageFormats + DefaultMovieFormats by {
      assert (DefaultImageFormats + DefaultMovieFormats)[0] == "PNG";
    }
  }

  // ---------------------------------------------------------------------
  // Dictionary form
  // ---------------------------------------------------------------------

  /** The JSON-compatible values a settings dictionary holds. A float is kept
      as its decimal text. */
  datatype Value =
    | IntV(i: int)
    | FloatV(text: string)
    | BoolV(b: bool)
    | StrV(s: string)
    | ListV(items: seq<string>)

  /** The fields of Settings, as dictionary keys. */
  datatype Field =
    | ResolutionX | ResolutionY | ResolutionScale | Fps | FpsBase
    | FrameStart | FrameEnd | FrameStep | FrameCurrent
    | RenderEngine | RenderType | CyclesSamples | CyclesDenoising | CyclesDevice
    | Threads | EeveeSamples | FileFormat | FileFormatsImage | FileFormatsMovie
    | OutputPath | OutputFilename | BlenderPath

  /** A dictionary key: one of the field names, or any other name. */
  datatype Key = Known(field: Field) | Other(name: string)

  /** A name no field is stored under. */
  predicate NotAFieldName(name: string) {
    forall f: Field :: FieldName(f) != name
  }

  /** Each Python dictionary has exactly one encoding: a field's name is
      always the `Known` key, never `Other`. */
  predicate OneEncoding(d: map<Key, Value>) {
    forall k :: k in d && k.Other? ==> NotAFieldName(k.name)
  }

  type Dict = d: map<Key, Value> | OneEncoding(d) witness map[]

  /** The snake_case name under which a field is stored. */
  function FieldName(f: Field): string {
    match f
    case ResolutionX => "resolution_x"
    case ResolutionY => "resolution_y"
    case ResolutionScale => "resolution_scale"
    case Fps => "fps"
    case FpsBase => "fps_base"
    case FrameStart => "frame_start"
    case FrameEnd => "frame_end"
    case FrameStep => "frame_step"
    case FrameCurrent => "frame_current"
    case RenderEngine => "render_engine"
    case RenderType => "render_type"
    case CyclesSamples => "cycles_samples"
    case CyclesDenoising => "cycles_denoising"
    case CyclesDevice => "cycles_device"
    case Threads => "threads"
    case EeveeSamples => "eevee_samples"
    case FileFormat => "file_format"
    case FileFormatsImage => "file_formats_image"
    case FileFormatsMovie => "file_formats_movie"
    case OutputPath => "output_path"
    case OutputFilename => "output_filename"
    case BlenderPath => "blender_path"
  }

  /** The field a value is stored under, as `to_dict` writes it. */
  function FieldValue(s: Settings, f: Field): Value {
    match f
    case ResolutionX => IntV(s.resolutionX)
    case ResolutionY => IntV(s.resolutionY)
    case ResolutionScale => IntV(s.resolutionScale)
    case Fps => IntV(s.fps)
    case FpsBase => FloatV(s.fpsBase)
    case FrameStart => IntV(s.frameStart)
    case FrameEnd => IntV(s.frameEnd)
    case FrameStep => IntV(s.frameStep)
    case FrameCurrent => IntV(s.frameCurrent)
    case RenderEngine => StrV(s.renderEngine)
    case RenderType => StrV(s.renderType)
    case CyclesSamples => IntV(s.cyclesSamples)
    case CyclesDenoising => BoolV(s.cyclesDenoising)
    case CyclesDevice => StrV(s.cyclesDevice)
    case Threads => IntV(s.threads)
    case EeveeSamples => IntV(s.eeveeSamples)
    case FileFormat => StrV(s.fileFormat)
    case FileFormatsImage => ListV(s.fileFormatsImage)
    case FileFormatsMovie => ListV(s.fileFormatsMovie)
    case OutputPath => StrV(s.outputPath)
    case OutputFilename => StrV(s.outputFilename)
    case BlenderPath => StrV(s.blenderPath)
  }

  /** `to_dict`: every field under its own name, and nothing else. */
  function ToDict(s: Settings): (d: Dict)
    ensures forall k :: k in d ==> k.Known?
  {
    map k | k in AllKeys && k.Known? :: FieldValue(s, k.field)
  }

  /** Every field key, written out so that the dictionary is finite. */
  const AllKeys: set<Key> := {
    Known(ResolutionX), Known(ResolutionY), Known(ResolutionScale), Known(Fps), Known(FpsBase),
    Known(FrameStart), Known(FrameEnd), Known(FrameStep), Known(FrameCurrent),
    Known(RenderEngine), Known(RenderType), Known(CyclesSamples), Known(CyclesDenoising),
    Known(CyclesDevice), Known(Threads), Known(EeveeSamples), Known(FileFormat),
    Known(FileFormatsImage), Known(FileFormatsMovie), Known(OutputPath),
    Known(OutputFilename), Known(BlenderPath)}

  function IntField(d: Dict, f: Field, default: int): Result<int, SettingsError> {
    if Known(f) !in d then Ok(default)
    else match d[Known(f)]
      case IntV(i) => Ok(i)
      case _ => Err(WrongKind(FieldName(f)))
  }

  function FloatField(d: Dict, f: Field, default: string): Result<string, SettingsError> {
    if Known(f) !in d then Ok(default)
    else match d[Known(f)]
      case FloatV(t) => Ok(t)
      case _ => Err(WrongKind(FieldName(f)))
  }

  function BoolField(d: Dict, f: Field, default: bool): Result<bool, SettingsError> {
    if Known(f) !in d then Ok(default)
    else match d[Known(f)]
      case BoolV(b) => Ok(b)
      case _ => Err(WrongKind(FieldName(f)))
  }

  function StrField(d: Dict, f: Field, default: string): Result<string, SettingsError> {
    if Known(f) !in d then Ok(default)
    else match d[Known(f)]
      case StrV(t) => Ok(t)
      case _ => Err(WrongKind(FieldName(f)))
  }

  function ListField(d: Dict, f: Field, default: seq<string>): Result<seq<string>, SettingsError> {
    if Known(f) !in d then Ok(default)
    else match d[Known(f)]
      case ListV(xs) => Ok(xs)
      case _ => Err(WrongKind(FieldName(f)))
  }

  /** A key that names no field (`cls(**data)` raises TypeError). */
  predicate HasUnexpectedKey(d: Dict) {
    exists k :: k in d && k.Other?
  }

  function SizeFields(d: Dict): Result<(int, int, int, int, string), SettingsError> {
    var resolutionX :- IntField(d, ResolutionX, Defaults.resolutionX);
    var resolutionY :- IntField(d, ResolutionY, Defaults.resolutionY);
    var resolutionScale :- IntField(d, ResolutionScale, Defaults.resolutionScale);
    var fps :- IntField(d, Fps, Defaults.fps);
    var fpsBase :- FloatField(d, FpsBase, Defaults.fpsBase);
    Ok((resolutionX, resolutionY, resolutionScale, fps, fpsBase))
  }

  function FrameFields(d: Dict): Result<(int, int, int, int), SettingsError> {
    var frameStart :- IntField(d, FrameStart, Defaults.frameStart);
    var frameEnd :- IntField(d, FrameEnd, Defaults.frameEnd);
    var frameStep :- IntField(d, FrameStep, Defaults.frameStep);
    var frameCurrent :- IntField(d, FrameCurrent, Defaults.frameCurrent);
    Ok((frameStart, frameEnd, frameStep, frameCurrent))
  }

  function EngineFields(d: Dict): Result<(string, string, int, bool), SettingsError> {
    var renderEngine :- StrField(d, RenderEngine, Defaults.renderEngine);
    var renderType :- StrField(d, RenderType, Defaults.renderType);
    var cyclesSamples :- IntField(d, CyclesSamples, Defaults.cyclesSamples);
    var cyclesDenoising :- BoolField(d, CyclesDenoising, Defaults.cyclesDenoising);
    Ok((renderEngine, renderType, cyclesSamples, cyclesDenoising))
  }

  function DeviceFields(d: Dict): Result<(string, int, int), SettingsError> {
    var cyclesDevice :- StrField(d, CyclesDevice, Defaults.cyclesDevice);
    var threads :- IntField(d, Threads, Defaults.threads);
    var eeveeSamples :- IntField(d, EeveeSamples, Defaults.eeveeSamples);
    Ok((cyclesDevice, threads, eeveeSamples))
  }

  function FormatFields(d: Dict): Result<(string, seq<string>, seq<string>), SettingsError> {
    var fileFormat :- StrField(d, FileFormat, Defaults.fileFormat);
    var fileFormatsImage :- ListField(d, FileFormatsImage, Defaults.fileFormatsImage);
    var fileFormatsMovie :- ListField(d, FileFormatsMovie, Defaults.fileFormatsMovie);
    Ok((fileFormat, fileFormatsImage, fileFormatsMovie))
  }

  function OutputFields(d: Dict): Result<(string, string, string), SettingsError> {
    var outputPath :- StrField(d, OutputPath, Defaults.outputPath);
    var outputFilename :- StrField(d, OutputFilename, Defaults.outputFilename);
    var blenderPath :- StrField(d, BlenderPath, Defaults.blenderPath);
    Ok((outputPath, outputFilename, blenderPath))
  }

  /** The keyword arguments of `cls(**data)`: a missing key takes the field's
      default, a key that is not a field is rejected. */
  function Fields(d: Dict): (r: Result<Settings, SettingsError>)
    ensures HasUnexpectedKey(d) ==> r == Err(UnexpectedField)
  {
    if HasUnexpectedKey(d) then Err(UnexpectedField)
    else
      var size :- SizeFields(d);
      var frames :- FrameFields(d);
      var engine :- EngineFields(d);
      var device :- DeviceFields(d);
      var formats :- FormatFields(d);
      var output :- OutputFields(d);
      Ok(Settings(
        size.0, size.1, size.2, size.3, size.4,
        frames.0, frames.1, frames.2, frames.3,
        engine.0, engine.1, engine.2, engine.3, device.0, device.1, device.2,
        formats.0, formats.1, formats.2, output.0, output.1, output.2))
  }

  /** `Settings.from_dict(data)`: the keyword arguments, then `__post_init__`. */
  function FromDict(d: Dict, cpuCount: nat): (r: Result<Settings, SettingsError>)
    ensures r.Ok? ==> Valid(r.value, MaxThreads(cpuCount))
    ensures HasUnexpectedKey(d) ==> r == Err(UnexpectedField)
  {
    var s :- Fields(d);
    NewSettings(s, cpuCount)
  }

  /** Each field is in the dictionary form, under its own key. */
  lemma ToDictAt(s: Settings, f: Field)
    ensures Known(f) in ToDict(s) && ToDict(s)[Known(f)] == FieldValue(s, f)
  {
    assert Known(f) in AllKeys by {
      match f
      case ResolutionX =>
      case ResolutionY =>
      case ResolutionScale =>
      case Fps =>
      case FpsBase =>
      case FrameStart =>
      case FrameEnd =>
      case FrameStep =>
      case FrameCurrent =>
      case RenderEngine =>
      case RenderType =>
      case CyclesSamples =>
      case CyclesDenoising =>
      case CyclesDevice =>
      case Threads =>
      case EeveeSamples =>
      case FileFormat =>
      case FileFormatsImage =>
      case FileFormatsMovie =>
      case OutputPath =>
      case OutputFilename =>
      case BlenderPath =>
    }
  }

  lemma SizeFieldsOfToDict(s: Settings)
    ensures SizeFields(ToDict(s)) == Ok((s.resolutionX, s.resolutionY, s.resolutionScale, s.fps, s.fpsBase))
  {
    ToDictAt(s, ResolutionX);
    ToDictAt(s, ResolutionY);
    ToDictAt(s, ResolutionScale);
    ToDictAt(s, Fps);
    ToDictAt(s, FpsBase);
  }

  lemma FrameFieldsOfToDict(s: Settings)
    ensures FrameFields(ToDict(s)) == Ok((s.frameStart, s.frameEnd, s.frameStep, s.frameCurrent))
  {
    ToDictAt(s, FrameStart);
    ToDictAt(s, FrameEnd);
    ToDictAt(s, FrameStep);
    ToDictAt(s, FrameCurrent);
  }

  lemma EngineFieldsOfToDict(s: Settings)
    ensures EngineFields(ToDict(s)) == Ok((s.renderEngine, s.renderType, s.cyclesSamples, s.cyclesDenoising))
  {
    ToDictAt(s, RenderEngine);
    ToDictAt(s, RenderType);
    ToDictAt(s, CyclesSamples);
    ToDictAt(s, CyclesDenoising);
  }

  lemma DeviceFieldsOfToDict(s: Settings)
    ensures DeviceFields(ToDict(s)) == Ok((s.cyclesDevice, s.threads, s.eeveeSamples))
  {
    ToDictAt(s, CyclesDevice);
    ToDictAt(s, Threads);
    ToDictAt(s, EeveeSamples);
  }

  lemma FormatFieldsOfToDict(s: Settings)
    ensures FormatFields(ToDict(s)) == Ok((s.fileFormat, s.fileFormatsImage, s.fileFormatsMovie))
  {
    ToDictAt(s, FileFormat);
    ToDictAt(s, FileFormatsImage);
    ToDictAt(s, FileFormatsMovie);
  }

  lemma OutputFieldsOfToDict(s: Settings)
    ensures OutputFields(ToDict(s)) == Ok((s.outputPath, s.outputFilename, s.blenderPath))
  {
    ToDictAt(s, OutputPath);
    ToDictAt(s, OutputFilename);
    ToDictAt(s, BlenderPath);
  }

  /** The dictionary form keeps every field. */
  lemma FieldsOfToDict(s: Settings)
    ensures Fields(ToDict(s)) == Ok(s)
  {
    assert !HasUnexpectedKey(ToDict(s));
    SizeFieldsOfToDict(s);
    FrameFieldsOfToDict(s);
    EngineFieldsOfToDict(s);
    DeviceFieldsOfToDict(s);
    FormatFieldsOfToDict(s);
    OutputFieldsOfToDict(s);
  }

  /** Settings written with `to_dict` and read with `from_dict` are the same
      settings. */
  lemma FromDictToDict(s: Settings, cpuCount: nat)
    requires Valid(s, MaxThreads(cpuCount))
    ensures FromDict(ToDict(s), cpuCount) == Ok(s)
  {
    FieldsOfToDict(s);
    NewSettingsOfValid(s, cpuCount);
  }

  /** `Settings.from_dict({})` is `Settings()`. */
  lemma FromEmptyDict(cpuCount: nat)
    ensures FromDict(map[], cpuCount) == NewSettings(Defaults, cpuCount)
  {
  }

  // ---------------------------------------------------------------------
  // Project
  // ---------------------------------------------------------------------

  datatype Project = Project(
    uniqueId: string,
    name: string,
    filePath: string,
    settings: Settings,
    previewPath: string)

  /** The `settings` argument: a Settings instance, or a dictionary still to be
      turned into one. */
  datatype SettingsArg = Instance(settings: Settings) | AsDict(dict: Dict)

  /** `Project(...)` with its `__post_init__`. `freshId` stands for the
      `uuid4()` drawn when no id is given. */
  function NewProject(uniqueId: string, name: string, filePath: string,
                      settings: SettingsArg, previewPath: string,
                      freshId: string, cpuCount: nat): (r: Result<Project, SettingsError>)
    requires freshId != ""
    ensures r.Ok? ==> r.value.filePath == Paths.Normalize(filePath)
    ensures r.Ok? ==> r.value.name == (if name != "" then name else Paths.Basename(r.value.filePath))
    ensures r.Ok? ==> r.value.uniqueId == (if uniqueId != "" then uniqueId else freshId)
    ensures r.Ok? ==> r.value.previewPath == previewPath
    ensures settings.Instance? ==> r.Ok? && r.value.settings == settings.settings
    ensures settings.AsDict? ==> r.Ok? == FromDict(settings.dict, cpuCount).Ok?
    ensures settings.AsDict? && r.Ok? ==> r.value.settings == FromDict(settings.dict, cpuCount).value
  {
    var path := Paths.Normalize(filePath);
    var n := if name != "" then name else Paths.Basename(path);
    var id := if uniqueId != "" then uniqueId else freshId;
    match settings
    case Instance(s) => Ok(Project(id, n, path, s, previewPath))
    case AsDict(d) =>
      var s :- FromDict(d, cpuCount);
      Ok(Project(id, n, path, s, previewPath))
  }

  /** What every constructed project satisfies. */
  predicate WellFormedProject(p: Project) {
    && p.uniqueId != ""
    && Paths.Normalize(p.filePath) == p.filePath
    && (p.name == "" ==> Paths.Basename(p.filePath) == "")
  }

  lemma NewProjectWellFormed(uniqueId: string, name: string, filePath: string,
                             settings: SettingsArg, previewPath: string,
                             freshId: string, cpuCount: nat)
    requires freshId != ""
    requires NewProject(uniqueId, name, filePath, settings, previewPath, freshId, cpuCount).Ok?
    ensures WellFormedProject(NewProject(uniqueId, name, filePath, settings, previewPath, freshId, cpuCount).value)
  {
    Paths.NormalizeIdempotent(filePath);
  }

  /** Rebuilding a well-formed project from its own fields gives it back: no
      new id is drawn and the name and path stay as they are. */
  lemma NewProjectOfWellFormed(p: Project, freshId: string, cpuCount: nat)
    requires freshId != "" && WellFormedProject(p)
    ensures NewProject(p.uniqueId, p.name, p.filePath, Instance(p.settings),
                       p.previewPath, freshId, cpuCount) == Ok(p)
  {
  }

  /** A project added without a name is named after the last part of its
      normalised path. */
  lemma DefaultNameIsLastPart(filePath: string, settings: Settings, freshId: string, cpuCount: nat)
    requires freshId != ""
    requires |Paths.Parse(filePath).parts| >= 1
    ensures NewProject("", "", filePath, Instance(settings), "", freshId, cpuCount).value.name
            == Paths.Name(Paths.Parse(filePath))
  {
    Paths.BasenameOfFormat(Paths.Parse(filePath));
  }
}

=== FILE: protocol.dfy ===
/** The agreements between the manager and its two worker scripts: the
    command lines the manager builds are the ones the scripts read, and the
    line the preview worker prints is the one the manager decodes. */
module Protocol {
  import opened Results
  import Text
  import Paths
  import Base64
  import opened Models
  import Manager
  import PreviewScript
  import RenderScript

  // ---------------------------------------------------------------------
  // Thumbnail
  // ---------------------------------------------------------------------

  /** The preview worker reads back, by position, exactly the values the
      manager put on its command line. */
  lemma PreviewArgumentsRoundTrip(p: Project, managerExe: string, scriptPath: string, existing: set<string>)
    requires Manager.PreviewCommand(p, managerExe, scriptPath, existing).Launched?
    ensures PreviewScript.ParseArgs(Manager.PreviewCommand(p, managerExe, scriptPath, existing).argv)
      == Ok(PreviewScript.PreviewArgs(p.filePath, p.uniqueId, p.settings.renderEngine,
                                      if p.settings.cyclesDenoising then 1 else 0,
                                      p.settings.cyclesDevice, p.settings.threads))
  {
    var argv := Manager.PreviewCommand(p, managerExe, scriptPath, existing).argv;
    assert argv[5..] == Manager.PreviewArguments(p);
    assert argv[8] == Text.BoolFlag(p.settings.cyclesDenoising);
    assert argv[10] == Text.IntToString(p.settings.threads);
    Text.ParseIntOfIntToString(p.settings.threads);
  }

  /** For a command the manager launched, the worker gets past its checks
      exactly when the project file exists and the engine is one the worker
      knows. */
  lemma PreviewPrepareSucceeds(p: Project, managerExe: string, scriptPath: string, existing: set<string>)
    requires Manager.PreviewCommand(p, managerExe, scriptPath, existing).Launched?
    ensures PreviewScript.Prepare(Manager.PreviewCommand(p, managerExe, scriptPath, existing).argv, existing).Ok?
      <==> p.filePath in existing && IsEngine(p.settings.renderEngine)
  {
    PreviewArgumentsRoundTrip(p, managerExe, scriptPath, existing);
  }

  /** The data line is one non-empty line with no surrounding white space. */
  lemma DataLineIsOneLine(png: seq<Base64.byte>)
    ensures PreviewScript.DataLine(png) != ""
    ensures Text.NoLineBreak(PreviewScript.DataLine(png))
    ensures !Text.IsSpace(PreviewScript.DataLine(png)[0])
    ensures !Text.IsSpace(PreviewScript.DataLine(png)[|PreviewScript.DataLine(png)| - 1])
  {
    var line := PreviewScript.DataLine(png);
    var e := Base64.Encode(png);
    Base64.EncodeChars(png);
    assert line == Manager.DataPrefix + e;
    forall i | 0 <= i < |line| ensures !Text.IsLineBreak(line[i]) && !Text.IsSpace(line[i]) {
      if i >= |Manager.DataPrefix| {
        assert line[i] == e[i - |Manager.DataPrefix|];
      }
    }
  }

  /** Lines a run may print around its data line: single lines, blank ones
      included, none of them carrying the data prefix. */
  predicate Noise(ls: seq<string>) {
    forall k :: 0 <= k < |ls| ==>
      Text.NoLineBreak(ls[k]) && !Text.StartsWith(ls[k], Manager.DataPrefix)
  }

  /** Printed lines whose first and last lines start and end with a visible
      character, so that `strip()` takes off only the final newline. Lines in
      between may be blank. */
  predicate Framed(ls: seq<string>) {
    StartsVisible(ls) && EndsVisible(ls)
  }

  /** The first line, if any, starts with a visible character. */
  predicate StartsVisible(ls: seq<string>) {
    |ls| == 0 || (ls[0] != "" && !Text.IsSpace(ls[0][0]))
  }

  /** The last line, if any, ends with a visible character. */
  predicate EndsVisible(ls: seq<string>) {
    |ls| == 0 || (ls[|ls| - 1] != "" && !Text.IsSpace(ls[|ls| - 1][|ls[|ls| - 1]| - 1]))
  }

  /** Stripping and splitting printed lines gives the lines back. */
  lemma LinesOfPrinted(ls: seq<string>)
    requires |ls| >= 1
    requires forall k :: 0 <= k < |ls| ==> Text.NoLineBreak(ls[k])
    requires Framed(ls)
    ensures Text.Splitlines(Text.Strip(Text.Printed(ls))) == ls
  {
    Text.StripPrinted(ls);
    Text.SplitlinesOfJoinLines(ls);
  }

  /** Noise around the data line keeps every line single, and the whole
      output framed. */
  lemma NoiseAround(before: seq<string>, line: string, after: seq<string>)
    requires Noise(before) && Noise(after) && line != "" && Text.NoLineBreak(line)
    requires !Text.IsSpace(line[0]) && !Text.IsSpace(line[|line| - 1])
    requires StartsVisible(before) && EndsVisible(after)
    ensures var ls := before + [line] + after;
      (forall k :: 0 <= k < |ls| ==> Text.NoLineBreak(ls[k])) && Framed(ls)
  {
    var ls := before + [line] + after;
    forall k | 0 <= k < |ls| ensures Text.NoLineBreak(ls[k]) {
      if k < |before| { assert ls[k] == before[k]; }
      else if k > |before| { assert ls[k] == after[k - |before| - 1]; }
    }
    if |before| > 0 { assert ls[0] == before[0]; }
    if |after| > 0 { assert ls[|ls| - 1] == after[|after| - 1]; }
  }

  /** The manager picks the data line out of the noise. */
  lemma FirstDataLine(before: seq<string>, line: string, after: seq<string>)
    requires Noise(before) && Text.StartsWith(line, Manager.DataPrefix)
    ensures Text.FirstWithPrefix(before + [line] + after, Manager.DataPrefix) == Some(line)
  {
    assert before + [line] + after == before + ([line] + after);
    Text.FirstWithPrefixSkips(before, [line] + after, Manager.DataPrefix);
  }

  /** What the preview worker prints for a rendered image, read back by the
      manager, is that image, whatever lines Blender prints around it (blank
      ones included), provided its output starts and ends with a visible
      character. */
  lemma ThumbnailRoundTrip(before: seq<string>, png: seq<Base64.byte>, after: seq<string>)
    requires Noise(before) && Noise(after) && StartsVisible(before) && EndsVisible(after)
    ensures Manager.DecodePreviewOutput(Text.Printed(before + [PreviewScript.DataLine(png)] + after)) == Some(png)
  {
    var line := PreviewScript.DataLine(png);
    DataLineIsOneLine(png);
    NoiseAround(before, line, after);
    LinesOfPrinted(before + [line] + after);
    FirstDataLine(before, line, after);
    Manager.AfterFirstCommaOfDataLine(line);
    assert line[|Manager.DataPrefix|..] == Base64.Encode(png);
    Base64.DecodeEncode(png);
  }

  /** Blender's usual framing, with blank lines before and after the data
      line, still gives the image back. */
  lemma BlankLinesAroundDataLine(png: seq<Base64.byte>)
    ensures Manager.DecodePreviewOutput(Text.Printed(
      ["Blender 4.1.0", ""] + [PreviewScript.DataLine(png)] + ["", "Blender quit"])) == Some(png)
  {
    var before := ["Blender 4.1.0", ""];
    var after := ["", "Blender quit"];
    assert !Text.StartsWith(before[0], Manager.DataPrefix) by {
      assert before[0][0] != Manager.DataPrefix[0];
    }
    assert !Text.StartsWith(after[1], Manager.DataPrefix) by {
      assert after[1][0] != Manager.DataPrefix[0];
    }
    assert Noise(before) && Noise(after);
    ThumbnailRoundTrip(before, png, after);
  }

  /** Without a data line the manager finds no image, so a run that printed
      only an error line gives no thumbnail. */
  lemma NoThumbnailWithoutDataLine(ls: seq<string>)
    requires Noise(ls) && Framed(ls)
    ensures Manager.DecodePreviewOutput(Text.Printed(ls)) == None
  {
    if |ls| > 0 {
      LinesOfPrinted(ls);
    } else {
      assert Text.Printed(ls) == "";
    }
  }

  // ---------------------------------------------------------------------
  // Full render
  // ---------------------------------------------------------------------

  /** A value on the render command line: free text, or a number the manager
      writes in decimal. */
  datatype Val = TextVal(text: string) | IntVal(n: int)

  function Render(v: Val): string {
    match v
    case TextVal(t) => t
    case IntVal(n) => Text.IntToString(n)
  }

  /** Option/value pairs written out with the option names the script declares. */
  function Named(fs: seq<(RenderScript.Flag, Val)>): seq<(string, string)> {
    seq(|fs|, k requires 0 <= k < |fs| => (RenderScript.FlagName(fs[k].0), Render(fs[k].1)))
  }

  lemma NamedConcat(a: seq<(RenderScript.Flag, Val)>, b: seq<(RenderScript.Flag, Val)>)
    ensures Named(a + b) == Named(a) + Named(b)
  {
  }

  /** Text that does not start with a dash, which argparse can only read as
      a value. */
  predicate NoDash(t: string) {
    t == "" || t[0] != '-'
  }

  /** A pair argparse accepts: text values do not start with a dash, --type
      is one of its choices, and the frame options are numbers. */
  predicate Fits(x: (RenderScript.Flag, Val)) {
    && (x.1.TextVal? ==> NoDash(x.1.text))
    && (x.0 == RenderScript.Type ==> x.1 == TextVal("image") || x.1 == TextVal("animation"))
    && (IsFrameFlag(x.0) ==> x.1.IntVal?)
  }

  /** The options argparse converts with `int`. */
  predicate IsFrameFlag(f: RenderScript.Flag) {
    f == RenderScript.Frame || f == RenderScript.Start || f == RenderScript.End || f == RenderScript.Step
  }

  lemma FitsAccepted(x: (RenderScript.Flag, Val))
    requires Fits(x)
    ensures RenderScript.IsValue(Render(x.1))
    ensures RenderScript.CheckValue(x.0, Render(x.1)).Ok?
  {
    match x.1
    case TextVal(t) =>
    case IntVal(n) =>
      RenderScript.IntIsValue(n);
      Text.ParseIntOfIntToString(n);
  }

  /** One option and its value: the value is recorded and scanning goes on. */
  lemma ScanPair(f: RenderScript.Flag, v: string, rest: seq<string>, st: RenderScript.Parsed)
    requires RenderScript.IsValue(v) && RenderScript.CheckValue(f, v).Ok?
    ensures RenderScript.Scan([RenderScript.FlagName(f), v] + rest, st)
      == RenderScript.Scan(rest, st.(values := st.values[f := v]))
  {
    var toks := [RenderScript.FlagName(f), v] + rest;
    RenderScript.FlagOfName(f);
    RenderScript.FlagNameIsLong(f);
    assert toks[2..] == rest;
  }

  lemma FlattenNamed(fs: seq<(RenderScript.Flag, Val)>, rest: seq<string>)
    requires |fs| >= 1
    ensures Manager.Flatten(Named(fs)) + rest
      == [RenderScript.FlagName(fs[0].0), Render(fs[0].1)] + (Manager.Flatten(Named(fs[1..])) + rest)
  {
    assert Named(fs)[1..] == Named(fs[1..]);
  }

  /** The option values after reading the pairs in order: a later value for
      the same option replaces an earlier one. */
  function Apply(m: map<RenderScript.Flag, string>, fs: seq<(RenderScript.Flag, Val)>): map<RenderScript.Flag, string>
    decreases |fs|
  {
    if fs == [] then m else Apply(m[fs[0].0 := Render(fs[0].1)], fs[1..])
  }

  /** Scanning written-out pairs records each pair's value under its option. */
  lemma {:induction false} ScanNamed(fs: seq<(RenderScript.Flag, Val)>, rest: seq<string>, st: RenderScript.Parsed)
    requires AllFit(fs)
    decreases |fs|
    ensures RenderScript.Scan(Manager.Flatten(Named(fs)) + rest, st)
      == RenderScript.Scan(rest, st.(values := Apply(st.values, fs)))
  {
    if fs == [] {
      assert Manager.Flatten(Named(fs)) + rest == rest;
    } else {
      var f := fs[0].0;
      var v := Render(fs[0].1);
      FlattenNamed(fs, rest);
      FitsAccepted(fs[0]);
      ScanPair(f, v, Manager.Flatten(Named(fs[1..])) + rest, st);
      ScanNamed(fs[1..], rest, st.(values := st.values[f := v]));
    }
  }

  /** An option no pair names keeps its value. */
  lemma {:induction false} ApplyAbsent(m: map<RenderScript.Flag, string>, fs: seq<(RenderScript.Flag, Val)>,
                                       f: RenderScript.Flag)
    requires forall j :: 0 <= j < |fs| ==> fs[j].0 != f
    decreases |fs|
    ensures f in Apply(m, fs) <==> f in m
    ensures f in m ==> Apply(m, fs)[f] == m[f]
  {
    if fs != [] {
      ApplyAbsent(m[fs[0].0 := Render(fs[0].1)], fs[1..], f);
    }
  }

  /** The last pair for an option decides its value. */
  lemma {:induction false} ApplyAt(m: map<RenderScript.Flag, string>, fs: seq<(RenderScript.Flag, Val)>, k: int)
    requires 0 <= k < |fs|
    requires forall j :: k < j < |fs| ==> fs[j].0 != fs[k].0
    decreases |fs|
    ensures fs[k].0 in Apply(m, fs) && Apply(m, fs)[fs[k].0] == Render(fs[k].1)
  {
    var m' := m[fs[0].0 := Render(fs[0].1)];
    if k == 0 {
      ApplyAbsent(m', fs[1..], fs[0].0);
    } else {
      ApplyAt(m', fs[1..], k - 1);
    }
  }

  /** Reading a list in two parts. */
  lemma {:induction false} ApplyConcat(m: map<RenderScript.Flag, string>, a: seq<(RenderScript.Flag, Val)>,
                                       b: seq<(RenderScript.Flag, Val)>)
    decreases |a|
    ensures Apply(m, a + b) == Apply(Apply(m, a), b)
  {
    if a == [] {
      assert a + b == b;
    } else {
      assert (a + b)[1..] == a[1..] + b;
      ApplyConcat(m[a[0].0 := Render(a[0].1)], a[1..], b);
    }
  }

  /** The values a render command carries, as the manager computes them
      from a project. */
  datatype Command = Command(
    image: bool,
    frame: int,
    start: int,
    end: int,
    step: int,
    output: string,
    format: string,
    engine: string,
    samples: int,
    denoising: string,
    device: string,
    threads: int,
    resolutionX: int,
    resolutionY: int,
    resolutionScale: int,
    fps: int,
    fpsBase: string,
    filename: string)

  /** The command for settings `s`, with `output` the path the manager
      computes for them. */
  function CommandOf(s: Settings, output: string): Command {
    Command(s.renderType == "Image", s.frameCurrent, s.frameStart, s.frameEnd, s.frameStep,
            output, s.fileFormat, s.renderEngine, Manager.Samples(s),
            Text.BoolFlag(s.cyclesDenoising), s.cyclesDevice, s.threads,
            s.resolutionX, s.resolutionY, s.resolutionScale, s.fps, s.fpsBase, s.outputFilename)
  }

  // The options of a command, with the option each one is read as.

  function TypePairs(c: Command): seq<(RenderScript.Flag, Val)> {
    if c.image then
      [(RenderScript.Type, TextVal("image")),
       (RenderScript.Frame, IntVal(c.frame)),
       (RenderScript.Output, TextVal(c.output)),
       (RenderScript.Format, TextVal(c.format))]
    else
      [(RenderScript.Type, TextVal("animation")),
       (RenderScript.Start, IntVal(c.start)),
       (RenderScript.End, IntVal(c.end)),
       (RenderScript.Step, IntVal(c.step)),
       (RenderScript.Output, TextVal(c.output)),
       (RenderScript.Format, TextVal(c.format))]
  }

  function EnginePairs(c: Command): seq<(RenderScript.Flag, Val)> {
    [(RenderScript.Engine, TextVal(c.engine)),
     (RenderScript.Samples, IntVal(c.samples)),
     (RenderScript.Denoising, TextVal(c.denoising)),
     (RenderScript.Device, TextVal(c.device)),
     (RenderScript.Threads, IntVal(c.threads))]
  }

  function PicturePairs(c: Command): seq<(RenderScript.Flag, Val)> {
    [(RenderScript.ResolutionX, IntVal(c.resolutionX)),
     (RenderScript.ResolutionY, IntVal(c.resolutionY)),
     (RenderScript.ResolutionScale, IntVal(c.resolutionScale)),
     (RenderScript.Fps, IntVal(c.fps)),
     (RenderScript.FpsBase, TextVal(c.fpsBase)),
     (RenderScript.Filename, TextVal(c.filename))]
  }

  function Pairs(c: Command): seq<(RenderScript.Flag, Val)> {
    TypePairs(c) + (EnginePairs(c) + PicturePairs(c))
  }

  /** The manager writes the option names the script declares. */
  lemma NamedTypePairs(s: Settings)
    ensures Named(TypePairs(CommandOf(s, Manager.RenderOutput(s)))) == Manager.TypeFlags(s)
  {
  }

  lemma NamedEnginePairs(s: Settings, output: string)
    ensures Named(EnginePairs(CommandOf(s, output))) == Manager.EngineFlags(s)
  {
  }

  lemma NamedPicturePairs(s: Settings, output: string)
    ensures Named(PicturePairs(CommandOf(s, output))) == Manager.PictureFlags(s)
  {
  }

  lemma NamedPairs(s: Settings)
    ensures Named(Pairs(CommandOf(s, Manager.RenderOutput(s)))) == Manager.TypeFlags(s) + Manager.CommonFlags(s)
  {
    var c := CommandOf(s, Manager.RenderOutput(s));
    NamedConcat(EnginePairs(c), PicturePairs(c));
    NamedConcat(TypePairs(c), EnginePairs(c) + PicturePairs(c));
    NamedTypePairs(s);
    NamedEnginePairs(s, Manager.RenderOutput(s));
    NamedPicturePairs(s, Manager.RenderOutput(s));
  }

  /** The free-text values of a command do not start with a dash, so
      argparse reads each of them as a value. */
  predicate Plain(c: Command) {
    && NoDash(c.output) && NoDash(c.format) && NoDash(c.engine) && NoDash(c.denoising)
    && NoDash(c.device) && NoDash(c.fpsBase) && NoDash(c.filename)
  }

  /** Every pair of a list fits. */
  predicate AllFit(fs: seq<(RenderScript.Flag, Val)>) {
    forall k :: 0 <= k < |fs| ==> Fits(fs[k])
  }

  lemma AllFitConcat(a: seq<(RenderScript.Flag, Val)>, b: seq<(RenderScript.Flag, Val)>)
    requires AllFit(a) && AllFit(b)
    ensures AllFit(a + b)
  {
    forall k | 0 <= k < |a + b| ensures Fits((a + b)[k]) {
      if k < |a| { assert (a + b)[k] == a[k]; } else { assert (a + b)[k] == b[k - |a|]; }
    }
  }

  lemma TypePairsFit(c: Command)
    requires Plain(c)
    ensures AllFit(TypePairs(c))
  {
  }

  lemma EnginePairsFit(c: Command)
    requires Plain(c)
    ensures AllFit(EnginePairs(c))
  {
  }

  lemma PicturePairsFit(c: Command)
    requires Plain(c)
    ensures AllFit(PicturePairs(c))
  {
  }

  lemma PairsFit(c: Command)
    requires Plain(c)
    ensures AllFit(Pairs(c))
  {
    TypePairsFit(c);
    EnginePairsFit(c);
    PicturePairsFit(c);
    AllFitConcat(EnginePairs(c), PicturePairs(c));
    AllFitConcat(TypePairs(c), EnginePairs(c) + PicturePairs(c));
  }

  /** The values the type-dependent options leave. */
  lemma TypeValues(c: Command)
    ensures var v := Apply(map[], TypePairs(c));
      && RenderScript.Type in v && RenderScript.Output in v && RenderScript.Format in v
      && v[RenderScript.Type] == (if c.image then "image" else "animation")
      && v[RenderScript.Output] == c.output
      && v[RenderScript.Format] == c.format
      && (c.image ==>
            && RenderScript.Frame in v && v[RenderScript.Frame] == Text.IntToString(c.frame)
            && RenderScript.Start !in v && RenderScript.End !in v && RenderScript.Step !in v)
      && (!c.image ==>
            && RenderScript.Frame !in v
            && RenderScript.Start in v && v[RenderScript.Start] == Text.IntToString(c.start)
            && RenderScript.End in v && v[RenderScript.End] == Text.IntToString(c.end)
            && RenderScript.Step in v && v[RenderScript.Step] == Text.IntToString(c.step))
  {
    if c.image {
      ImageTypeValues(c);
    } else {
      AnimationTypeValues(c);
    }
  }

  lemma ImageTypeValues(c: Command)
    requires c.image
    ensures var v := Apply(map[], TypePairs(c));
      && RenderScript.Type in v && v[RenderScript.Type] == "image"
      && RenderScript.Output in v && v[RenderScript.Output] == c.output
      && RenderScript.Format in v && v[RenderScript.Format] == c.format
      && RenderScript.Frame in v && v[RenderScript.Frame] == Text.IntToString(c.frame)
      && RenderScript.Start !in v && RenderScript.End !in v && RenderScript.Step !in v
  {
    var t := TypePairs(c);
    ApplyAt(map[], t, 0);
    ApplyAt(map[], t, 1);
    ApplyAt(map[], t, 2);
    ApplyAt(map[], t, 3);
    ApplyAbsent(map[], t, RenderScript.Start);
    ApplyAbsent(map[], t, RenderScript.End);
    ApplyAbsent(map[], t, RenderScript.Step);
  }

  lemma AnimationTypeValues(c: Command)
    requires !c.image
    ensures var v := Apply(map[], TypePairs(c));
      && RenderScript.Type in v && v[RenderScript.Type] == "animation"
      && RenderScript.Output in v && v[RenderScript.Output] == c.output
      && RenderScript.Format in v && v[RenderScript.Format] == c.format
      && RenderScript.Frame !in v
      && RenderScript.Start in v && v[RenderScript.Start] == Text.IntToString(c.start)
      && RenderScript.End in v && v[RenderScript.End] == Text.IntToString(c.end)
      && RenderScript.Step in v && v[RenderScript.Step] == Text.IntToString(c.step)
  {
    var t := TypePairs(c);
    ApplyAt(map[], t, 0);
    ApplyAt(map[], t, 1);
    ApplyAt(map[], t, 2);
    ApplyAt(map[], t, 3);
    ApplyAt(map[], t, 4);
    ApplyAt(map[], t, 5);
    ApplyAbsent(map[], t, RenderScript.Frame);
  }

  /** The values the engine options leave, over whatever was read before. */
  lemma EngineValues(m: map<RenderScript.Flag, string>, c: Command)
    ensures var v := Apply(m, EnginePairs(c));
      && RenderScript.Engine in v && v[RenderScript.Engine] == c.engine
      && RenderScript.Samples in v && v[RenderScript.Samples] == Text.IntToString(c.samples)
      && RenderScript.Denoising in v && v[RenderScript.Denoising] == c.denoising
      && RenderScript.Device in v && v[RenderScript.Device] == c.device
      && RenderScript.Threads in v && v[RenderScript.Threads] == Text.IntToString(c.threads)
  {
    var e := EnginePairs(c);
    ApplyAt(m, e, 0);
    ApplyAt(m, e, 1);
    ApplyAt(m, e, 2);
    ApplyAt(m, e, 3);
    ApplyAt(m, e, 4);
  }

  /** The values the picture options leave, over whatever was read before. */
  lemma PictureValues(m: map<RenderScript.Flag, string>, c: Command)
    ensures var v := Apply(m, PicturePairs(c));
      && RenderScript.ResolutionX in v && v[RenderScript.ResolutionX] == Text.IntToString(c.resolutionX)
      && RenderScript.ResolutionY in v && v[RenderScript.ResolutionY] == Text.IntToString(c.resolutionY)
      && RenderScript.ResolutionScale in v
      && v[RenderScript.ResolutionScale] == Text.IntToString(c.resolutionScale)
      && RenderScript.Fps in v && v[RenderScript.Fps] == Text.IntToString(c.fps)
      && RenderScript.FpsBase in v && v[RenderScript.FpsBase] == c.fpsBase
      && RenderScript.Filename in v && v[RenderScript.Filename] == c.filename
  {
    var q := PicturePairs(c);
    ApplyAt(m, q, 0);
    ApplyAt(m, q, 1);
    ApplyAt(m, q, 2);
    ApplyAt(m, q, 3);
    ApplyAt(m, q, 4);
    ApplyAt(m, q, 5);
  }

  predicate IsPictureFlag(f: RenderScript.Flag) {
    f == RenderScript.ResolutionX || f == RenderScript.ResolutionY || f == RenderScript.ResolutionScale
    || f == RenderScript.Fps || f == RenderScript.FpsBase || f == RenderScript.Filename
  }

  predicate IsEngineFlag(f: RenderScript.Flag) {
    f == RenderScript.Engine || f == RenderScript.Samples || f == RenderScript.Denoising
    || f == RenderScript.Device || f == RenderScript.Threads
  }

  /** The picture options leave every other option as it was. */
  lemma PictureKeeps(m: map<RenderScript.Flag, string>, c: Command, f: RenderScript.Flag)
    requires !IsPictureFlag(f)
    ensures f in Apply(m, PicturePairs(c)) <==> f in m
    ensures f in m ==> Apply(m, PicturePairs(c))[f] == m[f]
  {
    ApplyAbsent(m, PicturePairs(c), f);
  }

  /** The engine and picture options leave every other option as it was. */
  lemma CommonKeeps(m: map<RenderScript.Flag, string>, c: Command, f: RenderScript.Flag)
    requires !IsPictureFlag(f) && !IsEngineFlag(f)
    ensures f in Apply(m, EnginePairs(c) + PicturePairs(c)) <==> f in m
    ensures f in m ==> Apply(m, EnginePairs(c) + PicturePairs(c))[f] == m[f]
  {
    ApplyConcat(m, EnginePairs(c), PicturePairs(c));
    ApplyAbsent(m, EnginePairs(c), f);
    PictureKeeps(Apply(m, EnginePairs(c)), c, f);
  }

  /** The type-dependent options pass through the engine and picture options. */
  lemma TypeOptionsKept(c: Command, f: RenderScript.Flag)
    requires !IsPictureFlag(f) && !IsEngineFlag(f)
    ensures f in Apply(map[], Pairs(c)) <==> f in Apply(map[], TypePairs(c))
    ensures f in Apply(map[], TypePairs(c)) ==> Apply(map[], Pairs(c))[f] == Apply(map[], TypePairs(c))[f]
  {
    ApplyConcat(map[], TypePairs(c), EnginePairs(c) + PicturePairs(c));
    CommonKeeps(Apply(map[], TypePairs(c)), c, f);
  }

  /** After the whole command line, the type-dependent options hold the
      values the command gives them. */
  lemma TypeOptionValues(c: Command)
    ensures var v := Apply(map[], Pairs(c));
      && RenderScript.Type in v && RenderScript.Output in v && RenderScript.Format in v
      && v[RenderScript.Type] == (if c.image then "image" else "animation")
      && v[RenderScript.Output] == c.output
      && v[RenderScript.Format] == c.format
  {
    TypeValues(c);
    TypeOptionsKept(c, RenderScript.Type);
    TypeOptionsKept(c, RenderScript.Output);
    TypeOptionsKept(c, RenderScript.Format);
  }

  /** After the whole command line, the frame options hold the command's
      numbers: the still frame for an image, the range otherwise. */
  lemma FrameOptionValues(c: Command)
    ensures var v := Apply(map[], Pairs(c));
      && RenderScript.IntOption(v, RenderScript.Frame) == (if c.image then Some(c.frame) else None)
      && RenderScript.IntOption(v, RenderScript.Start) == (if c.image then None else Some(c.start))
      && RenderScript.IntOption(v, RenderScript.End) == (if c.image then None else Some(c.end))
      && RenderScript.IntOption(v, RenderScript.Step) == (if c.image then None else Some(c.step))
  {
    TypeOptionsKept(c, RenderScript.Frame);
    TypeOptionsKept(c, RenderScript.Start);
    TypeOptionsKept(c, RenderScript.End);
    TypeOptionsKept(c, RenderScript.Step);
    if c.image {
      ImageTypeValues(c);
      Text.ParseIntOfIntToString(c.frame);
    } else {
      AnimationTypeValues(c);
      Text.ParseIntOfIntToString(c.start);
      Text.ParseIntOfIntToString(c.end);
      Text.ParseIntOfIntToString(c.step);
    }
  }

  /** After the whole command line, the engine options hold the values the
      command gives them. */
  lemma EngineOptionValues(c: Command)
    ensures var v := Apply(map[], Pairs(c));
      && RenderScript.Engine in v && v[RenderScript.Engine] == c.engine
      && RenderScript.Samples in v && v[RenderScript.Samples] == Text.IntToString(c.samples)
      && RenderScript.Denoising in v && v[RenderScript.Denoising] == c.denoising
      && RenderScript.Device in v && v[RenderScript.Device] == c.device
      && RenderScript.Threads in v && v[RenderScript.Threads] == Text.IntToString(c.threads)
  {
    EngineValues(Apply(map[], TypePairs(c)), c);
    EngineOptionsKept(c, RenderScript.Engine);
    EngineOptionsKept(c, RenderScript.Samples);
    EngineOptionsKept(c, RenderScript.Denoising);
    EngineOptionsKept(c, RenderScript.Device);
    EngineOptionsKept(c, RenderScript.Threads);
  }

  /** The engine options pass through the picture options. */
  lemma EngineOptionsKept(c: Command, f: RenderScript.Flag)
    requires !IsPictureFlag(f)
    ensures var ve := Apply(Apply(map[], TypePairs(c)), EnginePairs(c));
      && (f in Apply(map[], Pairs(c)) <==> f in ve)
      && (f in ve ==> Apply(map[], Pairs(c))[f] == ve[f])
  {
    var vt := Apply(map[], TypePairs(c));
    ApplyConcat(map[], TypePairs(c), EnginePairs(c) + PicturePairs(c));
    ApplyConcat(vt, EnginePairs(c), PicturePairs(c));
    PictureKeeps(Apply(vt, EnginePairs(c)), c, f);
  }

  /** After the whole command line, the picture options hold the values the
      command gives them. */
  lemma PictureOptionValues(c: Command)
    ensures var v := Apply(map[], Pairs(c));
      && RenderScript.ResolutionX in v && v[RenderScript.ResolutionX] == Text.IntToString(c.resolutionX)
      && RenderScript.ResolutionY in v && v[RenderScript.ResolutionY] == Text.IntToString(c.resolutionY)
      && RenderScript.ResolutionScale in v
      && v[RenderScript.ResolutionScale] == Text.IntToString(c.resolutionScale)
      && RenderScript.Fps in v && v[RenderScript.Fps] == Text.IntToString(c.fps)
      && RenderScript.FpsBase in v && v[RenderScript.FpsBase] == c.fpsBase
      && RenderScript.Filename in v && v[RenderScript.Filename] == c.filename
  {
    var vt := Apply(map[], TypePairs(c));
    ApplyConcat(map[], TypePairs(c), EnginePairs(c) + PicturePairs(c));
    ApplyConcat(vt, EnginePairs(c), PicturePairs(c));
    PictureValues(Apply(vt, EnginePairs(c)), c);
  }

  /** The namespace the script should end up with for a command. */
  function ArgsOf(c: Command, projectPath: string): RenderScript.Args {
    RenderScript.Args(
      if c.image then "image" else "animation",
      if c.image then Some(c.frame) else None,
      if c.image then None else Some(c.start),
      if c.image then None else Some(c.end),
      if c.image then None else Some(c.step),
      c.output, c.format, c.engine,
      Text.IntToString(c.samples), c.denoising, c.device, Text.IntToString(c.threads),
      Text.IntToString(c.resolutionX), Text.IntToString(c.resolutionY),
      Text.IntToString(c.resolutionScale), Text.IntToString(c.fps),
      c.fpsBase, c.filename, projectPath)
  }

  /** With every option read and the project path as the one positional,
      argparse returns the command's values. */
  lemma FinishOfCommand(c: Command, projectPath: string)
    ensures RenderScript.Finish(RenderScript.Parsed(Apply(map[], Pairs(c)), [projectPath], []))
      == Ok(ArgsOf(c, projectPath))
  {
    TypeOptionValues(c);
    FrameOptionValues(c);
    EngineOptionValues(c);
    PictureOptionValues(c);
  }

  /** The script reads a full command line, laid out as the manager lays it
      out, back into the command's values. */
  lemma ParseArgsOfCommand(exe: string, script: string, c: Command, projectPath: string)
    requires exe != "--" && script != "--" && Plain(c) && NoDash(projectPath)
    ensures RenderScript.ParseArgs([exe, "--background", "--python", script, "--"]
                                   + Manager.Flatten(Named(Pairs(c))) + [projectPath])
      == Ok(ArgsOf(c, projectPath))
  {
    var body := Manager.Flatten(Named(Pairs(c))) + [projectPath];
    SeparatorAfterHead(exe, script, body);
    assert [exe, "--background", "--python", script, "--"] + Manager.Flatten(Named(Pairs(c))) + [projectPath]
      == [exe, "--background", "--python", script, "--"] + body;
    PairsFit(c);
    ScanNamed(Pairs(c), [projectPath], RenderScript.Empty);
    ScanProjectPath(projectPath, RenderScript.Empty.(values := Apply(map[], Pairs(c))));
    FinishOfCommand(c, projectPath);
  }

  /** Blender's own arguments end at the first "--". */
  lemma SeparatorAfterHead(exe: string, script: string, body: seq<string>)
    requires exe != "--" && script != "--"
    ensures var argv := [exe, "--background", "--python", script, "--"] + body;
      RenderScript.SeparatorIndex(argv) == 4 && argv[5..] == body
  {
    var argv := [exe, "--background", "--python", script, "--"] + body;
    assert argv[4] == "--";
    assert argv[0] != "--" && argv[1] != "--" && argv[2] != "--" && argv[3] != "--";
  }

  /** The project path, last on the line, is the one positional. */
  lemma ScanProjectPath(path: string, st: RenderScript.Parsed)
    requires NoDash(path) && st.positionals == []
    ensures RenderScript.Scan([path], st) == Ok(st.(positionals := [path]))
  {
    assert RenderScript.Classify(path) == RenderScript.Arg(path);
    assert [path][1..] == [];
    assert st.positionals + [path] == [path];
    assert RenderScript.Scan([], st.(positionals := [path])) == Ok(st.(positionals := [path]));
  }

  /** The text values of a project's render command that argparse must read
      as values: none of them starts with a dash. */
  predicate PlainProject(p: Project) {
    && NoDash(p.filePath)
    && NoDash(Manager.RenderOutput(p.settings))
    && NoDash(p.settings.fileFormat)
    && NoDash(p.settings.cyclesDevice)
    && NoDash(p.settings.fpsBase)
    && NoDash(p.settings.outputFilename)
  }

  /** The values the manager sends for a project: the Command with the
      manager's output path. */
  function ProjectCommand(p: Project): Command {
    CommandOf(p.settings, Manager.RenderOutput(p.settings))
  }

  /** The render script reads back, option by option, the values the
      manager put on its command line for the project. */
  lemma RenderArgumentsRoundTrip(p: Project, scriptPath: string, existing: set<string>)
    requires Manager.RenderCommand(p, scriptPath, existing).Launched?
    requires p.settings.blenderPath != "--" && scriptPath != "--"
    requires IsEngine(p.settings.renderEngine) && PlainProject(p)
    ensures RenderScript.ParseArgs(Manager.RenderCommand(p, scriptPath, existing).argv)
      == Ok(ArgsOf(ProjectCommand(p), p.filePath))
  {
    var s := p.settings;
    var c := ProjectCommand(p);
    var argv := Manager.RenderCommand(p, scriptPath, existing).argv;
    NamedPairs(s);
    var head := [s.blenderPath, "--background", "--python", scriptPath, "--"];
    assert argv == head + Manager.Flatten(Named(Pairs(c))) + [p.filePath] by {
      assert argv[..5] == head;
      assert argv[5..|argv| - 1] == Manager.Flatten(Named(Pairs(c)));
      assert argv == argv[..5] + argv[5..|argv| - 1] + [argv[|argv| - 1]];
    }
    assert NoDash(Text.BoolFlag(s.cyclesDenoising));
    ParseArgsOfCommand(s.blenderPath, scriptPath, c, p.filePath);
  }

  /** What the render worker is asked to render for a project. */
  function ExpectedKind(s: Settings): RenderScript.RenderKind {
    if s.renderType == "Image" then RenderScript.StillFrame(s.frameCurrent)
    else RenderScript.AnimationRange(s.frameStart, s.frameEnd, s.frameStep)
  }

  /** The engine settings the render worker applies for a project. */
  function ExpectedEngine(s: Settings): RenderScript.EngineSetup {
    if s.renderEngine == "CYCLES" then
      RenderScript.CyclesSetup(s.cyclesSamples, s.cyclesDenoising, s.cyclesDevice, s.threads)
    else RenderScript.EeveeSetup(s.eeveeSamples)
  }

  /** The scene settings the render worker applies for a project. */
  function ExpectedScene(s: Settings): RenderScript.SceneSetup {
    RenderScript.SceneSetup(
      s.resolutionX, s.resolutionY, s.resolutionScale, s.fps, s.fpsBase, s.fileFormat,
      RenderScript.OutputFilepath(Manager.RenderOutput(s), s.outputFilename),
      ExpectedEngine(s))
  }

  lemma PlanOfProject(p: Project)
    ensures RenderScript.Plan(ArgsOf(ProjectCommand(p), p.filePath))
      == Ok(RenderScript.Job(p.filePath, ExpectedKind(p.settings), ExpectedScene(p.settings)))
  {
    var s := p.settings;
    Text.ParseIntOfIntToString(Manager.Samples(s));
    Text.ParseIntOfIntToString(s.threads);
    Text.ParseIntOfIntToString(s.resolutionX);
    Text.ParseIntOfIntToString(s.resolutionY);
    Text.ParseIntOfIntToString(s.resolutionScale);
    Text.ParseIntOfIntToString(s.fps);
  }

  /** A full render launched by the manager renders the project's file with
      the project's frames, picture, format and engine settings. */
  lemma RenderJobOfProject(p: Project, scriptPath: string, existing: set<string>)
    requires Manager.RenderCommand(p, scriptPath, existing).Launched?
    requires p.settings.blenderPath != "--" && scriptPath != "--"
    requires IsEngine(p.settings.renderEngine) && PlainProject(p)
    ensures RenderScript.Run(Manager.RenderCommand(p, scriptPath, existing).argv)
      == Ok(RenderScript.Job(p.filePath, ExpectedKind(p.settings), ExpectedScene(p.settings)))
  {
    RenderArgumentsRoundTrip(p, scriptPath, existing);
    PlanOfProject(p);
  }

  /** With no file name, or a file name that is one relative path part, the
      render script writes exactly where the manager points it: the script
      takes the parent of `--output` and puts the name back. The file lands in
      the project's output folder, under the project's output file name. */
  lemma OutputPathAgrees(s: Settings)
    requires s.outputFilename == "" || Paths.IsSinglePart(s.outputFilename)
    ensures RenderScript.OutputFilepath(Manager.RenderOutput(s), s.outputFilename) == Manager.RenderOutput(s)
    ensures var written := Paths.Parse(RenderScript.OutputFilepath(Manager.RenderOutput(s), s.outputFilename));
      && (s.outputFilename == "" ==> written == Paths.Parse(s.outputPath))
      && (s.outputFilename != "" ==>
            && Paths.Parent(written) == Paths.Parse(s.outputPath)
            && Paths.Name(written) == Paths.Parse(s.outputFilename).parts[0])
  {
    var base := Paths.Parse(s.outputPath);
    if s.outputFilename == "" {
      Paths.NormalizeIdempotent(s.outputPath);
      Paths.ParseFormat(base);
    } else {
      var joined := Paths.Join(base, s.outputFilename);
      Paths.ParseFormat(joined);
      Paths.ParentOfChild(base, s.outputFilename);
    }
  }

  /** `x/y` for two plain parts parses to those two parts. */
  lemma ParseTwoParts(x: string, y: string)
    requires Paths.IsPart(x) && Paths.IsPart(y)
    ensures Paths.Parse(x + "/" + y) == Paths.PurePath("", [x, y])
  {
    var name := x + "/" + y;
    assert name[0] == x[0];
    assert Paths.RootOf(name) == "";
    assert name[0..] == name;
    Paths.SplitSlashAfterPart(x, y);
    Paths.SplitSlashOfPart(y);
    Paths.DropKeepsParts([x, y]);
  }

  /** A file name with a directory in it is appended twice: for `x/y` the
      manager passes `<output>/x/y`, and the script, which replaces only the
      last part, writes to `<output>/x/x/y`. */
  lemma NestedFilenameRepeatsDirectory(s: Settings, x: string, y: string)
    requires Paths.IsPart(x) && Paths.IsPart(y) && s.outputFilename == x + "/" + y
    ensures var base := Paths.Parse(s.outputPath);
      && Manager.RenderOutput(s) == Paths.Format(Paths.PurePath(base.root, base.parts + [x, y]))
      && RenderScript.OutputFilepath(Manager.RenderOutput(s), s.outputFilename)
         == Paths.Format(Paths.PurePath(base.root, base.parts + [x, x, y]))
  {
    var base := Paths.Parse(s.outputPath);
    ParseTwoParts(x, y);
    var out := Paths.PurePath(base.root, base.parts + [x, y]);
    Paths.ParseFormat(out);
    assert Paths.Parent(out).parts == base.parts + [x];
    assert (base.parts + [x]) + [x, y] == base.parts + [x, x, y];
  }
}

=== FILE: render_script.dfy ===
/** `src/blender/render_script.py`, the worker Blender runs for a full render:
    it parses the arguments after the first "--" as `argparse` does, then
    sets up the scene and renders one frame or an animation.

    Opening the .blend file, the script's own `os.makedirs` of the output
    directory and the render itself are not modelled; the model ends with the
    job the script hands to Blender. */
module RenderScript {
  import opened Results
  import Text
  import Paths

  // ---------------------------------------------------------------------
  // Options and tokens
  // ---------------------------------------------------------------------

  /** The options, in the order the parser declares them. */
  datatype Flag =
    | Type | Frame | Start | End | Step | Output | Format | Engine | Samples | Denoising
    | Device | Threads | ResolutionX | ResolutionY | ResolutionScale | Fps | FpsBase | Filename

  function FlagName(f: Flag): string {
    match f
    case Type => "--type"
    case Frame => "--frame"
    case Start => "--start"
    case End => "--end"
    case Step => "--step"
    case Output => "--output"
    case Format => "--format"
    case Engine => "--engine"
    case Samples => "--samples"
    case Denoising => "--denoising"
    case Device => "--device"
    case Threads => "--threads"
    case ResolutionX => "--resolution_x"
    case ResolutionY => "--resolution_y"
    case ResolutionScale => "--resolution_scale"
    case Fps => "--fps"
    case FpsBase => "--fps_base"
    case Filename => "--filename"
  }

  /** The option a token names exactly, if any. */
  function FlagOf(tok: string): (r: Option<Flag>)
    ensures r.Some? ==> FlagName(r.value) == tok
  {
    if tok == "--type" then Some(Type)
    else if tok == "--frame" then Some(Frame)
    else if tok == "--start" then Some(Start)
    else if tok == "--end" then Some(End)
    else if tok == "--step" then Some(Step)
    else if tok == "--output" then Some(Output)
    else if tok == "--format" then Some(Format)
    else if tok == "--engine" then Some(Engine)
    else if tok == "--samples" then Some(Samples)
    else if tok == "--denoising" then Some(Denoising)
    else if tok == "--device" then Some(Device)
    else if tok == "--threads" then Some(Threads)
    else if tok == "--resolution_x" then Some(ResolutionX)
    else if tok == "--resolution_y" then Some(ResolutionY)
    else if tok == "--resolution_scale" then Some(ResolutionScale)
    else if tok == "--fps" then Some(Fps)
    else if tok == "--fps_base" then Some(FpsBase)
    else if tok == "--filename" then Some(Filename)
    else None
  }

  /** Every option is recognised by its own name: the names are distinct. */
  lemma FlagOfName(f: Flag)
    ensures FlagOf(FlagName(f)) == Some(f)
  {
    match f
    case Type =>
    case Frame =>
    case Start =>
    case End =>
    case Step =>
    case Output =>
    case Format =>
    case Engine =>
    case Samples =>
    case Denoising =>
    case Device =>
    case Threads =>
    case ResolutionX =>
    case ResolutionY =>
    case ResolutionScale =>
    case Fps =>
    case FpsBase =>
    case Filename =>
  }

  /** Every option name is a long option: it starts with two dashes. */
  lemma FlagNameIsLong(f: Flag)
    ensures |FlagName(f)| >= 3 && FlagName(f)[0] == '-' && FlagName(f)[1] == '-'
  {
  }

  /** Index of the first occurrence of `c` in `s`, or `|s|`. */
  function IndexOfChar(s: string, c: char): (i: nat)
    ensures i <= |s|
    ensures i < |s| ==> s[i] == c
    ensures forall k :: 0 <= k < i ==> s[k] != c
  {
    if |s| == 0 || s[0] == c then 0 else 1 + IndexOfChar(s[1..], c)
  }

  /** argparse's negative-number pattern: `-` then digits, or `-` then
      optional digits, a point and at least one digit. */
  predicate IsNegativeNumber(tok: string) {
    && |tok| >= 2 && tok[0] == '-'
    && var r := tok[1..];
       var i := IndexOfChar(r, '.');
       if i == |r| then Text.AllDigits(r)
       else Text.AllDigits(r[..i]) && i + 1 < |r| && Text.AllDigits(r[i + 1..])
  }

  /** How argparse reads one token. */
  datatype Token =
    | Opt(flag: Flag)        // a declared option
    | Unknown(text: string)  // looks like an option but is none
    | Arg(text: string)      // a value or a positional
    | EndOfOptions           // "--": everything after it is positional

  /** argparse's classification: a token that does not start with '-' is an
      argument; a declared option name is that option; a lone "-", a negative
      number, or a token with a space is an argument; any other token that
      starts with '-' is an unknown option. */
  function Classify(tok: string): (t: Token)
    ensures t.Opt? ==> FlagName(t.flag) == tok
    ensures t.Arg? ==> t.text == tok
    ensures tok == "" || tok[0] != '-' ==> t == Arg(tok)
  {
    if tok == "--" then EndOfOptions
    else if tok == "" || tok[0] != '-' then Arg(tok)
    else match FlagOf(tok)
      case Some(f) => Opt(f)
      case None =>
        if |tok| == 1 || IsNegativeNumber(tok) || ' ' in tok then Arg(tok) else Unknown(tok)
  }

  lemma NotAFlag(tok: string)
    requires |tok| >= 2 && tok[1] != '-'
    ensures FlagOf(tok).None?
  {
    if FlagOf(tok).Some? {
      FlagNameIsLong(FlagOf(tok).value);
    }
  }

  /** A token argparse takes as a plain value. */
  predicate IsValue(tok: string) {
    Classify(tok).Arg?
  }

  lemma DigitsHaveNoPoint(s: string)
    requires Text.AllDigits(s)
    ensures IndexOfChar(s, '.') == |s|
  {
    var i := IndexOfChar(s, '.');
    assert i < |s| ==> Text.IsDigit(s[i]);
  }

  /** Decimal integers, negative ones included, are plain values. */
  lemma IntIsValue(n: int)
    ensures IsValue(Text.IntToString(n))
  {
    var s := Text.IntToString(n);
    if n < 0 {
      var digits := Text.NatToString(-n);
      assert s == "-" + digits;
      assert s[1..] == digits;
      DigitsHaveNoPoint(digits);
      assert IsNegativeNumber(s);
      assert Text.IsDigit(s[1]);
      NotAFlag(s);
    } else {
      assert Text.IsDigit(s[0]);
    }
  }

  // ---------------------------------------------------------------------
  // Parsing
  // ---------------------------------------------------------------------

  /** Why the script stops before rendering. */
  datatype ScriptError =
    | NoSeparator                        // `sys.argv.index("--")` raises ValueError
    | ExpectedOneArgument(flag: Flag)    // an option without a value
    | InvalidChoice(value: string)       // --type outside image/animation
    | InvalidInt(flag: Flag, value: string)
    | MissingRequired                    // a required option or the project path is absent
    | Unrecognized(extras: seq<string>)  // unknown options or extra positionals
    | NotAnInteger(value: string)        // int() in setup_render_settings
    | FrameUnset                         // a frame number that argparse left as None

  /** What the parser has read so far. */
  datatype Parsed = Parsed(values: map<Flag, string>, positionals: seq<string>, extras: seq<string>)

  /** The options declared with `type=int`. */
  predicate IsIntFlag(f: Flag) {
    f == Frame || f == Start || f == End || f == Step
  }

  /** Every value the parser has stored passed its option's conversion. */
  predicate Checked(values: map<Flag, string>) {
    forall f :: f in values ==> CheckValue(f, values[f]).Ok?
  }

  /** The conversions argparse applies when it reads an option's value:
      `choices` for --type, `int` for the frame options. */
  function CheckValue(f: Flag, v: string): (r: Result<string, ScriptError>)
    ensures r.Ok? ==> r.value == v
    ensures f == Type ==> (r.Ok? <==> v == "image" || v == "animation")
    ensures f == Type && r.Err? ==> r.error == InvalidChoice(v)
    ensures IsIntFlag(f) ==> (r.Ok? <==> Text.ParseInt(v).Some?)
    ensures IsIntFlag(f) && r.Err? ==> r.error == InvalidInt(f, v)
    ensures f != Type && !IsIntFlag(f) ==> r.Ok?
  {
    if f == Type && v != "image" && v != "animation" then Err(InvalidChoice(v))
    else if (f == Frame || f == Start || f == End || f == Step) && Text.ParseInt(v).None? then
      Err(InvalidInt(f, v))
    else Ok(v)
  }

  /** Reads the tokens left to right: an option takes the next token as its
      value (a later occurrence overrides an earlier one), arguments are
      collected as positionals, unknown options as extras, and after "--"
      every token is positional. */
  function Scan(toks: seq<string>, st: Parsed): (r: Result<Parsed, ScriptError>)
    ensures Checked(st.values) && r.Ok? ==> Checked(r.value.values)
    ensures r.Ok? ==> |r.value.extras| >= |st.extras| && r.value.extras[..|st.extras|] == st.extras
    decreases |toks|
  {
    if |toks| == 0 then Ok(st)
    else match Classify(toks[0])
      case EndOfOptions => Ok(st.(positionals := st.positionals + toks[1..]))
      case Arg(t) => Scan(toks[1..], st.(positionals := st.positionals + [t]))
      case Unknown(t) => Scan(toks[1..], st.(extras := st.extras + [t]))
      case Opt(f) =>
        if |toks| < 2 || !IsValue(toks[1]) then Err(ExpectedOneArgument(f))
        else
          var v :- CheckValue(f, toks[1]);
          Scan(toks[2..], st.(values := st.values[f := v]))
  }

  const Empty := Parsed(map[], [], [])

  const RequiredFlags: set<Flag> := {
    Type, Output, Format, Engine, Samples, Denoising, Device, Threads,
    ResolutionX, ResolutionY, ResolutionScale, Fps, FpsBase, Filename}

  /** The namespace argparse returns. */
  datatype Args = Args(
    renderType: string,
    frame: Option<int>,
    start: Option<int>,
    end: Option<int>,
    step: Option<int>,
    output: string,
    format: string,
    engine: string,
    samples: string,
    denoising: string,
    device: string,
    threads: string,
    resolutionX: string,
    resolutionY: string,
    resolutionScale: string,
    fps: string,
    fpsBase: string,
    filename: string,
    projectPath: string)

  /** An optional integer option: None when it was not given. */
  function IntOption(values: map<Flag, string>, f: Flag): Option<int> {
    if f in values then Text.ParseInt(values[f]) else None
  }

  /** The end of `parse_args`: required options and the project path must be
      present, and nothing may be left over. */
  function Finish(p: Parsed): (r: Result<Args, ScriptError>)
    ensures r.Ok? ==> RequiredFlags <= p.values.Keys && |p.positionals| == 1 && p.extras == []
    ensures r.Ok? ==> r.value.projectPath == p.positionals[0]
  {
    if !(RequiredFlags <= p.values.Keys) || |p.positionals| == 0 then Err(MissingRequired)
    else if |p.positionals| > 1 || p.extras != [] then Err(Unrecognized(p.positionals[1..] + p.extras))
    else
      var v := p.values;
      Ok(Args(v[Type], IntOption(v, Frame), IntOption(v, Start), IntOption(v, End), IntOption(v, Step),
              v[Output], v[Format], v[Engine], v[Samples], v[Denoising], v[Device], v[Threads],
              v[ResolutionX], v[ResolutionY], v[ResolutionScale], v[Fps], v[FpsBase], v[Filename],
              p.positionals[0]))
  }

  /** Index of the first "--" in argv, or `|argv|`. */
  function SeparatorIndex(argv: seq<string>): (i: nat)
    ensures i <= |argv|
    ensures i < |argv| ==> argv[i] == "--"
    ensures forall k :: 0 <= k < i ==> argv[k] != "--"
  {
    if |argv| == 0 || argv[0] == "--" then 0 else 1 + SeparatorIndex(argv[1..])
  }

  /** `parser.parse_args` on the tokens after the separator: it fails when
      reading them fails or leaves extras, and its `--type` is a choice. */
  function ParseTail(toks: seq<string>): (r: Result<Args, ScriptError>)
    ensures Scan(toks, Empty).Err? ==> r.Err?
    ensures Scan(toks, Empty).Ok? && Scan(toks, Empty).value.extras != [] ==> r.Err?
    ensures r.Ok? ==> r.value.renderType == "image" || r.value.renderType == "animation"
  {
    var p :- Scan(toks, Empty);
    Finish(p)
  }

  /** `parser.parse_args(sys.argv[sys.argv.index("--") + 1:])` */
  function ParseArgs(argv: seq<string>): (r: Result<Args, ScriptError>)
    ensures "--" !in argv ==> r == Err(NoSeparator)
    ensures r.Ok? ==> r.value.renderType == "image" || r.value.renderType == "animation"
  {
    var i := SeparatorIndex(argv);
    if i == |argv| then Err(NoSeparator) else ParseTail(argv[i + 1..])
  }

  /** No "--" among the tokens before position `j`. */
  predicate NoEndBefore(toks: seq<string>, j: nat)
    requires j <= |toks|
  {
    forall k :: 0 <= k < j ==> toks[k] != "--"
  }

  /** An unknown option that no earlier "--" turned into a positional ends
      up among the extras: it cannot be taken as an option's value. */
  lemma {:induction false} ScanKeepsUnknown(toks: seq<string>, st: Parsed, j: nat)
    requires j < |toks| && Classify(toks[j]).Unknown? && NoEndBefore(toks, j)
    ensures Scan(toks, st).Ok? ==> Scan(toks, st).value.extras != []
    decreases |toks|
  {
    var t := Classify(toks[0]);
    if j > 0 {
      assert toks[0] != "--";
      assert forall k :: 0 <= k < j - 1 ==> toks[1..][k] == toks[k + 1];
      if t.Arg? || t.Unknown? {
        ScanKeepsUnknown(toks[1..], if t.Arg? then st.(positionals := st.positionals + [t.text])
                                   else st.(extras := st.extras + [t.text]), j - 1);
      } else if t.Opt? && |toks| >= 2 && IsValue(toks[1]) && CheckValue(t.flag, toks[1]).Ok? {
        assert j >= 2;
        assert forall k :: 0 <= k < j - 2 ==> toks[2..][k] == toks[k + 2];
        ScanKeepsUnknown(toks[2..], st.(values := st.values[t.flag := toks[1]]), j - 2);
      }
    }
  }

  /** An option name as the last token, with no "--" before it, has no
      value to take: argparse's "expected one argument". */
  lemma {:induction false} ScanRejectsTrailingOption(toks: seq<string>, st: Parsed)
    requires |toks| >= 1 && Classify(toks[|toks| - 1]).Opt? && NoEndBefore(toks, |toks| - 1)
    ensures Scan(toks, st).Err?
    decreases |toks|
  {
    var t := Classify(toks[0]);
    if |toks| > 1 {
      assert toks[0] != "--";
      if t.Arg? || t.Unknown? {
        assert toks[1..][|toks| - 2] == toks[|toks| - 1];
        assert forall k :: 0 <= k < |toks| - 2 ==> toks[1..][k] == toks[k + 1];
        ScanRejectsTrailingOption(toks[1..], if t.Arg? then st.(positionals := st.positionals + [t.text])
                                             else st.(extras := st.extras + [t.text]));
      } else if t.Opt? && IsValue(toks[1]) && CheckValue(t.flag, toks[1]).Ok? {
        assert |toks| > 2;
        assert toks[2..][|toks| - 3] == toks[|toks| - 1];
        assert forall k :: 0 <= k < |toks| - 3 ==> toks[2..][k] == toks[k + 2];
        ScanRejectsTrailingOption(toks[2..], st.(values := st.values[t.flag := toks[1]]));
      }
    }
  }

  /** After the separator, an unknown option that no "--" turned into a
      positional first is rejected ("unrecognized arguments"). */
  lemma ParseTailRejectsUnknown(toks: seq<string>, j: nat)
    requires j < |toks| && Classify(toks[j]).Unknown? && NoEndBefore(toks, j)
    ensures ParseTail(toks).Err?
  {
    ScanKeepsUnknown(toks, Empty, j);
  }

  /** After the separator, an option name as the last token with no "--"
      before it is rejected ("expected one argument"). */
  lemma ParseTailRejectsTrailingOption(toks: seq<string>)
    requires |toks| >= 1 && Classify(toks[|toks| - 1]).Opt? && NoEndBefore(toks, |toks| - 1)
    ensures ParseTail(toks).Err?
  {
    ScanRejectsTrailingOption(toks, Empty);
  }

  /** The arguments after the first "--" are the ones argparse reads. */
  lemma ParseArgsOfTail(argv: seq<string>)
    requires "--" in argv
    ensures SeparatorIndex(argv) < |argv|
    ensures ParseArgs(argv) == ParseTail(argv[SeparatorIndex(argv) + 1..])
  {
  }

  // ---------------------------------------------------------------------
  // Scene setup
  // ---------------------------------------------------------------------

  datatype EngineSetup =
    | CyclesSetup(samples: int, useDenoising: bool, device: string, threads: int)
    | EeveeSetup(samples: int)  // eevee.taa_render_samples

  /** What `setup_render_settings` writes into the scene. `fpsBase` is the
      text `float()` is applied to. */
  datatype SceneSetup = SceneSetup(
    resolutionX: int,
    resolutionY: int,
    percentage: int,
    fps: int,
    fpsBase: string,
    fileFormat: string,
    filepath: string,
    engine: EngineSetup)

  datatype RenderKind =
    | StillFrame(frame: int)
    | AnimationRange(start: int, end: int, step: int)

  /** What Blender is asked to do: open this file, set up the scene, render. */
  datatype Job = Job(projectPath: string, kind: RenderKind, setup: SceneSetup)

  function Int(s: string): (r: Result<int, ScriptError>)
    ensures r.Ok? <==> Text.ParseInt(s).Some?
    ensures r.Ok? ==> Some(r.value) == Text.ParseInt(s)
  {
    match Text.ParseInt(s)
    case Some(n) => Ok(n)
    case None => Err(NotAnInteger(s))
  }

  /** The file the render is written to: with a file name, the name replaces
      the last part of `--output`; without one, `--output` itself. */
  function OutputFilepath(output: string, filename: string): (path: string)
    ensures filename == "" ==> path == Paths.Normalize(output)
    ensures filename != "" ==>
      Paths.Parse(path) == Paths.Join(Paths.Parent(Paths.Parse(output)), filename)
    ensures Paths.IsSinglePart(filename) ==>
      && Paths.Parent(Paths.Parse(path)) == Paths.Parent(Paths.Parse(output))
      && Paths.Name(Paths.Parse(path)) == Paths.Parse(filename).parts[0]
  {
    var out := Paths.Parse(output);
    Paths.ChildPath(Paths.Parent(out), filename);
    Paths.ParseEmpty();
    Paths.ParseFormat(Paths.Join(Paths.Parent(out), filename));
    if filename != "" then Paths.Format(Paths.Join(Paths.Parent(out), filename))
    else Paths.Format(out)
  }

  /** The engine block: CYCLES sets samples, denoising, device and threads;
      any other engine name becomes EEVEE with only its samples set. */
  function SetupEngine(a: Args): (r: Result<EngineSetup, ScriptError>)
    ensures r.Ok? && a.engine == "CYCLES" ==> r.value.CyclesSetup?
    ensures r.Ok? && a.engine != "CYCLES" ==> r.value.EeveeSetup?
    ensures r.Ok? ==> Text.ParseInt(a.samples) == Some(r.value.samples)
    ensures r.Ok? && a.engine == "CYCLES" ==>
      && r.value.device == a.device
      && Text.ParseInt(a.threads) == Some(r.value.threads)
      && (r.value.useDenoising <==> Text.ParseInt(a.denoising) != Some(0))
    ensures a.engine == "CYCLES" ==>
      (r.Ok? <==> Text.ParseInt(a.samples).Some? && Text.ParseInt(a.denoising).Some?
                  && Text.ParseInt(a.threads).Some?)
    ensures a.engine != "CYCLES" ==> (r.Ok? <==> Text.ParseInt(a.samples).Some?)
  {
    if a.engine == "CYCLES" then
      var samples :- Int(a.samples);
      var denoising :- Int(a.denoising);
      var threads :- Int(a.threads);
      Ok(CyclesSetup(samples, denoising != 0, a.device, threads))
    else
      var samples :- Int(a.samples);
      Ok(EeveeSetup(samples))
  }

  /** `setup_render_settings`, in the order the script applies the settings. */
  function Setup(a: Args): (r: Result<SceneSetup, ScriptError>)
    ensures r.Ok? ==> r.value.filepath == OutputFilepath(a.output, a.filename)
    ensures r.Ok? ==> r.value.fileFormat == a.format && r.value.fpsBase == a.fpsBase
  {
    var resolutionX :- Int(a.resolutionX);
    var resolutionY :- Int(a.resolutionY);
    var percentage :- Int(a.resolutionScale);
    var fps :- Int(a.fps);
    var engine :- SetupEngine(a);
    Ok(SceneSetup(resolutionX, resolutionY, percentage, fps, a.fpsBase, a.format,
                  OutputFilepath(a.output, a.filename), engine))
  }

  /** The dispatch at the end of `main`: "image" renders the given frame,
      anything else (only "animation" gets past the parser) renders the
      range. A frame option that was not given is None, which Blender
      rejects. */
  function Plan(a: Args): (r: Result<Job, ScriptError>)
    ensures r.Ok? ==> r.value.projectPath == a.projectPath
    ensures r.Ok? && a.renderType == "image" ==> r.value.kind.StillFrame? && a.frame == Some(r.value.kind.frame)
    ensures r.Ok? && a.renderType != "image" ==>
      && r.value.kind.AnimationRange?
      && a.start == Some(r.value.kind.start) && a.end == Some(r.value.kind.end) && a.step == Some(r.value.kind.step)
    ensures a.renderType == "image" && a.frame.None? ==> r == Err(FrameUnset)
  {
    var kind :-
      if a.renderType == "image" then
        if a.frame.None? then Err(FrameUnset) else Ok(StillFrame(a.frame.value))
      else if a.start.None? || a.end.None? || a.step.None? then Err(FrameUnset)
      else Ok(AnimationRange(a.start.value, a.end.value, a.step.value));
    var setup :- Setup(a);
    Ok(Job(a.projectPath, kind, setup))
  }

  /** The whole script, from Blender's argv to the job. */
  function Run(argv: seq<string>): (r: Result<Job, ScriptError>)
    ensures "--" !in argv ==> r == Err(NoSeparator)
  {
    var a :- ParseArgs(argv);
    Plan(a)
  }
}

=== FILE: results.dfy ===
/** Failure-carrying values used across the model: an optional value, and a
    result that is either a value or an error. Both work with `:-`. */
module Results {

  datatype Option<+T> = None | Some(value: T) {
    predicate IsFailure() { None? }

    function PropagateFailure<U>(): Option<U>
      requires None?
    {
      None
    }

    function Extract(): T
      requires Some?
    {
      value
    }
  }

  datatype Result<+T, +E> = Ok(value: T) | Err(error: E) {
    predicate IsFailure() { Err? }

    function PropagateFailure<U>(): Result<U, E>
      requires Err?
    {
      Err(error)
    }

    function Extract(): T
      requires Ok?
    {
      value
    }
  }
}

=== FILE: text.dfy ===
/** The pieces of Python's text handling that the command line and the
    stdout protocol depend on: `str(int)` and `int(str)` for decimal
    integers, `str.startswith`, `str.strip`, `str.splitlines`, and the
    newline-terminated lines that `print` writes. */
module Text {
  import opened Results

  // ---------------------------------------------------------------------
  // Decimal integers
  // ---------------------------------------------------------------------

  predicate IsDigit(c: char) { '0' <= c <= '9' }

  function DigitChar(d: int): (c: char)
    requires 0 <= d < 10
    ensures IsDigit(c)
  {
    (('0' as int) + d) as char
  }

  function DigitValue(c: char): int
    requires IsDigit(c)
  {
    (c as int) - ('0' as int)
  }

  predicate AllDigits(s: string) {
    forall i :: 0 <= i < |s| ==> IsDigit(s[i])
  }

  /** Decimal digits of a natural number, most significant first, no leading zero. */
  function NatToString(n: nat): (s: string)
    ensures |s| >= 1 && AllDigits(s)
    ensures |s| > 1 ==> s[0] != '0'
    decreases n
  {
    if n < 10 then [DigitChar(n)] else NatToString(n / 10) + [DigitChar(n % 10)]
  }

  /** Python's `str(n)` for an int. */
  function IntToString(n: int): string {
    if n < 0 then "-" + NatToString(-n) else NatToString(n)
  }

  /** The number a string of decimal digits denotes. */
  function DigitsValue(s: string): nat
    requires AllDigits(s)
  {
    if |s| == 0 then 0 else DigitsValue(s[..|s| - 1]) * 10 + DigitValue(s[|s| - 1])
  }

  /** Python's `int(s)` on a decimal literal with an optional sign; anything else
      (`int()` raises ValueError) is None. */
  function ParseInt(s: string): (r: Option<int>)
    ensures r.Some? ==> |s| >= 1
  {
    if |s| >= 1 && (s[0] == '-' || s[0] == '+') then
      var digits := s[1..];
      if |digits| >= 1 && AllDigits(digits) then
        var magnitude: int := DigitsValue(digits);
        Some(if s[0] == '-' then -magnitude else magnitude)
      else None
    else if |s| >= 1 && AllDigits(s) then Some(DigitsValue(s))
    else None
  }

  lemma {:induction false} DigitsValueOfNatToString(n: nat)
    ensures DigitsValue(NatToString(n)) == n
    decreases n
  {
    if n >= 10 {
      var s := NatToString(n);
      DigitsValueOfNatToString(n / 10);
      assert s[..|s| - 1] == NatToString(n / 10);
    }
  }

  /** `int(str(n)) == n`: the worker scripts read back exactly the integers the
      manager wrote into the command line. */
  lemma ParseIntOfIntToString(n: int)
    ensures ParseInt(IntToString(n)) == Some(n)
  {
    if n < 0 {
      DigitsValueOfNatToString(-n);
      assert IntToString(n)[1..] == NatToString(-n);
    } else {
      DigitsValueOfNatToString(n);
    }
  }

  /** `str(int(b))` for a Python bool, as the command line writes the denoise flag. */
  function BoolFlag(b: bool): (s: string)
    ensures ParseInt(s) == Some(if b then 1 else 0)
  {
    if b then "1" else "0"
  }

  // ---------------------------------------------------------------------
  // Prefixes, whitespace and lines
  // ---------------------------------------------------------------------

  predicate StartsWith(s: string, prefix: string) {
    |prefix| <= |s| && s[..|prefix|] == prefix
  }

  /** Python's `str.isspace` for one character. */
  predicate IsSpace(c: char) {
    ('\t' <= c <= '\r') || ('\U{1c}' <= c <= ' ') || c == '\U{85}' || c == '\U{a0}'
    || c == '\U{1680}' || ('\U{2000}' <= c <= '\U{200a}') || c == '\U{2028}' || c == '\U{2029}'
    || c == '\U{202f}' || c == '\U{205f}' || c == '\U{3000}'
  }

  /** The characters `str.splitlines` breaks at ("\r\n" counts as one break). */
  predicate IsLineBreak(c: char) {
    ('\n' <= c <= '\r') || ('\U{1c}' <= c <= '\U{1e}') || c == '\U{85}'
    || c == '\U{2028}' || c == '\U{2029}'
  }

  lemma LineBreakIsSpace(c: char)
    ensures IsLineBreak(c) ==> IsSpace(c)
  {}

  predicate NoLineBreak(s: string) {
    forall i :: 0 <= i < |s| ==> !IsLineBreak(s[i])
  }

  function TrimLeft(s: string): (r: string)
    ensures |r| <= |s| && r == s[|s| - |r|..]
    ensures r == "" || !IsSpace(r[0])
  {
    if |s| > 0 && IsSpace(s[0]) then TrimLeft(s[1..]) else s
  }

  function TrimRight(s: string): (r: string)
    ensures |r| <= |s| && r == s[..|r|]
    ensures r == "" || !IsSpace(r[|r| - 1])
  {
    if |s| > 0 && IsSpace(s[|s| - 1]) then TrimRight(s[..|s| - 1]) else s
  }

  /** Python's `str.strip()` with no argument. */
  function Strip(s: string): string {
    TrimRight(TrimLeft(s))
  }

  /** Index of the first line break in `s`, or `|s|` when there is none. */
  function FirstBreak(s: string): (i: nat)
    ensures i <= |s|
    ensures i < |s| ==> IsLineBreak(s[i])
    ensures forall k :: 0 <= k < i ==> !IsLineBreak(s[k])
  {
    if |s| == 0 then 0
    else if IsLineBreak(s[0]) then 0
    else 1 + FirstBreak(s[1..])
  }

  /** Python's `str.splitlines()`: the text between line breaks, without the
      breaks, and no empty entry after a final break. */
  function Splitlines(s: string): (ls: seq<string>)
    ensures forall k :: 0 <= k < |ls| ==> NoLineBreak(ls[k])
    decreases |s|
  {
    if s == "" then []
    else
      var i := FirstBreak(s);
      if i == |s| then [s]
      else
        var next := if s[i] == '\r' && i + 1 < |s| && s[i + 1] == '\n' then i + 2 else i + 1;
        [s[..i]] + Splitlines(s[next..])
  }

  /** `"\n".join(ls)` */
  function JoinLines(ls: seq<string>): string {
    if |ls| == 0 then "" else if |ls| == 1 then ls[0] else ls[0] + "\n" + JoinLines(ls[1..])
  }

  /** What a sequence of `print(line)` calls writes: every line followed by "\n". */
  function Printed(ls: seq<string>): string {
    if |ls| == 0 then "" else ls[0] + "\n" + Printed(ls[1..])
  }

  /** The first line that starts with `prefix`, as the manager's scan loop finds it. */
  function FirstWithPrefix(ls: seq<string>, prefix: string): (r: Option<string>)
    ensures r.Some? ==> r.value in ls && StartsWith(r.value, prefix)
    ensures r.None? <==> forall k :: 0 <= k < |ls| ==> !StartsWith(ls[k], prefix)
  {
    if |ls| == 0 then None
    else if StartsWith(ls[0], prefix) then Some(ls[0])
    else FirstWithPrefix(ls[1..], prefix)
  }

  lemma {:induction false} FirstWithPrefixSkips(before: seq<string>, after: seq<string>, prefix: string)
    requires forall k :: 0 <= k < |before| ==> !StartsWith(before[k], prefix)
    ensures FirstWithPrefix(before + after, prefix) == FirstWithPrefix(after, prefix)
    decreases |before|
  {
    if |before| > 0 {
      var all := before + after;
      assert all[0] == before[0] && !StartsWith(all[0], prefix);
      assert all[1..] == before[1..] + after;
      assert FirstWithPrefix(all, prefix) == FirstWithPrefix(all[1..], prefix);
      FirstWithPrefixSkips(before[1..], after, prefix);
    } else {
      assert before + after == after;
    }
  }

  lemma {:induction false} SplitlinesOfLine(l: string)
    requires l != "" && NoLineBreak(l)
    ensures Splitlines(l) == [l]
  {
    assert FirstBreak(l) == |l|;
  }

  lemma {:induction false} SplitlinesAfterLine(l: string, rest: string)
    requires NoLineBreak(l) && rest != ""
    ensures Splitlines(l + "\n" + rest) == [l] + Splitlines(rest)
  {
    var s := l + "\n" + rest;
    FirstBreakAt(l, "\n" + rest);
    assert s[..|l|] == l;
    if |l| + 1 < |s| && s[|l|] == '\r' {
      assert false;
    }
    assert s[|l| + 1..] == rest;
  }

  lemma {:induction false} FirstBreakAt(l: string, rest: string)
    requires NoLineBreak(l) && |rest| > 0 && IsLineBreak(rest[0])
    ensures FirstBreak(l + rest) == |l|
    decreases |l|
  {
    if |l| > 0 {
      assert (l + rest)[1..] == l[1..] + rest;
      FirstBreakAt(l[1..], rest);
    } else {
      assert l + rest == rest;
    }
  }

  /** Splitting the joined lines gives the lines back, provided no line holds a
      break and the last one is not empty (an empty last line has no text after
      its break, and `splitlines` reports nothing for it). */
  lemma {:induction false} SplitlinesOfJoinLines(ls: seq<string>)
    requires |ls| >= 1 && ls[|ls| - 1] != ""
    requires forall k :: 0 <= k < |ls| ==> NoLineBreak(ls[k])
    ensures Splitlines(JoinLines(ls)) == ls
    decreases |ls|
  {
    if |ls| == 1 {
      SplitlinesOfLine(ls[0]);
    } else {
      var rest := JoinLines(ls[1..]);
      JoinLinesNonEmpty(ls[1..]);
      SplitlinesAfterLine(ls[0], rest);
      SplitlinesOfJoinLines(ls[1..]);
    }
  }

  lemma {:induction false} JoinLinesNonEmpty(ls: seq<string>)
    requires |ls| >= 1 && ls[|ls| - 1] != ""
    ensures JoinLines(ls) != ""
    ensures JoinLines(ls)[|JoinLines(ls)| - 1] == ls[|ls| - 1][|ls[|ls| - 1]| - 1]
    decreases |ls|
  {
    if |ls| > 1 {
      JoinLinesNonEmpty(ls[1..]);
    }
  }

  lemma {:induction false} JoinLinesFirst(ls: seq<string>)
    requires |ls| >= 1 && ls[0] != ""
    ensures JoinLines(ls) != "" && JoinLines(ls)[0] == ls[0][0]
  {
  }

  lemma {:induction false} PrintedIsJoinLines(ls: seq<string>)
    requires |ls| >= 1
    ensures Printed(ls) == JoinLines(ls) + "\n"
    decreases |ls|
  {
    if |ls| > 1 {
      PrintedIsJoinLines(ls[1..]);
    }
  }

  /** Stripping printed output removes only the final newline, when the output
      neither starts nor ends with whitespace. */
  lemma StripPrinted(ls: seq<string>)
    requires |ls| >= 1 && ls[0] != "" && ls[|ls| - 1] != ""
    requires !IsSpace(ls[0][0]) && !IsSpace(ls[|ls| - 1][|ls[|ls| - 1]| - 1])
    ensures Strip(Printed(ls)) == JoinLines(ls)
  {
    PrintedIsJoinLines(ls);
    JoinLinesFirst(ls);
    JoinLinesNonEmpty(ls);
    var j := JoinLines(ls);
    var p := j + "\n";
    assert TrimLeft(p) == p;
    assert IsSpace(p[|p| - 1]);
    assert p[..|p| - 1] == j;
    assert TrimRight(j) == j;
  }
}
